=== FILE: README.md ===
# Game hub: a Dafny model of the game rules

The game hub is a browser site with three games: Tic-Tac-Toe, Snake and
Rock-Paper-Scissors. Each game exists as a stand-alone page script, and again as
a class inside the shared loader (`assets/js/game-loader.js`). Tic-Tac-Toe
also has an older copy, under `game/tic-tac-toc/`. `assets/js/utils.js` holds
the hub utilities: the high-score table, two text formatters, and the theme and
sound preferences.

This project models the rules behind those scripts as pure Dafny functions on
immutable states:

- **Tic-Tac-Toe.** The board and its eight winning lines (`TttBoard`). The
  move rule (`TttPlay`). The Easy and Medium AI tiers (`TttAi`). The two Hard
  tiers: the depth-weighted minimax shared by `games/tic-tac-toe` and the
  loader (`TttMinimax`), and the unweighted `{index, score}` minimax of
  `game/tic-tac-toc` (`TttMinimaxPlain`). The latter also has a method that
  does the in-place search as written. The three classes are `TicTacToe`,
  `TicTacToc` and `LoaderTicTacToe`.
- **Snake.** Grid, movement, collisions, food placement, the steering filter
  and the tick interval (`SnakeCore`). The two classes are `Snake` and
  `LoaderSnake`.
- **Rock-Paper-Scissors.** The `rules` table, `determineWinner` and round
  bookkeeping (`RpsRules`). The computer's choice per difficulty, in the two
  classes `Rps` and `LoaderRps`.
- **Utilities.** `getHighScore` and `saveHighScore` (`HighScores`).
  `formatTime` and `formatScore` (`TextFormat`, built on `Numerals`). The
  theme and sound toggles (`Prefs`). The loader's `lightenColor` and
  `darkenColor` (`Colors`).

Each operation is paired with something to check it against:

- an invariant it keeps (`OperationsKeepValid` in each game);
- a reference definition it agrees with:
  - the eight-triple win test against the geometric "row, column or diagonal";
  - the regular expression of `formatScore` against grouping by thousands;
- an inverse it is proved against:
  - `formatTime` and `formatScore` read back;
  - colour channels written and re-read;
  - lighten and darken undoing each other.

Every `Math.random()` call is an explicit parameter (a `nat` draw, or a `real`
roll for the threshold tests). Local storage is a `map` that the callers pass
in and get back. This covers the hub's high-score table (`HighScores`), the
theme and sound entries (`Prefs`), and the `snakeHighScore` and `rpsHighScore`
entries the stand-alone Snake and Rock-Paper-Scissors pages write. A timer
callback (`setTimeout`, `setInterval`) is its own operation, which the caller
invokes.

The model follows the code as written. Where the code does something its own
comments or names do not suggest, the model states what the code does:

- The stand-alone Rock-Paper-Scissors Medium tier filters each choice against
  a fresh random guess, so it can keep all three choices or none. With none,
  the computer plays `undefined`: the player loses the round and the match
  stalls until a reset (see "## Findings").
- The Hard tier of both Rock-Paper-Scissors copies plays `rules[guess]`, the
  choice the guess *beats*, so a player who plays the guess wins
  (`Rps.HardPlaysIntoTheGuess`).
- The loader's Rock-Paper-Scissors never assigns `lastPlayerChoice`. Its Medium
  avoiding branch therefore always drops scissors
  (`LoaderRps.MediumBranchesDiffer`).
- The loader's Tic-Tac-Toe Medium tier has no corner step
  (`LoaderTicTacToe.MediumSkipsCorners`).
- The loader's Snake grid is 30 × 30 on a canvas only 20 cells high
  (`LoaderSnake.RowsBelowTheCanvasArePlayable`).
- The unweighted minimax of `game/tic-tac-toc` does not prefer the quickest
  win (`TicTacToc.HardForcesWinWhenOneIsAvailable`).

## Model

| member | source | states |
|---|---|---|
| TttBoard.Other | games/tic-tac-toe/script.js:238-241 | `switchPlayer` hands the turn to the other mark, never the same one |
| TttBoard.WinsForIffThreeInARow | games/tic-tac-toe/script.js:11-15 | the eight listed triples win exactly when the mark fills a row, a column or one of the two diagonals |
| TttBoard.SomeLineMeansAHeldLine | games/tic-tac-toe/script.js:198-202 | the `some` scan over `winningCombos` succeeds exactly when some listed triple is wholly held by the mark |
| TttBoard.HeldLineIsGeometric | games/tic-tac-toe/script.js:11-15 | a held triple of the table is a geometric row, column or diagonal |
| TttBoard.GeometricLineIsHeld | games/tic-tac-toe/script.js:11-15 | every geometric row, column or diagonal appears in the table |
| TttBoard.WinSurvivesOtherWrites | game/tic-tac-toc/script.js:255-265 | a completed line of a mark survives when a cell is written, unless that cell held the mark and is overwritten |
| TttBoard.PlacingKeepsOpponentLines | games/tic-tac-toe/script.js:63-78 | placing a mark never completes a line for the opponent |
| TttBoard.AvailableFrom | games/tic-tac-toe/script.js:188-192 | the free indices from a position on: exactly the empty cells there, as many as there are empty cells |
| TttBoard.Available | games/tic-tac-toe/script.js:188-192 | `getAvailableMoves` lists exactly the empty cells, as many as are empty |
| TttBoard.AvailableIsFreeAscending | games/tic-tac-toe/script.js:188-192 | the available moves come out in strictly increasing index order, all free |
| TttBoard.FullIffNoMoves | games/tic-tac-toe/script.js:204-206 | `checkDraw`'s full board is the board with no available move |
| TttBoard.PlaceShrinks | games/tic-tac-toe/script.js:63-65 | filling a free cell removes exactly one available move |
| TttBoard.CountOfEmptyBoard | games/tic-tac-toe/script.js:252-263 | the reset board has nine empty cells and no marks |
| TttBoard.Credit | games/tic-tac-toe/script.js:208-210 | `scores[player]++` raises the winner's score by one and leaves the other player's score alone |
| TttPlay.FreshTurn | games/tic-tac-toe/script.js:252-263 | the reset gives an empty board, X to move and play on, and it keeps the scores; the fresh turn is consistent |
| TttPlay.PlayAt | games/tic-tac-toe/script.js:63-78 | `makeMove`: the mover's mark is written; a win credits the mover and ends play; otherwise a full board ends play; otherwise the turn passes |
| TttPlay.PlayAtKeepsConsistent | games/tic-tac-toe/script.js:63-78 | a move on a free cell of a live round keeps the marks balanced with the player to move, and a live round shows no line and a free cell |
| TttAi.RandomMove | games/tic-tac-toe/script.js:103-106 | `getRandomMove` returns null exactly on a full board, otherwise a free cell |
| TttAi.FirstWinning | games/tic-tac-toe/script.js:109-127 | the try-each-move loop returns the first listed move that completes a line, or none when no listed move does |
| TttAi.LowestWinning | games/tic-tac-toe/script.js:109-117 | over the available moves, that is the lowest winning cell, and it is absent exactly when no cell wins |
| TttAi.FreeCorners | games/tic-tac-toe/script.js:132-134 | the corner filter keeps exactly the free corners |
| TttAi.MediumMove | games/tic-tac-toe/script.js:108-140 | Medium takes an O win if any; else it blocks an X win; else the centre; else a free corner; else a random free cell. Null only on a full board |
| TttAi.CentreCornerOrRandom | games/tic-tac-toe/script.js:129-139 | after win and block: the centre if free, else a free corner, else a random free cell |
| TttAi.MediumMoveNoCorner | assets/js/game-loader.js:916-940 | the loader's Medium: win, block, centre, then a random free cell, with no corner step |
| TttAi.MediumCornerStepReachesEveryCorner | games/tic-tac-toe/script.js:132-137 | when the corner step applies, every free corner is a possible choice |
| SeqExtremes.MaxOf | games/tic-tac-toe/script.js:167-175 | `Math.max` over the child scores is one of them and bounds all of them |
| SeqExtremes.MinOf | games/tic-tac-toe/script.js:176-185 | `Math.min` over the child scores is one of them and bounds all of them from below |
| SeqExtremes.FirstMax | games/tic-tac-toe/script.js:146-156 | the `score > bestScore` scan selects a maximal score with every earlier score strictly smaller |
| SeqExtremes.FirstMin | game/tic-tac-toc/script.js:214-222 | the `score < bestScore` scan selects a minimal score with every earlier score strictly larger |
| SeqExtremes.FirstMaxUnique | games/tic-tac-toe/script.js:146-156 | only one index is maximal with all earlier entries strictly smaller, so the scan's choice is determined |
| SeqExtremes.FirstMinUnique | game/tic-tac-toc/script.js:214-222 | the same for the minimising scan |
| TttMinimax.Minimax | games/tic-tac-toe/script.js:161-186 | depth-weighted minimax: from depth `d` every score lies in [d - 10, 10 - d] |
| TttMinimax.ChildScores | games/tic-tac-toe/script.js:167-185 | the loop makes one recursive score per free cell, each within the depth bound |
| TttMinimax.RootScores | games/tic-tac-toe/script.js:142-159 | the root loop scores each available move by O's placement and the search below it at depth 0 |
| TttMinimax.HardMove | games/tic-tac-toe/script.js:142-159 | `getHardMove` returns null exactly when no cell is free, otherwise a free cell |
| TttMinimax.HardMoveIsFirstBest | games/tic-tac-toe/script.js:142-159 | the chosen cell scores at least as high as every free cell, and every free cell before it scores strictly less |
| TttMinimax.ImmediateWinScoresTen | games/tic-tac-toe/script.js:147-163 | a cell where O completes a line scores exactly 10 |
| TttMinimax.OtherMovesScoreBelowTen | games/tic-tac-toe/script.js:161-186 | any other cell scores at most 9, since depth weighting lowers later wins |
| TttMinimax.HardTakesImmediateWin | games/tic-tac-toe/script.js:142-159 | when O can complete a line, Hard does so, at the lowest such cell |
| TttMinimax.MoveScoreInRange | games/tic-tac-toe/script.js:142-159 | every score Hard compares lies in [-10, 10] |
| TttMinimaxPlain.Minimax | game/tic-tac-toc/script.js:166-225 | the unweighted search scores -10, 0 or 10; it returns no index exactly on a terminal position, otherwise a free cell |
| TttMinimaxPlain.Scores | game/tic-tac-toc/script.js:179-202 | the `moves` array holds one score per available move, each -10, 0 or 10 |
| TttMinimaxPlain.ScoresAreTrials | game/tic-tac-toc/script.js:179-202 | entry `i` of `moves` is the score of trying the player at the `i`-th free cell |
| TttMinimaxPlain.TrialsMakeScores | game/tic-tac-toc/script.js:179-202 | any list holding each move's trial score is that `moves` array |
| TttMinimaxPlain.TerminalOrder | game/tic-tac-toc/script.js:169-177 | the terminal checks come in order: an X line scores -10 even when O also holds one, then an O line 10, then a full board 0 |
| TttMinimaxPlain.PicksFirstBest | game/tic-tac-toc/script.js:204-224 | on a live position the index is the first free cell with the best trial score: maximal for O, minimal for X |
| TttMinimaxPlain.ImmediateWinScoresTen | game/tic-tac-toc/script.js:166-225 | when O can complete a line, the search values the position 10 and picks a cell from which O forces a win |
| TttMinimaxPlain.MinimaxInPlace | game/tic-tac-toc/script.js:166-225 | the in-place search, which writes, recurses and erases on one board, returns the board unchanged and the result of the pure search |
| TttMinimaxPlain.TryEachMove | game/tic-tac-toc/script.js:179-202 | the first loop returns the board unchanged and builds exactly the `moves` scores |
| TttMinimaxPlain.TryOne | game/tic-tac-toc/script.js:182-201 | one trial placement, search and erase leaves the board as it was and yields that cell's trial score |
| TttMinimaxPlain.ChooseBest | game/tic-tac-toc/script.js:204-224 | the second loop selects the first maximal score for O and the first minimal score for X |
| TicTacToe.Initial | games/tic-tac-toe/script.js:2-18 | the constructor's state is valid: empty board, X to move with play on, scores 0-0, round 1, PvP at Medium |
| TicTacToe.HandleCellClick | games/tic-tac-toe/script.js:48-61 | a click while play is off, or on a taken or missing cell, changes nothing. Otherwise the move is made, and an AI turn is scheduled exactly when play goes on in PvC with O to move |
| TicTacToe.ChooseAiMove | games/tic-tac-toe/script.js:80-101 | each tier returns null exactly on a full board, otherwise a free cell |
| TicTacToe.MakeAiMove | games/tic-tac-toe/script.js:80-101 | with play off or the board full nothing changes; otherwise the cell the difficulty's tier chooses is played, and it is a free cell |
| TicTacToe.ResetGame | games/tic-tac-toe/script.js:252-263 | fresh board with X to move; scores, round, mode and difficulty kept |
| TicTacToe.NewMatch | games/tic-tac-toe/script.js:265-269 | scores back to 0-0 and round 1, on a fresh board with X to move; mode and difficulty kept |
| TicTacToe.NextRound | games/tic-tac-toe/script.js:271-274 | the round counter moves on by one on a fresh board with X to move; scores, mode and difficulty kept |
| TicTacToe.SetDifficulty | games/tic-tac-toe/script.js:37-39 | the select changes the tier and nothing else |
| TicTacToe.ChangeMode | games/tic-tac-toe/script.js:243-256 | the new mode, on a fresh board with X to move and play on; scores, round and difficulty kept |
| TicTacToe.OperationsKeepValid | games/tic-tac-toe/script.js:48-101 | every operation keeps a live round free of completed lines and full boards, with marks balanced to the player to move |
| TicTacToe.AiAlwaysMovesWhileActive | games/tic-tac-toe/script.js:80-101 | in a valid live round every tier finds a move, so an AI turn always changes the state |
| TicTacToc.Initial | game/tic-tac-toc/script.js:3-35 | constructor and `init`: a valid PvP state, empty board, X to move, scores 0-0 |
| TicTacToc.HandleCellClick | game/tic-tac-toc/script.js:62-75 | a taken cell or play being off is ignored; otherwise the move is made and the AI turn is scheduled exactly when play goes on in PvC with O to move |
| TicTacToc.HardAiMove | game/tic-tac-toc/script.js:160-164 | the unweighted search's index, absent exactly on a terminal board, otherwise a free cell |
| TicTacToc.ChooseAiMove | game/tic-tac-toc/script.js:94-117 | a tier's answer is always a free cell, and on a board with no line it is absent exactly when the board is full |
| TicTacToc.MakeAiMove | game/tic-tac-toc/script.js:94-117 | nothing once play is off or when the tier returns no index; otherwise the tier's cell is played, and on a valid live round it is a free cell |
| TicTacToc.ResetBoard | game/tic-tac-toc/script.js:327-340 | fresh board with X to move; scores and settings kept |
| TicTacToc.NewMatch | game/tic-tac-toc/script.js:342-346 | scores back to 0-0 on a fresh board with X to move; mode and difficulty kept |
| TicTacToc.ChangeMode | game/tic-tac-toc/script.js:327-353 | the new mode on a fresh board with X to move and play on; scores and difficulty kept |
| TicTacToc.ChangeDifficulty | game/tic-tac-toc/script.js:55-59 | the new tier; in PvC the board is reset with X to move and play on, and in PvP the turn is untouched |
| TicTacToc.OperationsKeepValid | game/tic-tac-toc/script.js:62-117 | every operation keeps the turn consistent |
| TicTacToc.ClickKeepsValid | game/tic-tac-toc/script.js:62-92 | a click keeps the turn consistent |
| TicTacToc.AiMoveKeepsValid | game/tic-tac-toc/script.js:94-117 | an AI turn keeps the turn consistent |
| TicTacToc.AiAlwaysMovesWhileActive | game/tic-tac-toc/script.js:94-117 | on a valid live round every tier, the unweighted Hard one included, finds a move |
| TicTacToc.HardForcesWinWhenOneIsAvailable | game/tic-tac-toc/script.js:160-225 | given an immediate O win, Hard plays a cell whose trial scores 10, which is a forced win but not necessarily the immediate one |
| LoaderTicTacToe.Leader | assets/js/game-loader.js:1018-1039 | `Math.max(scores.X, scores.O)` is one of the two scores and at least both |
| LoaderTicTacToe.Initial | assets/js/game-loader.js:796-813 | the games-copy start with the stored high score, valid when that score is non-negative |
| LoaderTicTacToe.MakeMove | assets/js/game-loader.js:868-886 | the move as in the games copy. After a win whose leader beats the shown high score, that score is saved and the saved value is shown; otherwise the store and the shown score are unchanged |
| LoaderTicTacToe.HandleCellClick | assets/js/game-loader.js:853-866 | the click guard and AI scheduling of the games copy, with the high-score bookkeeping of a move |
| LoaderTicTacToe.ChooseAiMove | assets/js/game-loader.js:888-909 | each tier returns null exactly on a full board, otherwise a free cell |
| LoaderTicTacToe.MakeAiMove | assets/js/game-loader.js:888-909 | nothing with play off or the board full; otherwise the tier's cell is played as a move, high-score save included, and it is a free cell |
| LoaderTicTacToe.ResetGame | assets/js/game-loader.js:1079-1091 | the games-copy reset; the high score is untouched |
| LoaderTicTacToe.NewMatch | assets/js/game-loader.js:1093-1098 | the games-copy new match; the high score is untouched |
| LoaderTicTacToe.NextRound | assets/js/game-loader.js:1100-1103 | the games-copy next round; the high score is untouched |
| LoaderTicTacToe.ChangeMode | assets/js/game-loader.js:1071-1077 | the games-copy mode change; the high score is untouched |
| LoaderTicTacToe.SetDifficulty | assets/js/game-loader.js:832-838 | the new tier; the high score is untouched |
| LoaderTicTacToe.MakeMoveKeepsValid | assets/js/game-loader.js:1018-1039 | a move keeps the shown high score equal to the stored one and at least the leader's score, and no other game's entry changes |
| LoaderTicTacToe.OperationsKeepValid | assets/js/game-loader.js:853-1103 | every operation keeps the round consistent and the shown high score stored and at least the leader's |
| LoaderTicTacToe.MediumSkipsCorners | assets/js/game-loader.js:916-940 | with no win, no block and the centre taken, the loader draws from all free cells, where the games copy can reach every free corner |
| HighScores.GetHighScore | assets/js/utils.js:175-178 | the stored score for the game, 0 when none was saved |
| HighScores.SaveHighScore | assets/js/utils.js:180-185 | the entry becomes the larger of old and new; that value is returned; no other game's entry changes |
| HighScores.SaveIsIdempotent | assets/js/utils.js:180-185 | saving the same score again changes neither the table nor the result |
| SnakeCore.Row | games/snake/script.js:167-183 | one row of cells, holding exactly the cells of that row inside the width |
| SnakeCore.Rows | games/snake/script.js:167-183 | the first `n` rows, holding exactly their cells |
| SnakeCore.GridCells | games/snake/script.js:167-183 | the grid's cells are exactly the cells the wall test lets through, `tiles * tiles` of them |
| SnakeCore.GridCellsDistinct | games/snake/script.js:167-183 | no grid cell is listed twice |
| SnakeCore.DistinctCount | games/snake/script.js:167-183 | a list of distinct cells is as long as its set |
| SnakeCore.FreeCells | games/snake/script.js:167-183 | the cells `generateFood` may accept: exactly the grid cells off the snake |
| SnakeCore.PlaceFood | games/snake/script.js:167-183 | food lands inside the grid and off the snake; no cell is available exactly when the snake covers the grid |
| SnakeCore.StartFood | games/snake/script.js:272-289 | after a reset the food lies inside the grid and off the one-cell snake |
| SnakeCore.FoodReachesEveryFreeCell | games/snake/script.js:167-183 | every free cell is a possible food cell |
| SnakeCore.NoRoomIffFull | games/snake/script.js:167-183 | a distinct snake inside the grid leaves no food cell exactly when it has `tiles * tiles` cells |
| SnakeCore.Advance | games/snake/script.js:127-165 | the head leaving the grid is a wall hit; the head on any segment is a self hit; otherwise the snake grows on the food, with new food placed off it, or slides |
| SnakeCore.NoRoomOnlyOnAFullGrid | games/snake/script.js:167-183 | eating stalls for want of a food cell only when the grown snake fills the grid |
| SnakeCore.AdvanceKeepsSnakeOk | games/snake/script.js:127-165 | a tick keeps the snake distinct, inside the grid and off the food |
| SnakeCore.ChasingTheTailEndsTheGame | games/snake/script.js:138-144 | the self test includes the tail about to move away, so following the tail round a square ends the game |
| SnakeCore.Steer | games/snake/script.js:65-99 | an arrow turns the snake exactly when it would not reverse the current direction; a refused arrow and any other key keep the direction |
| SnakeCore.TwoPressesReverse | games/snake/script.js:65-99 | two quick presses within one tick turn the snake onto itself, since the filter sees only the latest direction |
| SnakeCore.Interval | games/snake/script.js:121-125 | the tick interval is the larger of 50 ms and 200 - 15 · speed |
| SnakeCore.IntervalOverSlider | games/snake/script.js:121-125 | on the slider range 1 to 10 a faster setting never gives a slower tick, and speed 10 hits the 50 ms floor |
| Snake.Initial | games/snake/script.js:2-28 | a one-cell snake at (10, 10) at rest, speed 5, score 0, showing the `snakeHighScore` entry; valid when that entry is non-negative |
| Snake.StartGame | games/snake/script.js:107-119 | ignored while running; otherwise play starts heading right |
| Snake.ChangeDirection | games/snake/script.js:101-105 | unfiltered direction change, ignored while stopped |
| Snake.HandleKeyDown | games/snake/script.js:65-99 | while stopped only Space acts, and it starts play; while running the arrows and WASD steer through the reversal filter |
| Snake.SetSpeed | games/snake/script.js:41-48 | the slider sets the speed only |
| Snake.Update | games/snake/script.js:127-165 | a collision stops play and leaves the snake and score in place; a slide puts the new head in front and drops the tail; eating keeps the tail, adds 10 points, and raises a beaten high score and writes it to `snakeHighScore`; eating is skipped only when the grown snake covers the grid; the heading never changes |
| Snake.HighScoreSurvivesReload | games/snake/script.js:13 | when the shown high score is the stored one, a reload after a tick shows the high score the page showed, and no other storage entry changes |
| Snake.ResetGame | games/snake/script.js:272-289 | back to the one-cell snake at rest with score 0; the high score and speed survive |
| Snake.UpdateKeepsValid | games/snake/script.js:127-165 | a tick keeps the snake well formed, the length field equal to the snake's length, the score at 10 per extra cell, and the high score at or above the score |
| Snake.OperationsKeepValid | games/snake/script.js:65-119 | the other operations keep the same invariant |
| Snake.HighScoreNeverDrops | games/snake/script.js:154-157 | no operation lowers the high score |
| Snake.RestartWithoutResetFacesTheSameWall | games/snake/script.js:107-119 | starting again after a wall hit on the right, with no reset, dies on the next tick |
| LoaderSnake.ResetGame | assets/js/game-loader.js:1467-1482 | a one-cell snake at rest with food on the grid off the snake; high score and speed survive |
| LoaderSnake.Initial | assets/js/game-loader.js:1118-1138 | the stored high score, speed 5, then a reset; valid when the stored score is non-negative |
| LoaderSnake.FreshSnakeOk | assets/js/game-loader.js:1467-1482 | a one-cell snake at the start with food elsewhere on the grid is well formed |
| LoaderSnake.StartGame | assets/js/game-loader.js:1223-1235 | ignored while running; otherwise play starts heading right |
| LoaderSnake.ChangeDirection | assets/js/game-loader.js:1216-1221 | the buttons' unfiltered change, ignored while stopped |
| LoaderSnake.HandleKeyDown | assets/js/game-loader.js:1183-1214 | every key, Space included, is ignored while stopped; while running the arrows steer through the reversal filter |
| LoaderSnake.SetSpeed | assets/js/game-loader.js:1163-1170 | the slider sets the speed only |
| LoaderSnake.GameUpdate | assets/js/game-loader.js:1243-1284 | the stand-alone tick: a collision leaves the snake and score in place, a slide puts the new head in front and drops the tail, eating keeps the tail unless the grown snake covers the grid, and the heading never changes; a beaten high score is saved to the shared table and the saved value is shown |
| LoaderSnake.PlayAgain | assets/js/game-loader.js:1441-1465 | "Play Again" resets and starts at once: a one-cell snake heading right, score 0, high score kept |
| LoaderSnake.GameUpdateKeepsValid | assets/js/game-loader.js:1243-1284 | a tick keeps play well formed and the shown high score equal to the stored one, and no other game's entry changes |
| LoaderSnake.ResetKeepsValid | assets/js/game-loader.js:1467-1482 | reset and Play Again keep the state valid |
| LoaderSnake.OperationsKeepValid | assets/js/game-loader.js:1183-1235 | starting, keys, buttons and the slider keep the state valid |
| LoaderSnake.SteeringKeepsValid | assets/js/game-loader.js:1216-1221 | validity depends on neither direction, speed nor the running flag |
| LoaderSnake.RowsBelowTheCanvasArePlayable | assets/js/game-loader.js:1121-1122 | the grid is 30 cells high on a canvas 20 cells high, so the snake can move through rows that are never drawn |
| RpsRules.Beaten | games/rock-paper-scissors/script.js:12-16 | `rules[c]` is a choice other than `c` |
| RpsRules.Counter | games/rock-paper-scissors/script.js:12-16 | the choice beating `c` is neither `c` nor the one `c` beats |
| RpsRules.Judge | games/rock-paper-scissors/script.js:105-144 | equal choices draw; the player wins exactly when `rules[player]` is the computer's choice and loses exactly when `rules[computer]` is the player's |
| RpsRules.RulesAreACycle | games/rock-paper-scissors/script.js:12-16 | the table is a three-cycle, and swapping the two sides swaps win and loss |
| RpsRules.Others | assets/js/game-loader.js:1622-1623 | filtering out a fixed choice keeps exactly the two other choices |
| RpsRules.Verdict | games/rock-paper-scissors/script.js:108-116 | against a defined choice the verdict is the rules' one; against `undefined` the player loses |
| RpsRules.Reset | games/rock-paper-scissors/script.js:192-213 | scores 0-0, round 1, play on, buttons enabled, round count kept |
| RpsRules.Fresh | games/rock-paper-scissors/script.js:2-19 | the constructor's valid five-round match |
| RpsRules.Play | games/rock-paper-scissors/script.js:50-76 | ignored once over or while the buttons are disabled; otherwise the round's winner gets a point, the buttons are disabled, and the match stalls exactly when the computer's choice is `undefined` |
| RpsRules.NextRound | games/rock-paper-scissors/script.js:170-190 | nothing while the Next Round button is disabled (before a choice, or after a stalled round) or on the last round; otherwise the next round with the buttons back |
| RpsRules.MatchResult | games/rock-paper-scissors/script.js:150-161 | the match is the player's exactly on strictly more points, the computer's exactly on strictly fewer, and a tie exactly on equal points |
| RpsRules.SetTotalRounds | games/rock-paper-scissors/script.js:44-47 | the rounds select sets the count and resets the match |
| RpsRules.OperationsKeepValid | games/rock-paper-scissors/script.js:50-213 | scores never exceed the rounds played, and a match stops only at its last round |
| RpsRules.RoundNeverPassesTotal | games/rock-paper-scissors/script.js:170-171 | the round never passes the chosen count, and no round starts after the last |
| RpsRules.RoundsAdvanceOnePerPlay | games/rock-paper-scissors/script.js:50-190 | each choose-then-next moves the round on by exactly one and gives at most one point |
| RpsRules.MatchReachesItsLastRound | games/rock-paper-scissors/script.js:146-168 | after `total - 1` completed rounds from a reset, the next choice lands on the last round, stalled exactly when the computer played `undefined` |
| Rps.ComputerChoice | games/rock-paper-scissors/script.js:78-103 | Easy plays uniformly. Below 0.3, Medium plays one of the choices its filter kept, and `undefined` exactly when it kept none. Below 0.5, Hard plays a choice the guess beats. Otherwise the choice is uniform |
| Rps.Kept | games/rock-paper-scissors/script.js:86 | a choice survives the filter exactly when it differs from the guess drawn while testing it, and the survivors keep their order |
| Rps.MediumReachesEveryKeptChoice | games/rock-paper-scissors/script.js:86-87 | every choice the filter kept can be the one played |
| Rps.FilterKeepsAnyNumber | games/rock-paper-scissors/script.js:86 | the filter can keep none, one, two or all three choices |
| Rps.MediumCanPlayAGuessedChoice | games/rock-paper-scissors/script.js:84-88 | with the filter guessing paper, rock, rock, all three choices survive and rock, which two guesses named, is played |
| Rps.MediumCanPlayNothing | games/rock-paper-scissors/script.js:84-88 | with the filter guessing rock, paper, scissors, the computer plays `undefined`, the player loses the round, and no next round can start |
| Rps.IntendedComputerChoice | games/rock-paper-scissors/script.js:84-88 | corrected (see "## Findings"): the intended Medium tier draws one guess and plays one of the two other choices, never the guess; every other path agrees with `Rps.ComputerChoice` |
| Rps.IntendedMediumAvoidsOnlyTheGuess | games/rock-paper-scissors/script.js:84-88 | corrected (see "## Findings"): in the intended tier both choices other than the guess remain possible |
| Rps.HardPlaysIntoTheGuess | games/rock-paper-scissors/script.js:92-95 | in Hard's targeted branch, a player who plays the guess wins the round |
| Rps.Initial | games/rock-paper-scissors/script.js:2-19 | a valid fresh five-round match at Medium showing the `rpsHighScore` entry |
| Rps.PlayerChoice | games/rock-paper-scissors/script.js:50-76 | the player's choice against the tier's computer choice, scored by the rules; an empty Medium filter costs the player the round and stalls the match |
| Rps.OnlyAnEmptyFilterStalls | games/rock-paper-scissors/script.js:50-76 | a live round stalls exactly when the tier is Medium, the roll is below 0.3 and the filter kept nothing |
| Rps.CheckGameOver | games/rock-paper-scissors/script.js:142-168 | nothing after a stalled round or before the last; at the last round the match stops, and the high score changes exactly when the player won and beat it, becoming the player's score and written to `rpsHighScore`; otherwise storage is untouched |
| Rps.HighScoreSurvivesReload | games/rock-paper-scissors/script.js:9 | when the shown high score is the stored one, a reload after `checkGameOver` shows the high score the page showed, and no other storage entry changes |
| Rps.NextRound | games/rock-paper-scissors/script.js:170-190 | the shared next-round rule; the loader's `nextRound` (assets/js/game-loader.js:1722-1746) is the same, so `LoaderRps` uses this operation |
| Rps.ResetGame | games/rock-paper-scissors/script.js:192-213 | the shared reset, with difficulty and high score kept; also the loader's `resetGame` (assets/js/game-loader.js:1748-1773) |
| Rps.SetTotalRounds | games/rock-paper-scissors/script.js:44-47 | a reset match with the new count, high score kept; also the loader's rounds select (assets/js/game-loader.js:1575-1580) |
| Rps.SetDifficulty | games/rock-paper-scissors/script.js:39-41 | the new tier, nothing else; also the loader's difficulty select (assets/js/game-loader.js:1570-1573) |
| Rps.OperationsKeepValid | games/rock-paper-scissors/script.js:50-213 | every operation keeps the match well formed, a stalled match included |
| Rps.StalledMatchWaitsForAReset | games/rock-paper-scissors/script.js:192-213 | a stalled match ignores choices, Next Round and `checkGameOver`; a reset brings the buttons back |
| Rps.MatchEndsAfterItsRounds | games/rock-paper-scissors/script.js:146-168 | a match of `n` rounds ends on round `n` and takes no later choice; it stops there unless the last round stalled, and a winning player's total is covered by the high score |
| LoaderRps.Initial | assets/js/game-loader.js:1527-1550 | a valid fresh five-round match at Medium, showing the stored high score |
| LoaderRps.ComputerChoice | assets/js/game-loader.js:1614-1635 | Medium's avoiding branch drops `rules['rock']`, always scissors. Every other branch matches the stand-alone copy |
| LoaderRps.MediumBranchesDiffer | assets/js/game-loader.js:1620-1625 | the loader's avoiding branch never plays scissors and is the intended single-guess tier with the guess fixed at scissors |
| LoaderRps.PlayerChoice | assets/js/game-loader.js:1583-1612 | the player's choice against the loader's computer choice, scored by the rules |
| LoaderRps.CheckGameOver | assets/js/game-loader.js:1687-1720 | at the last round the match stops. A player's win that beats the high score is saved to the table and the saved value is shown. Otherwise nothing is stored, so the table changes only on a match win |
| LoaderRps.OperationsKeepValid | assets/js/game-loader.js:1583-1773 | every operation keeps the match well formed and the shown high score stored. Only this game's entry can change, and the shown score never drops |
| Numerals.DigitValue | assets/js/game-loader.js:1491 | a hex digit of either case has a value below 16, below 10 exactly for '0' to '9' |
| Numerals.DigitChar | assets/js/game-loader.js:1502 | `toString(16)` writes digit `d` as a lower-case character that reads back as `d` |
| Numerals.Numeral | assets/js/utils.js:190 | `n.toString(base)` is non-empty, made of lower-case digits, and starts with '0' only for 0 |
| Numerals.Parse | assets/js/game-loader.js:1491 | `parseInt` of `k` digits is below base to the `k` |
| Numerals.ParseNumeral | assets/js/game-loader.js:1491-1502 | reading back what `toString` wrote gives the number |
| Numerals.LeadingZero | assets/js/utils.js:190 | padding with '0' does not change the value read back |
| Numerals.NumeralLength | assets/js/game-loader.js:1502 | a numeral has at most `k` digits exactly when the number is below base to the `k` |
| TextFormat.Decimal | assets/js/utils.js:190 | `n.toString()` is a run of decimal digits that reads back as `n` |
| TextFormat.PadStart | assets/js/utils.js:190 | `padStart` gives the width asked for, or keeps a longer string |
| TextFormat.PadKeepsValue | assets/js/utils.js:190 | zero padding keeps the digits and their value |
| TextFormat.FormatTime | assets/js/utils.js:187-191 | `formatTime` writes digits, a colon and two digits |
| TextFormat.TimeText | assets/js/utils.js:190 | the minutes field is the padded minutes and the last two characters are the padded seconds |
| TextFormat.TwoDigits | assets/js/utils.js:190 | a padded field is at least two digits and reads back as the number |
| TextFormat.SecondsFieldIsTwoWide | assets/js/utils.js:190 | a field is exactly two wide exactly when the number is below 100 |
| TextFormat.FormatTimeRoundTrip | assets/js/utils.js:187-191 | reading the text back as minutes · 60 + seconds gives the seconds it was made from |
| TextFormat.TimeTextRoundTrip | assets/js/utils.js:188-190 | the two fields read back as 60 · minutes + seconds |
| TextFormat.FormatTimeWidth | assets/js/utils.js:187-191 | the text is five characters wide exactly below 6000 seconds |
| TextFormat.DigitRun | assets/js/utils.js:194 | the length of the digit run `(?!\d)` ends, within the string |
| TextFormat.RunOfIffDigitRun | assets/js/utils.js:194 | exactly `n` digits follow a position exactly when the digit run there is `n` long |
| TextFormat.CommaAtIsPattern | assets/js/utils.js:194 | the run-length test agrees with `\B(?=(\d{3})+(?!\d))` at every position |
| TextFormat.CommaPositions | assets/js/utils.js:194 | on a signed numeral the pattern matches exactly at inner digit positions a multiple of three from the end |
| TextFormat.InsertCommasGroups | assets/js/utils.js:194 | past the sign, the global replacement produces the digits grouped in threes from the right |
| TextFormat.SignedDecimal | assets/js/utils.js:194 | `score.toString()` starts with a minus exactly for negative scores |
| TextFormat.FormatScore | assets/js/utils.js:193-195 | the formatted score never starts with a comma |
| TextFormat.FormatScoreGroupsThousands | assets/js/utils.js:193-195 | `formatScore` is the sign followed by the magnitude's digits grouped by thousands |
| TextFormat.Thousands | assets/js/utils.js:194 | the reference grouping never shortens the digits |
| TextFormat.StripCommas | assets/js/utils.js:194 | taking the commas out leaves no comma |
| TextFormat.StripThousands | assets/js/utils.js:194 | removing the commas from a grouping gives the digits back |
| TextFormat.FormatScoreRoundTrip | assets/js/utils.js:193-195 | with the commas removed, the formatted score reads back as the score |
| TextFormat.SmallScoresHaveNoComma | assets/js/utils.js:193-195 | below a thousand in magnitude, the score is written plain |
| Prefs.Load | assets/js/utils.js:4-30 | the constructor's dark theme and sound on, then `loadPreferences`: a non-empty saved theme wins, and a saved sound entry turns sound on exactly when it reads "true" |
| Prefs.ToggleTheme | assets/js/utils.js:46-52 | the new theme is "light" exactly when the old one was "dark", and "dark" otherwise. It is saved under its key, sound is kept, and no other entry changes |
| Prefs.ToggleSound | assets/js/utils.js:54-59 | the flag flips and is saved as "true" exactly when on; the theme is kept, and no other entry changes |
| Prefs.TogglesSurviveReload | assets/js/utils.js:15-59 | after either toggle, `loadPreferences` on the stored entries gives the toggled preferences |
| Prefs.ThemeToggleTwice | assets/js/utils.js:46-52 | two theme toggles restore the theme exactly when it was "dark" or "light" |
| Prefs.SoundToggleTwice | assets/js/utils.js:54-59 | two sound toggles restore the flag and leave only the rewritten entry in storage |
| RandomPick.Pick | games/tic-tac-toe/script.js:103-106 | a random index into a non-empty list picks one of its elements |
| RandomPick.PickReachesAll | games/tic-tac-toe/script.js:103-106 | every element of the list can be picked |
| Colors.ColorValue | assets/js/game-loader.js:1491 | `parseInt(color.slice(1), 16)` of up to six hex digits is a 24-bit number |
| Colors.Channels | assets/js/game-loader.js:1491-1495 | the shifts and masks split a 24-bit number into three channels that pack back into it |
| Colors.Clamp | assets/js/game-loader.js:1499-1501 | lighten's clamp gives a channel, keeps any value in 0..255, and sends values below to 0 and above to 255 |
| Colors.Floor | assets/js/game-loader.js:1514-1516 | darken's clamp raises negatives to 0, keeps the rest, and has no upper bound |
| Colors.Lighten | assets/js/game-loader.js:1490-1503 | the result is "#" and six hex digits, whose channels are the input's raised by the amount and clamped |
| Colors.Darken | assets/js/game-loader.js:1505-1518 | for a non-negative amount the result is "#" and six hex digits, whose channels are the input's lowered by the amount and floored at 0 |
| Colors.EmitDecodes | assets/js/game-loader.js:1497-1502 | writing three channels as `#rrggbb` and reading them back is the identity |
| Colors.LightenByNothing | assets/js/game-loader.js:1490-1503 | lightening by nothing keeps every channel |
| Colors.DarkenUndoesLighten | assets/js/game-loader.js:1490-1518 | darkening undoes lightening by the same amount when no channel hits 255 |
| Colors.LightenUndoesDarken | assets/js/game-loader.js:1490-1518 | lightening undoes darkening by the same amount when no channel hits 0 |
| Colors.ShadesMoveOneWay | assets/js/game-loader.js:1490-1518 | lightening never lowers a channel and darkening never raises one |

## Left out

- Rendering, the DOM, sounds, CSS, alerts and messages are left out: they draw or play the state and do not decide it. This covers `updateDisplay`, `draw`, `showMessage`, the loaders and the bodies of `playSound`.
- Timers are left out. `setTimeout` and `setInterval` callbacks (the AI delay, `nextRound` after a win or draw, the delayed `checkGameOver`) are separate operations that a caller invokes, and their interleavings are not modelled.
- `Math.random()` is not modelled: each draw is a parameter, and lemmas show every outcome stays reachable.
- `localStorage` is a map threaded through the callers, not a JSON string; the stand-alone pages' entries are modelled by the numbers whose decimal text they hold. A stored high score that is not a number, and `parseInt` of a malformed select value, are not modelled.
- `assets/js/main.js` (navigation, `isMobile`, `debounce`) and the page-level wiring of `setupEventListeners` are not part of this model, beyond the handlers they call.
- The Rock-Paper-Scissors `choosing` and `stalled` flags stand for the choice and Next Round buttons being enabled or disabled. The error `capitalize(undefined)` raises is modelled only by what it skips. The animation delay between the player's choice and `determineWinner` is merged into `PlayerChoice`.
- Snake.Update: when no cell is left for new food, the source loops forever. The model leaves the state unchanged instead.
- LoaderSnake.GameUpdate: the loader's `generateFood` loops forever in the same way once no cell is free; the model leaves the state and the table unchanged instead.
- Snake.Initial: the stand-alone page's canvas size is not part of this model; the canvas is taken to hold the start cell (10, 10), that is, at least 11 tiles across.
- Colors.Lighten: `percent` is taken as the integer `Math.round(2.55 * percent)`, because floating point is not modelled.
- Colors.Darken: states the shape and channels of the result only for a non-negative amount. A negative amount can push a channel past 255, and then the string is no longer six digits. Every call in the loader uses a positive percentage.
- Colors.ColorValue: only colours that are a first character followed by one to six hex digits are modelled. `parseInt` on other strings (NaN, partial reads) is not.
- TextFormat.FormatTime: only whole, non-negative seconds are modelled. Fractions and negative times are not, because the program passes neither. JavaScript numbers are doubles, so the digits are exact only below 2^53 and `toString` writes exponent notation from 10^21 on; the model's digits hold for every integer, which is the source's behaviour only for results below those bounds.
- TextFormat.FormatScore: only integer scores are modelled. A fractional score's decimal point would change the match positions, and every score the program formats is an integer. JavaScript numbers are doubles: `toString` writes exponent notation for |n| at or above 10^21, and integers above 2^53 are not all representable, so the thousands grouping is the source's behaviour only for |n| < 2^53.
- The Hard tiers are not proved never to lose: that is a claim over the whole game tree, and the code does not promise it.
- TicTacToc.ChooseAiMove: states the absent case only for boards with no completed line. On a board that already has a line the Hard tier returns no index, but play is always off then, so the AI is never called.
- Numerals: only bases 10 and 16 are modelled, the only two bases the program uses.

## Findings

| source | as written | input that shows it | evidently intended | confidence | as-written member | corrected member |
|---|---|---|---|---|---|---|
| games/rock-paper-scissors/script.js:84-87 | Medium's filter calls `getMostCommonPlayerChoice` once per choice, so each choice is tested against its own random guess. The options can be empty, and an empty array yields `undefined`: `determineWinner` gives the computer the point and then throws in `capitalize`, so Next Round never comes back. The options can also keep a guessed choice | Medium, first roll below 0.3, filter guesses rock, paper, scissors (`Draws(0.0, 0, 1, 2, 0)`) | draw the guess once and play one of the two other choices, as the loader's Medium tier does with its fixed exclusion | not executed | Rps.ComputerChoice, Rps.MediumCanPlayNothing | Rps.IntendedComputerChoice, Rps.IntendedMediumAvoidsOnlyTheGuess |

=== FILE: colors.dfy ===
/** `lightenColor` and `darkenColor` of `SnakeGame` in assets/js/game-loader.js,
    which shade the snake's colour for its head, body and borders. A colour is
    a string whose characters after the first are hexadecimal digits; its number
    is split into three 8-bit channels, each channel is moved by the same
    amount, and the result is written back as "#" and six hex digits. The
    amount is `Math.round(2.55 * percent)`; it is taken here as the integer it
    rounds to. */
module Colors {
  import opened Numerals

  datatype Rgb = Rgb(r: int, g: int, b: int)

  predicate IsChannel(v: int)
  {
    0 <= v <= 255
  }

  predicate IsRgb(c: Rgb)
  {
    IsChannel(c.r) && IsChannel(c.g) && IsChannel(c.b)
  }

  /** A colour `parseInt(color.slice(1), 16)` reads whole: up to six hex digits
      after a first character that is skipped. */
  predicate IsHexColor(color: string)
  {
    2 <= |color| <= 7 && DigitsIn(color[1..], 16)
  }

  /** The colour's number. */
  function ColorValue(color: string): (n: nat)
    requires IsHexColor(color)
    ensures n < 0x1000000
  {
    assert Pow(16, |color| - 1) <= Pow(16, 6) by {
      PowMono(|color| - 1, 6);
    }
    Parse(color[1..], 16)
  }

  lemma {:induction false} PowMono(j: nat, k: nat)
    requires j <= k
    ensures Pow(16, j) <= Pow(16, k)
    decreases k
  {
    if j < k {
      PowMono(j, k - 1);
    }
  }

  /** `num >> 16`, `num >> 8 & 0xFF` and `num & 0xFF` of a 24-bit number: for
      such a number the shift and mask are quotient and remainder. */
  function Channels(num: nat): (c: Rgb)
    requires num < 0x1000000
    ensures IsRgb(c)
    ensures num == c.r * 0x10000 + c.g * 0x100 + c.b
  {
    Rgb(num / 0x10000, (num / 0x100) % 0x100, num % 0x100)
  }

  /** The three channels a colour string is read as. */
  function Decode(color: string): Rgb
    requires IsHexColor(color)
  {
    Channels(ColorValue(color))
  }

  /** The template string: `0x1000000` plus the packed channels, in hex, with its
      leading "1" sliced off, behind a "#". The channels are whatever the caller
      computed; they are not clamped here. */
  function Emit(c: Rgb): string
    requires c.r >= 0 && c.g >= 0 && c.b >= 0
  {
    "#" + Numeral(0x1000000 + c.r * 0x10000 + c.g * 0x100 + c.b, 16)[1..]
  }

  /** Lighten's clamp: below 1 gives 0, 255 and above give 255. */
  function Clamp(v: int): (r: int)
    ensures IsChannel(r)
    ensures IsChannel(v) ==> r == v
    ensures v < 0 ==> r == 0
    ensures v > 255 ==> r == 255
  {
    if v < 255 then (if v < 1 then 0 else v) else 255
  }

  /** Darken's clamp: negative values give 0, there is no upper bound. */
  function Floor(v: int): (r: int)
    ensures r >= 0 && r >= v
    ensures v >= 0 ==> r == v
  {
    if v > 0 then v else 0
  }

  /** Each channel raised by `amt`, then clamped. */
  function Lightened(c: Rgb, amt: int): Rgb
  {
    Rgb(Clamp(c.r + amt), Clamp(c.g + amt), Clamp(c.b + amt))
  }

  /** Each channel lowered by `amt`, then floored at zero. */
  function Darkened(c: Rgb, amt: int): Rgb
  {
    Rgb(Floor(c.r - amt), Floor(c.g - amt), Floor(c.b - amt))
  }

  /** `lightenColor(color, percent)` with `amt` the rounded amount. */
  function Lighten(color: string, amt: int): (r: string)
    requires IsHexColor(color)
    ensures |r| == 7 && r[0] == '#' && IsHexColor(r)
    ensures Decode(r) == Lightened(Decode(color), amt)
  {
    var shaded := Lightened(Decode(color), amt);
    EmitDecodes(shaded);
    Emit(shaded)
  }

  /** `darkenColor(color, percent)` with `amt` the rounded amount. Every call in
      the game passes a non-negative percentage; only then are the channels
      sure to stay below 256. */
  function Darken(color: string, amt: int): (r: string)
    requires IsHexColor(color)
    ensures amt >= 0 ==> |r| == 7 && r[0] == '#' && IsHexColor(r)
    ensures amt >= 0 ==> Decode(r) == Darkened(Decode(color), amt)
  {
    var shaded := Darkened(Decode(color), amt);
    if amt < 0 then Emit(shaded)
    else
      EmitDecodes(shaded);
      Emit(shaded)
  }

  /** Writing channels and reading them back is the identity: the seven-digit
      hex number loses exactly its leading "1". */
  lemma EmitDecodes(c: Rgb)
    requires IsRgb(c)
    ensures |Emit(c)| == 7 && Emit(c)[0] == '#' && IsHexColor(Emit(c))
    ensures Decode(Emit(c)) == c
  {
    var v := c.r * 0x10000 + c.g * 0x100 + c.b;
    var s := Numeral(0x1000000 + v, 16);
    SevenDigits(v);
    var e := Emit(c);
    assert e[1..] == s[1..];
    assert ColorValue(e) == v;
    ChannelsOfPacked(c);
  }

  /** `(0x1000000 + v).toString(16)` for a 24-bit `v` has seven digits, and the
      six behind the first read back as `v`. */
  lemma {:induction false} SevenDigits(v: nat)
    requires v < 0x1000000
    ensures var s := Numeral(0x1000000 + v, 16);
            |s| == 7 && DigitsIn(s[1..], 16) && Parse(s[1..], 16) == v
  {
    var n := 0x1000000 + v;
    var s := Numeral(n, 16);
    SevenLong(v);
    var rest := s[1..];
    assert DigitsIn(rest, 16);
    var lead := DigitValue(s[0]);
    assert Parse(s, 16) == lead * 0x1000000 + Parse(rest, 16) by {
      assert s == [s[0]] + rest;
      ParseCons(s[0], rest, 16);
      WeightSix(lead);
    }
    assert Parse(s, 16) == n by {
      ParseNumeral(n, 16);
    }
    assert Parse(rest, 16) < 0x1000000 by {
      assert Pow(16, 6) == 0x1000000;
    }
  }

  /** `0x1000000 + v` has seven hex digits. */
  lemma {:induction false} SevenLong(v: nat)
    requires v < 0x1000000
    ensures |Numeral(0x1000000 + v, 16)| == 7
  {
    assert Pow(16, 6) == 0x1000000 && Pow(16, 7) == 0x10000000;
    NumeralLength(0x1000000 + v, 16, 7);
    NumeralLength(0x1000000 + v, 16, 6);
  }

  lemma {:induction false} WeightSix(d: nat)
    ensures Weight(d, 16, 6) == d * 0x1000000
  {
    assert Weight(d, 16, 1) == d * 0x10;
    assert Weight(d, 16, 2) == d * 0x100;
    assert Weight(d, 16, 3) == d * 0x1000;
    assert Weight(d, 16, 4) == d * 0x10000;
    assert Weight(d, 16, 5) == d * 0x100000;
  }

  lemma ChannelsOfPacked(c: Rgb)
    requires IsRgb(c)
    ensures Channels(c.r * 0x10000 + c.g * 0x100 + c.b) == c
  {
    var n := c.r * 0x10000 + c.g * 0x100 + c.b;
    assert n == (c.r * 0x100 + c.g) * 0x100 + c.b;
    assert n / 0x100 == c.r * 0x100 + c.g;
    assert n % 0x100 == c.b;
    assert n / 0x10000 == c.r;
  }

  /** Lightening by nothing keeps every channel. */
  lemma LightenByNothing(color: string)
    requires IsHexColor(color)
    ensures Decode(Lighten(color, 0)) == Decode(color)
  {
  }

  /** The two shades undo each other when no channel hits a bound: darkening
      by `amt` after lightening by it, and the other way round. */
  lemma {:induction false} DarkenUndoesLighten(color: string, amt: nat)
    requires IsHexColor(color)
    requires var c := Decode(color); c.r + amt <= 255 && c.g + amt <= 255 && c.b + amt <= 255
    ensures Decode(Darken(Lighten(color, amt), amt)) == Decode(color)
  {
    var light := Lighten(color, amt);
    assert Decode(light) == Lightened(Decode(color), amt);
    assert Decode(Darken(light, amt)) == Darkened(Decode(light), amt);
    ChannelShadesUndo(Decode(color), amt);
  }

  lemma {:induction false} LightenUndoesDarken(color: string, amt: nat)
    requires IsHexColor(color)
    requires var c := Decode(color); c.r >= amt && c.g >= amt && c.b >= amt
    ensures Decode(Lighten(Darken(color, amt), amt)) == Decode(color)
  {
    var dark := Darken(color, amt);
    assert Decode(dark) == Darkened(Decode(color), amt);
    assert Decode(Lighten(dark, amt)) == Lightened(Decode(dark), amt);
    ChannelShadesUndo(Decode(color), amt);
  }

  /** On channel values: the shades undo each other away from the bounds. */
  lemma {:induction false} ChannelShadesUndo(c: Rgb, amt: nat)
    requires IsRgb(c)
    ensures c.r + amt <= 255 && c.g + amt <= 255 && c.b + amt <= 255 ==>
              Darkened(Lightened(c, amt), amt) == c
    ensures c.r >= amt && c.g >= amt && c.b >= amt ==>
              Lightened(Darkened(c, amt), amt) == c
  {
  }

  /** Lightening never lowers a channel and darkening never raises one, for
      any non-negative amount. */
  lemma {:induction false} ShadesMoveOneWay(color: string, amt: nat)
    requires IsHexColor(color)
    ensures var c := Decode(color); var l := Decode(Lighten(color, amt));
            l.r >= c.r && l.g >= c.g && l.b >= c.b
    ensures var c := Decode(color); var d := Decode(Darken(color, amt));
            d.r <= c.r && d.g <= c.g && d.b <= c.b
  {
    assert Decode(Lighten(color, amt)) == Lightened(Decode(color), amt);
    assert Decode(Darken(color, amt)) == Darkened(Decode(color), amt);
    ChannelsMoveOneWay(Decode(color), amt);
  }

  lemma {:induction false} ChannelsMoveOneWay(c: Rgb, amt: nat)
    requires IsRgb(c)
    ensures var l := Lightened(c, amt); l.r >= c.r && l.g >= c.g && l.b >= c.b
    ensures var d := Darkened(c, amt); d.r <= c.r && d.g <= c.g && d.b <= c.b
  {
  }
}

=== FILE: high_scores.dfy ===
/** The high-score table of assets/js/utils.js: one JSON object in
    `localStorage` mapping a game id to its best score. The object is modelled as
    a map threaded through the callers. */
module HighScores {
  type Store = map<string, int>

  /** `getHighScore`: the stored score, or 0 for a game never saved (every value
      the table can hold other than a missing one is a number, and `0 || 0` is 0). */
  function GetHighScore(store: Store, id: string): (r: int)
    ensures id in store ==> r == store[id]
    ensures id !in store ==> r == 0
  {
    if id in store then store[id] else 0
  }

  /** `saveHighScore`: the entry becomes the larger of the old value and
      `score`, and that value is returned. */
  function SaveHighScore(store: Store, id: string, score: int): (r: (Store, int))
    ensures r.1 >= score && r.1 >= GetHighScore(store, id)
    ensures r.1 == score || r.1 == GetHighScore(store, id)
    ensures GetHighScore(r.0, id) == r.1
    ensures forall k :: k != id ==> GetHighScore(r.0, k) == GetHighScore(store, k)
  {
    var prev := GetHighScore(store, id);
    var best := if score > prev then score else prev;
    (store[id := best], best)
  }

  /** Saving the value just returned changes nothing further. */
  lemma SaveIsIdempotent(store: Store, id: string, score: int)
    ensures var (s1, v1) := SaveHighScore(store, id, score);
            SaveHighScore(s1, id, score) == (s1, v1)
  {
    var (s1, v1) := SaveHighScore(store, id, score);
    assert s1[id := v1] == s1;
  }
}

=== FILE: loader_rps.dfy ===
/** `RPSGame` of assets/js/game-loader.js: the stand-alone rules with the high
    score kept in the shared table under "rock-paper-scissors". The class has the
    stand-alone class's fields, and its `nextRound`, `resetGame` and select
    handlers do what the stand-alone ones do, so those are `Rps`'s operations;
    only the computer's choice and `checkGameOver` differ. */
module LoaderRps {
  import opened Wrappers
  import opened RandomPick
  import opened RpsRules
  import opened HighScores
  import Rps

  const GameId: string := "rock-paper-scissors"

  type State = Rps.State

  /** The match is well formed, never stalled (the loader's computer always has
      a choice), and the high score shown is the stored one. */
  predicate Valid(s: State, store: Store)
  {
    RpsRules.Valid(s.m) && !s.m.stalled && s.highScore == GetHighScore(store, GameId)
  }

  /** The constructor: a fresh five-round match at Medium with the stored high
      score. */
  function Initial(store: Store): (s: State)
    ensures Valid(s, store) && s.m == Fresh() && s.difficulty == Rps.Medium
  {
    Rps.State(Fresh(), Rps.Medium, GetHighScore(store, GameId))
  }

  /** The choice `lastPlayerChoice || 'rock'` stands for: the field is never
      assigned, so it is always rock. */
  const LastPlayerChoice: Choice := Rock

  /** `getComputerChoice`. Medium's avoiding branch filters out
      `rules[lastPlayerChoice]`, always scissors, once for every choice, so it
      plays rock or paper; the other paths are the stand-alone ones, and every
      path yields a choice. */
  function ComputerChoice(level: Rps.Difficulty, d: Rps.Draws): (r: Choice)
    ensures level == Rps.Medium && d.roll < 0.3 ==> r != Scissors && r in Others(Beaten(LastPlayerChoice))
    ensures !(level == Rps.Medium && d.roll < 0.3) ==> Rps.ComputerChoice(level, d) == Some(r)
  {
    match level
    case Easy => Rps.Uniform(d.pick)
    case Medium =>
      if d.roll < 0.3 then Pick(Others(Beaten(LastPlayerChoice)), d.pick)
      else Rps.Uniform(d.pick)
    case Hard =>
      if d.roll < 0.5 then Beaten(Rps.Guess(d)) else Rps.Uniform(d.pick)
  }

  /** The loader's avoiding branch is the intended single-guess one with the
      guess fixed at scissors: it never plays scissors, and it agrees with the
      intended tier whenever that tier's guess is scissors. */
  lemma MediumBranchesDiffer(d: Rps.Draws)
    requires d.roll < 0.3
    ensures ComputerChoice(Rps.Medium, d) != Scissors
    ensures Rps.Guess(d) == Scissors ==> ComputerChoice(Rps.Medium, d) == Rps.IntendedComputerChoice(Rps.Medium, d)
  {
  }

  function PlayerChoice(s: State, choice: Choice, d: Rps.Draws): (r: State)
    ensures r == s.(m := Play(s.m, choice, Some(ComputerChoice(s.difficulty, d))))
  {
    s.(m := Play(s.m, choice, Some(ComputerChoice(s.difficulty, d))))
  }

  /** `checkGameOver`: the match stops on its last round, and a player's win that
      beats the high score is saved to the table; the shown value is what the
      table returns. */
  function CheckGameOver(s: State, store: Store): (r: (State, Store))
    ensures !LastRoundReached(s.m) ==> r == (s, store)
    ensures LastRoundReached(s.m) ==> r.0.m == s.m.(active := false)
    ensures LastRoundReached(s.m) && s.m.player > s.m.computer && s.m.player > s.highScore ==>
              (r.1, r.0.highScore) == SaveHighScore(store, GameId, s.m.player)
    ensures !(LastRoundReached(s.m) && s.m.player > s.m.computer && s.m.player > s.highScore) ==>
              r.1 == store && r.0.highScore == s.highScore
    ensures r.1 != store ==> MatchResult(s.m) == Win
  {
    if !LastRoundReached(s.m) then (s, store)
    else
      var m := s.m.(active := false);
      if s.m.player > s.m.computer && s.m.player > s.highScore then
        var (store', best) := SaveHighScore(store, GameId, s.m.player);
        (Rps.State(m, s.difficulty, best), store')
      else (s.(m := m), store)
  }

  /** Every operation keeps the match well formed and the shown high score equal
      to the stored one; only this game's entry of the table can change. */
  lemma OperationsKeepValid(s: State, store: Store, choice: Choice, d: Rps.Draws, n: int, level: Rps.Difficulty)
    requires Valid(s, store)
    ensures Valid(PlayerChoice(s, choice, d), store) && Valid(Rps.NextRound(s), store)
    ensures Valid(Rps.ResetGame(s), store) && Valid(Rps.SetTotalRounds(s, n), store)
    ensures Valid(Rps.SetDifficulty(s, level), store)
    ensures var (s', store') := CheckGameOver(s, store);
            && Valid(s', store')
            && (forall k :: k != GameId ==> GetHighScore(store', k) == GetHighScore(store, k))
            && s'.highScore >= s.highScore
  {
    RpsRules.OperationsKeepValid(s.m, choice, Some(ComputerChoice(s.difficulty, d)), n);
  }
}

=== FILE: loader_snake.dfy ===
/** `SnakeGame` of assets/js/game-loader.js. The canvas is 600 x 400 pixels with
    20-pixel cells, and the tile count is taken from the width alone, so the grid
    is 30 x 30 and its rows 20..29 lie below the visible canvas. The high score
    lives in the shared table under "snake". */
module LoaderSnake {
  import opened Wrappers
  import opened SnakeCore
  import opened HighScores

  const GameId: string := "snake"
  const Tiles: nat := 600 / 20
  const VisibleRows: nat := 400 / 20
  const Start: Cell := Cell(10, 10)

  datatype State = State(
    snake: seq<Cell>,
    food: Cell,
    dx: int,
    dy: int,
    score: int,
    highScore: int,
    speed: int,
    running: bool)

  /** Play is well formed and the high score shown is the stored one. */
  predicate Valid(s: State, store: Store)
  {
    && SnakeOk(s.snake, s.food, Tiles)
    && s.score == 10 * (|s.snake| - 1)
    && s.highScore == GetHighScore(store, GameId)
    && s.highScore >= s.score
  }

  /** `resetGame`: a one-cell snake at rest with new food; high score and speed
      survive. */
  function ResetGame(s: State, pick: nat): (r: State)
    ensures r.snake == [Start] && r.dx == 0 && r.dy == 0 && r.score == 0 && !r.running
    ensures r.highScore == s.highScore && r.speed == s.speed
    ensures InGrid(r.food, Tiles) && r.food != Start
  {
    s.(snake := [Start], food := StartFood(Start, Tiles, pick), dx := 0, dy := 0, score := 0, running := false)
  }

  /** The constructor: the stored high score, speed 5, then `init`'s
      `resetGame`. */
  function Initial(store: Store, pick: nat): (s: State)
    ensures s.snake == [Start] && !s.running && s.speed == 5 && s.score == 0
    ensures s.highScore == GetHighScore(store, GameId)
    ensures GetHighScore(store, GameId) >= 0 ==> Valid(s, store)
  {
    var s := ResetGame(State([], Cell(0, 0), 0, 0, 0, GetHighScore(store, GameId), 5, false), pick);
    FreshSnakeOk(s.food);
    s
  }

  lemma FreshSnakeOk(food: Cell)
    requires InGrid(food, Tiles) && food != Start
    ensures SnakeOk([Start], food, Tiles)
  {
    assert Distinct([Start]);
  }

  function StartGame(s: State): (r: State)
    ensures s.running ==> r == s
    ensures !s.running ==> r == s.(running := true, dx := 1, dy := 0)
  {
    if s.running then s else s.(running := true, dx := 1, dy := 0)
  }

  /** `changeDirection`, also what the on-screen buttons call, unfiltered. */
  function ChangeDirection(s: State, x: int, y: int): (r: State)
    ensures !s.running ==> r == s
    ensures s.running ==> r == s.(dx := x, dy := y)
  {
    if !s.running then s else s.(dx := x, dy := y)
  }

  /** `handleKeyDown`: every key is ignored while stopped (Space does not start
      this copy); while running the arrows steer through the reversal filter. */
  function HandleKeyDown(s: State, k: Key): (r: State)
    ensures !s.running ==> r == s
    ensures s.running ==> r == s.(dx := Steer(s.dx, s.dy, k).0, dy := Steer(s.dx, s.dy, k).1)
  {
    if !s.running then s
    else
      var (x, y) := Steer(s.dx, s.dy, k);
      ChangeDirection(s, x, y)
  }

  function SetSpeed(s: State, speed: int): (r: State)
    ensures r == s.(speed := speed)
  {
    s.(speed := speed)
  }

  /** `gameUpdate`: as in the stand-alone copy, except that a beaten high score
      is written to the shared table and the value it returns is shown. */
  function GameUpdate(s: State, store: Store, pick: nat): (r: (State, Store))
    requires |s.snake| > 0
    ensures !s.running ==> r == (s, store)
    ensures r.0.running ==> s.running
    ensures s.running && !r.0.running <==>
              s.running && (var h := Head(s.snake, s.dx, s.dy); !InGrid(h, Tiles) || h in s.snake)
    ensures |r.0.snake| == |s.snake| + 1 <==> r.0.score == s.score + 10
    ensures r.0.score != s.score ==> r.0.score == s.score + 10 && r.0.snake[1..] == s.snake
    ensures r.0.score > s.highScore && r.0.score != s.score ==>
              (r.1, r.0.highScore) == SaveHighScore(store, GameId, r.0.score)
    ensures !(r.0.score > s.highScore && r.0.score != s.score) ==> r.1 == store && r.0.highScore == s.highScore
    ensures s.running && !r.0.running ==> r.0.snake == s.snake && r.0.score == s.score
    ensures r.0.score != s.score ==> r.0.snake[0] == Head(s.snake, s.dx, s.dy)
    ensures var h := Head(s.snake, s.dx, s.dy);
            s.running && InGrid(h, Tiles) && h !in s.snake && h != s.food ==>
              r.0.snake == [h] + s.snake[..|s.snake| - 1] && r.0.score == s.score && r.0.food == s.food
    ensures var h := Head(s.snake, s.dx, s.dy);
            s.running && InGrid(h, Tiles) && h !in s.snake && h == s.food ==>
              || (r.0.snake == [h] + s.snake && r.0.score == s.score + 10)
              || (r == (s, store) && forall c :: InGrid(c, Tiles) ==> c in [h] + s.snake)
    ensures r.0.dx == s.dx && r.0.dy == s.dy
  {
    if !s.running then (s, store)
    else
      match Advance(s.snake, s.dx, s.dy, s.food, Tiles, pick)
      case HitWall => (s.(running := false), store)
      case HitSelf => (s.(running := false), store)
      case NoRoom => (s, store)
      case Slid(body) => (s.(snake := body), store)
      case Ate(body, food) =>
        var score := s.score + 10;
        var t := s.(snake := body, food := food, score := score);
        if score > s.highScore then
          var (store', best) := SaveHighScore(store, GameId, score);
          (t.(highScore := best), store')
        else (t, store)
  }

  /** `gameOver` followed by the message's "Play Again": `resetGame` then
      `startGame`. Choosing "Main Menu" leaves the stopped state as it is. */
  function PlayAgain(s: State, pick: nat): (r: State)
    ensures r.snake == [Start] && r.running && r.dx == 1 && r.dy == 0 && r.score == 0
    ensures r.highScore == s.highScore
  {
    StartGame(ResetGame(s, pick))
  }

  /** A tick keeps play well formed, keeps the shown high score equal to the
      stored one, and touches no other game's entry. */
  lemma GameUpdateKeepsValid(s: State, store: Store, pick: nat)
    requires Valid(s, store)
    ensures Valid(GameUpdate(s, store, pick).0, GameUpdate(s, store, pick).1)
    ensures forall k :: k != GameId ==> GetHighScore(GameUpdate(s, store, pick).1, k) == GetHighScore(store, k)
  {
    AdvanceKeepsSnakeOk(s.snake, s.dx, s.dy, s.food, Tiles, pick);
  }

  lemma ResetKeepsValid(s: State, store: Store, pick: nat)
    requires Valid(s, store)
    ensures Valid(ResetGame(s, pick), store) && Valid(PlayAgain(s, pick), store)
  {
    var r := ResetGame(s, pick);
    FreshSnakeOk(r.food);
    SteeringKeepsValid(r, StartGame(r), store);
  }

  lemma OperationsKeepValid(s: State, store: Store, k: Key, x: int, y: int, speed: int)
    requires Valid(s, store)
    ensures Valid(StartGame(s), store) && Valid(HandleKeyDown(s, k), store)
    ensures Valid(ChangeDirection(s, x, y), store) && Valid(SetSpeed(s, speed), store)
  {
    SteeringKeepsValid(s, StartGame(s), store);
    SteeringKeepsValid(s, HandleKeyDown(s, k), store);
    SteeringKeepsValid(s, ChangeDirection(s, x, y), store);
    SteeringKeepsValid(s, SetSpeed(s, speed), store);
  }

  /** Validity depends on neither direction, speed nor the running flag. */
  lemma SteeringKeepsValid(s: State, t: State, store: Store)
    requires Valid(s, store)
    requires t.snake == s.snake && t.food == s.food && t.score == s.score && t.highScore == s.highScore
    ensures Valid(t, store)
  {
  }

  /** The grid reaches below the canvas: a snake may wander into rows that are
      never drawn, and the wall that stops it is 10 rows further down. */
  lemma RowsBelowTheCanvasArePlayable()
    ensures VisibleRows < Tiles
    ensures forall y :: VisibleRows <= y < Tiles ==> InGrid(Cell(0, y), Tiles)
    ensures Advance([Cell(0, 25)], 0, 1, Cell(5, 5), Tiles, 0) == Slid([Cell(0, 26)])
  {
  }
}

=== FILE: loader_tic_tac_toe.dfy ===
/** `TicTacToeGame` of assets/js/game-loader.js: the rules of
    games/tic-tac-toe/script.js, a Medium tier without the corner step, and a
    high score kept in the shared table under "tic-tac-toe". */
module LoaderTicTacToe {
  import opened Wrappers
  import opened TttBoard
  import opened TttPlay
  import opened TttAi
  import opened TttMinimax
  import opened HighScores
  import TicTacToe

  const GameId: string := "tic-tac-toe"

  /** The class's fields: the game proper and the displayed high score. */
  datatype State = State(game: TicTacToe.State, highScore: int)

  /** The larger of the two players' scores. */
  function Leader(s: Scores): (r: nat)
    ensures r >= s.x && r >= s.o && (r == s.x || r == s.o)
  {
    if s.x >= s.o then s.x else s.o
  }

  /** The high score shown is the stored one and is at least either player's
      score in the running match. */
  predicate Valid(s: State, store: Store)
  {
    && TicTacToe.Valid(s.game)
    && s.highScore == GetHighScore(store, GameId)
    && s.highScore >= Leader(s.game.turn.scores)
  }

  /** The constructor: the games-copy initial state with the stored high score. */
  function Initial(store: Store): (s: State)
    ensures s.game == TicTacToe.Initial() && s.highScore == GetHighScore(store, GameId)
    ensures GetHighScore(store, GameId) >= 0 ==> Valid(s, store)
  {
    State(TicTacToe.Initial(), GetHighScore(store, GameId))
  }

  /** `makeMove` with the high-score update of `handleWin`: after a winning move
      the leader's score is saved when it beats the high score shown. */
  function MakeMove(s: State, store: Store, index: Index): (r: (State, Store))
    ensures r.0.game == s.game.(turn := PlayAt(s.game.turn, index))
    ensures var t := r.0.game.turn;
            WinsFor(t.board, s.game.turn.current) && Leader(t.scores) > s.highScore ==>
              r == (State(r.0.game, SaveHighScore(store, GameId, Leader(t.scores)).1),
                    SaveHighScore(store, GameId, Leader(t.scores)).0)
    ensures var t := r.0.game.turn;
            !(WinsFor(t.board, s.game.turn.current) && Leader(t.scores) > s.highScore) ==>
              r.0.highScore == s.highScore && r.1 == store
  {
    var t := PlayAt(s.game.turn, index);
    var g := s.game.(turn := t);
    if WinsFor(t.board, s.game.turn.current) && Leader(t.scores) > s.highScore then
      var (store', best) := SaveHighScore(store, GameId, Leader(t.scores));
      (State(g, best), store')
    else (State(g, s.highScore), store)
  }

  /** `handleCellClick`: ignored while play is off or on a taken cell; the last
      component says whether an AI turn is scheduled. */
  function HandleCellClick(s: State, store: Store, index: int): (r: (State, Store, bool))
    ensures !s.game.turn.active || !(0 <= index < 9) || s.game.turn.board[index] != Empty ==>
              r == (s, store, false)
    ensures s.game.turn.active && 0 <= index < 9 && s.game.turn.board[index] == Empty ==>
              && (r.0, r.1) == MakeMove(s, store, index)
              && (r.2 <==> r.0.game.turn.active && s.game.mode == PvC && r.0.game.turn.current == O)
  {
    if !s.game.turn.active || !(0 <= index < 9) || s.game.turn.board[index] != Empty then (s, store, false)
    else
      var (s', store') := MakeMove(s, store, index);
      (s', store', s'.game.turn.active && s'.game.mode == PvC && s'.game.turn.current == O)
  }

  /** The `switch` in `makeAIMove`. */
  function ChooseAiMove(d: Difficulty, b: Board, draws: TicTacToe.AiDraws): (r: Option<nat>)
    ensures r.None? <==> Full(b)
    ensures r.Some? ==> r.value < 9 && b[r.value] == Empty
  {
    match d
    case Easy => RandomMove(b, draws.cell)
    case Medium => MediumMoveNoCorner(b, draws.cell)
    case Hard => FullIffNoMoves(b); HardMove(b)
  }

  /** `makeAIMove` */
  function MakeAiMove(s: State, store: Store, draws: TicTacToe.AiDraws): (r: (State, Store))
    ensures !s.game.turn.active || Full(s.game.turn.board) ==> r == (s, store)
    ensures s.game.turn.active && !Full(s.game.turn.board) ==>
              exists m: Index :: s.game.turn.board[m] == Empty && r == MakeMove(s, store, m)
    ensures var choice := ChooseAiMove(s.game.difficulty, s.game.turn.board, draws);
            s.game.turn.active && choice.Some? ==> r == MakeMove(s, store, choice.value)
  {
    if !s.game.turn.active then (s, store)
    else
      match ChooseAiMove(s.game.difficulty, s.game.turn.board, draws)
      case None => (s, store)
      case Some(m) => MakeMove(s, store, m)
  }

  /** `resetGame`, `newMatch`, `nextRound`, `changeMode` and the difficulty
      handler act on the game alone; the high score is untouched. */
  function ResetGame(s: State): (r: State)
    ensures r.game == TicTacToe.ResetGame(s.game) && r.highScore == s.highScore
  {
    s.(game := TicTacToe.ResetGame(s.game))
  }

  function NewMatch(s: State): (r: State)
    ensures r.game == TicTacToe.NewMatch(s.game) && r.highScore == s.highScore
  {
    s.(game := TicTacToe.NewMatch(s.game))
  }

  function NextRound(s: State): (r: State)
    ensures r.game == TicTacToe.NextRound(s.game) && r.highScore == s.highScore
  {
    s.(game := TicTacToe.NextRound(s.game))
  }

  function ChangeMode(s: State, mode: Mode): (r: State)
    ensures r.game == TicTacToe.ChangeMode(s.game, mode) && r.highScore == s.highScore
  {
    s.(game := TicTacToe.ChangeMode(s.game, mode))
  }

  function SetDifficulty(s: State, d: Difficulty): (r: State)
    ensures r.game == TicTacToe.SetDifficulty(s.game, d) && r.highScore == s.highScore
  {
    s.(game := TicTacToe.SetDifficulty(s.game, d))
  }

  /** A move keeps the shown high score equal to the stored one and at least the
      leader's score, and touches no other game's entry. */
  lemma MakeMoveKeepsValid(s: State, store: Store, index: Index)
    requires Valid(s, store) && s.game.turn.active && s.game.turn.board[index] == Empty
    ensures Valid(MakeMove(s, store, index).0, MakeMove(s, store, index).1)
    ensures forall k :: k != GameId ==> GetHighScore(MakeMove(s, store, index).1, k) == GetHighScore(store, k)
  {
    PlayAtKeepsConsistent(s.game.turn, index);
  }

  lemma OperationsKeepValid(s: State, store: Store, index: int, draws: TicTacToe.AiDraws, mode: Mode, d: Difficulty)
    requires Valid(s, store)
    ensures var (s', store', _) := HandleCellClick(s, store, index); Valid(s', store')
    ensures var (s', store') := MakeAiMove(s, store, draws); Valid(s', store')
    ensures Valid(ResetGame(s), store) && Valid(NewMatch(s), store) && Valid(NextRound(s), store)
    ensures Valid(ChangeMode(s, mode), store) && Valid(SetDifficulty(s, d), store)
  {
    TicTacToe.OperationsKeepValid(s.game, index, draws, mode, d);
    if s.game.turn.active && 0 <= index < 9 && s.game.turn.board[index] == Empty {
      MakeMoveKeepsValid(s, store, index);
    }
    if s.game.turn.active {
      var c := ChooseAiMove(s.game.difficulty, s.game.turn.board, draws);
      if c.Some? {
        MakeMoveKeepsValid(s, store, c.value);
      }
    }
  }

  /** The one difference in the AI: with no win, no block and the centre taken,
      the loader's Medium tier draws from every free cell, where the games copy
      would prefer a free corner. */
  lemma MediumSkipsCorners(b: Board, pick: nat)
    requires !CanWin(b, O) && !CanWin(b, X) && b[4] != Empty
    ensures MediumMoveNoCorner(b, pick) == RandomMove(b, pick)
    ensures forall c :: c in Corners && b[c] == Empty ==>
              exists k: nat :: MediumMove(b, k, pick) == Some(c)
  {
    forall c | c in Corners && b[c] == Empty
      ensures exists k: nat :: MediumMove(b, k, pick) == Some(c)
    {
      MediumCornerStepReachesEveryCorner(b, c, pick);
    }
  }
}

=== FILE: numerals.dfy ===
/** Positional numerals as JavaScript writes and reads them: `n.toString(base)`
    spells a non-negative integer with no leading zeros and lower-case letters
    for the digits above 9, and `parseInt(s, base)` reads a run of digits of
    either case back. The decimal strings of assets/js/utils.js and the
    hexadecimal colours of assets/js/game-loader.js are the only two bases the
    program uses, so the base is one of those two; every step below multiplies
    or divides by that constant only. */
module Numerals {

  predicate IsBase(base: nat)
  {
    base == 10 || base == 16
  }

  /** One place to the left: `v * base`. */
  function Shift(v: nat, base: nat): nat
    requires IsBase(base)
  {
    if base == 10 then v * 10 else v * 16
  }

  /** `d` moved `k` places to the left: `d * base^k`. */
  function Weight(d: nat, base: nat, k: nat): nat
    requires IsBase(base)
  {
    if k == 0 then d else Shift(Weight(d, base, k - 1), base)
  }

  function Pow(base: nat, k: nat): (r: nat)
    requires IsBase(base)
  {
    Weight(1, base, k)
  }

  /** A digit character of base 16 or less, in either case. */
  predicate IsDigitChar(c: char)
  {
    '0' <= c <= '9' || 'a' <= c <= 'f' || 'A' <= c <= 'F'
  }

  function DigitValue(c: char): (v: nat)
    requires IsDigitChar(c)
    ensures v < 16
    ensures '0' <= c <= '9' <==> v < 10
  {
    if '0' <= c <= '9' then c as int - '0' as int
    else if 'a' <= c <= 'f' then c as int - 'a' as int + 10
    else c as int - 'A' as int + 10
  }

  /** The character `toString` writes for digit `d`: lower case above 9. */
  function DigitChar(d: nat): (c: char)
    requires d < 16
    ensures IsDigitChar(c) && DigitValue(c) == d
    ensures '0' <= c <= '9' || 'a' <= c <= 'f'
  {
    if d < 10 then ('0' as int + d) as char else ('a' as int + d - 10) as char
  }

  /** Every character of `s` is a digit of `base`. */
  predicate DigitsIn(s: string, base: nat)
  {
    forall i :: 0 <= i < |s| ==> IsDigitChar(s[i]) && DigitValue(s[i]) < base
  }

  /** `n` with its last digit dropped. */
  function Quot(n: nat, base: nat): (q: nat)
    requires IsBase(base)
    ensures n == Shift(q, base) + Rem(n, base)
    ensures n >= base ==> 0 < q < n
    ensures n < base ==> q == 0
  {
    if base == 10 then n / 10 else n / 16
  }

  /** The last digit of `n`. */
  function Rem(n: nat, base: nat): (d: nat)
    requires IsBase(base)
    ensures d < base
    ensures n < base ==> d == n
  {
    if base == 10 then n % 10 else n % 16
  }

  /** `n.toString(base)`. */
  function Numeral(n: nat, base: nat): (r: string)
    requires IsBase(base)
    ensures |r| >= 1 && DigitsIn(r, base)
    ensures forall i :: 0 <= i < |r| ==> '0' <= r[i] <= '9' || 'a' <= r[i] <= 'f'
    ensures r[0] == '0' <==> n == 0
    decreases n
  {
    if n < base then [DigitChar(n)]
    else Numeral(Quot(n, base), base) + [DigitChar(Rem(n, base))]
  }

  /** `parseInt(s, base)` on a string made of digits only. */
  function Parse(s: string, base: nat): (v: nat)
    requires IsBase(base) && DigitsIn(s, base)
    ensures v < Pow(base, |s|)
  {
    if s == [] then 0
    else Shift(Parse(s[..|s| - 1], base), base) + DigitValue(s[|s| - 1])
  }

  /** Reading back what `toString` wrote gives the number again. */
  lemma {:induction false} ParseNumeral(n: nat, base: nat)
    requires IsBase(base)
    ensures Parse(Numeral(n, base), base) == n
    decreases n
  {
    if n >= base {
      var s := Numeral(n, base);
      var q := Quot(n, base);
      ParseNumeral(q, base);
      assert s[..|s| - 1] == Numeral(q, base);
    }
  }

  lemma {:induction false} WeightOfZero(base: nat, k: nat)
    requires IsBase(base)
    ensures Weight(0, base, k) == 0
    decreases k
  {
    if k > 0 {
      WeightOfZero(base, k - 1);
    }
  }

  /** A digit in front weighs its value moved past every digit behind it. */
  lemma {:induction false} ParseCons(c: char, t: string, base: nat)
    requires IsBase(base) && IsDigitChar(c) && DigitValue(c) < base && DigitsIn(t, base)
    ensures DigitsIn([c] + t, base)
    ensures Parse([c] + t, base) == Weight(DigitValue(c), base, |t|) + Parse(t, base)
    decreases |t|
  {
    var s := [c] + t;
    assert DigitsIn(s, base) by {
      forall i | 0 <= i < |s| ensures IsDigitChar(s[i]) && DigitValue(s[i]) < base {
        if i > 0 { assert s[i] == t[i - 1]; }
      }
    }
    if t != [] {
      var init := t[..|t| - 1];
      assert s[..|s| - 1] == [c] + init;
      ParseCons(c, init, base);
      assert Parse(s, base) == Shift(Parse([c] + init, base), base) + DigitValue(t[|t| - 1]);
    }
  }

  /** `padStart` with zeros does not change the value read back. */
  lemma LeadingZero(t: string, base: nat)
    requires IsBase(base) && DigitsIn(t, base)
    ensures DigitsIn(['0'] + t, base) && Parse(['0'] + t, base) == Parse(t, base)
  {
    ParseCons('0', t, base);
    WeightOfZero(base, |t|);
  }

  /** A numeral has at most `k` digits exactly when the number is below
      `base` to the `k`. */
  lemma {:induction false} NumeralLength(n: nat, base: nat, k: nat)
    requires IsBase(base) && k >= 1
    ensures |Numeral(n, base)| <= k <==> n < Pow(base, k)
    decreases n
  {
    PowGrows(base, k);
    if n >= base {
      var q := Quot(n, base);
      if k > 1 {
        NumeralLength(q, base, k - 1);
        assert Pow(base, k) == Shift(Pow(base, k - 1), base);
        assert |Numeral(n, base)| == |Numeral(q, base)| + 1;
      }
    }
  }

  lemma {:induction false} PowGrows(base: nat, k: nat)
    requires IsBase(base) && k >= 1
    ensures Pow(base, k) >= base
    decreases k
  {
    if k > 1 {
      PowGrows(base, k - 1);
      assert Pow(base, k) == Shift(Pow(base, k - 1), base);
    }
  }
}

=== FILE: prefs.dfy ===
/** The theme and sound preferences of `GameHubUtils` (assets/js/utils.js) and
    the two local-storage entries they are kept in. Local storage holds strings
    only, so the sound flag is written as "true" or "false". */
module Prefs {
  type Storage = map<string, string>

  const ThemeKey: string := "gameHubTheme"
  const SoundKey: string := "gameHubSound"

  datatype Prefs = Prefs(theme: string, soundEnabled: bool)

  /** The constructor's defaults (dark theme, sound on) followed by
      `loadPreferences`: a saved theme replaces the default when it is a
      non-empty string, and a saved sound entry, whatever it holds, decides the
      flag by reading "true". */
  function Load(store: Storage): (r: Prefs)
    ensures ThemeKey in store && store[ThemeKey] != "" ==> r.theme == store[ThemeKey]
    ensures ThemeKey !in store || store[ThemeKey] == "" ==> r.theme == "dark"
    ensures r.theme != ""
    ensures r.soundEnabled <==> SoundKey !in store || store[SoundKey] == "true"
  {
    var theme := if ThemeKey in store && store[ThemeKey] != "" then store[ThemeKey] else "dark";
    var sound := if SoundKey in store then store[SoundKey] == "true" else true;
    Prefs(theme, sound)
  }

  /** `toggleTheme`: "dark" becomes "light" and anything else becomes "dark";
      the new theme is saved. */
  function ToggleTheme(p: Prefs, store: Storage): (r: (Prefs, Storage))
    ensures r.0.theme == "dark" || r.0.theme == "light"
    ensures r.0.theme != p.theme || (p.theme != "dark" && p.theme != "light")
    ensures r.0.theme == "light" <==> p.theme == "dark"
    ensures r.0.soundEnabled == p.soundEnabled
    ensures ThemeKey in r.1 && r.1[ThemeKey] == r.0.theme
    ensures forall k :: k != ThemeKey ==> (k in r.1 <==> k in store) && (k in store ==> r.1[k] == store[k])
  {
    var theme := if p.theme == "dark" then "light" else "dark";
    (p.(theme := theme), store[ThemeKey := theme])
  }

  /** `toggleSound`: the flag flips and is saved as its string. */
  function ToggleSound(p: Prefs, store: Storage): (r: (Prefs, Storage))
    ensures r.0.soundEnabled != p.soundEnabled && r.0.theme == p.theme
    ensures SoundKey in r.1 && (r.1[SoundKey] == "true" <==> r.0.soundEnabled)
    ensures forall k :: k != SoundKey ==> (k in r.1 <==> k in store) && (k in store ==> r.1[k] == store[k])
  {
    var sound := !p.soundEnabled;
    (p.(soundEnabled := sound), store[SoundKey := if sound then "true" else "false"])
  }

  /** A toggle survives a reload: when the preferences in use are the ones the
      storage gives back, they still are after either toggle. */
  lemma TogglesSurviveReload(p: Prefs, store: Storage)
    requires Load(store) == p
    ensures Load(ToggleTheme(p, store).1) == ToggleTheme(p, store).0
    ensures Load(ToggleSound(p, store).1) == ToggleSound(p, store).0
  {
    assert ThemeKey != SoundKey;
  }

  /** Toggling the theme twice gives it back exactly when it was one of the
      two themes the toggle knows; any other saved theme is lost to "dark". */
  lemma ThemeToggleTwice(p: Prefs, store: Storage)
    ensures var once := ToggleTheme(p, store);
            (ToggleTheme(once.0, once.1).0 == p) <==> (p.theme == "dark" || p.theme == "light")
  {
  }

  /** Toggling the sound twice changes nothing, in memory or in storage beyond
      the entry having been written. */
  lemma SoundToggleTwice(p: Prefs, store: Storage)
    ensures var once := ToggleSound(p, store);
            var twice := ToggleSound(once.0, once.1);
            twice.0 == p && twice.1 == store[SoundKey := if p.soundEnabled then "true" else "false"]
  {
  }
}

=== FILE: random_pick.dfy ===
/** Random choices. Every `Math.floor(Math.random() * xs.length)` in the source becomes
    an explicit draw `k`; the element picked is `xs[k % |xs|]`, so the set of possible
    results is exactly the set of elements of `xs`. */
module RandomPick {

  function Pick<T>(xs: seq<T>, k: nat): (r: T)
    requires |xs| > 0
    ensures r in xs
  {
    xs[k % |xs|]
  }

  /** Every element can be the one drawn: the draw models a choice among all of them. */
  lemma PickReachesAll<T>(xs: seq<T>, x: T)
    requires x in xs
    ensures exists k: nat :: k < |xs| && Pick(xs, k) == x
  {
    var i :| 0 <= i < |xs| && xs[i] == x;
    SmallRemainder(i, |xs|);
    assert Pick(xs, i) == x;
  }

  lemma SmallRemainder(i: nat, n: nat)
    requires i < n
    ensures i % n == i
  {
  }

}

=== FILE: rps.dfy ===
/** games/rock-paper-scissors/script.js: the stand-alone `RockPaperScissors`
    class, with its high score in the `rpsHighScore` entry of local storage. */
module Rps {
  import opened Wrappers
  import opened RandomPick
  import opened HighScores
  import opened RpsRules

  /** The local-storage entry of the high score. `setItem` stores the score's
      decimal text and `getItem(...) || 0` reads it back as that number (or 0
      when absent), so local storage is modelled as a map from keys to those
      numbers, read like the hub's table. */
  const HighScoreKey: string := "rpsHighScore"

  /** The difficulty select: any value other than easy or medium takes the
      hard branch. */
  datatype Difficulty = Easy | Medium | Hard

  /** The random numbers one computer turn may draw. `roll` is the
      `Math.random()` compared with the tier's threshold and `pick` picks the
      final entry. `getMostCommonPlayerChoice` is itself a uniform draw, made
      afresh on every call: Hard calls it once (`guess`), and Medium's `filter`
      calls it once per choice it tests, for rock, paper and scissors in turn
      (`guess`, `second`, `third`). */
  datatype Draws = Draws(roll: real, guess: nat, second: nat, third: nat, pick: nat)

  datatype State = State(m: Match, difficulty: Difficulty, highScore: int)

  function Uniform(pick: nat): Choice
  {
    Choices[pick % 3]
  }

  /** `getMostCommonPlayerChoice` on its first call of a turn: a uniform draw;
      no history is kept. */
  function Guess(d: Draws): Choice
  {
    Uniform(d.guess)
  }

  /** The guess Medium's filter draws while it tests `c`. */
  function FilterGuess(d: Draws, c: Choice): Choice
  {
    match c
    case Rock => Uniform(d.guess)
    case Paper => Uniform(d.second)
    case Scissors => Uniform(d.third)
  }

  /** The position of a choice in `choices`. */
  function Rank(c: Choice): nat
  {
    match c
    case Rock => 0
    case Paper => 1
    case Scissors => 2
  }

  /** `choices.filter(c => c !== getMostCommonPlayerChoice())`: each choice is
      tested against a guess of its own, so anywhere from none to all three
      choices survive, in their order. */
  function Kept(d: Draws): (r: seq<Choice>)
    ensures forall c {:trigger c in r} :: c in r <==> c != FilterGuess(d, c)
    ensures forall i, j :: 0 <= i < j < |r| ==> Rank(r[i]) < Rank(r[j])
  {
    (if Rock != Uniform(d.guess) then [Rock] else [])
    + (if Paper != Uniform(d.second) then [Paper] else [])
    + (if Scissors != Uniform(d.third) then [Scissors] else [])
  }

  /** `getComputerChoice`, as written. Easy draws uniformly. Medium, 30% of the
      time, picks among the choices its filter kept; when it kept none, the
      pick reads an empty array and yields `undefined`, here `None`. Hard, half
      of the time, plays `rules[guess]`, the choice the guess beats. Every other
      path draws uniformly. */
  function ComputerChoice(level: Difficulty, d: Draws): (r: Option<Choice>)
    ensures r.None? <==> level == Medium && d.roll < 0.3 && Kept(d) == []
    ensures level == Medium && d.roll < 0.3 && r.Some? ==> r.value in Kept(d)
    ensures level == Hard && d.roll < 0.5 ==> r.Some? && Judge(Guess(d), r.value) == Win
    ensures level == Easy ==> r == Some(Uniform(d.pick))
    ensures level != Easy && !(level == Medium && d.roll < 0.3) && !(level == Hard && d.roll < 0.5) ==>
              r == Some(Uniform(d.pick))
  {
    match level
    case Easy => Some(Uniform(d.pick))
    case Medium =>
      if d.roll < 0.3 then
        var options := Kept(d);
        if options == [] then None else Some(Pick(options, d.pick))
      else Some(Uniform(d.pick))
    case Hard =>
      if d.roll < 0.5 then Some(Beaten(Guess(d))) else Some(Uniform(d.pick))
  }

  /** Every choice Medium's filter keeps can be the one played. */
  lemma MediumReachesEveryKeptChoice(d: Draws, c: Choice)
    requires d.roll < 0.3 && c in Kept(d)
    ensures exists k: nat :: k < |Kept(d)| && ComputerChoice(Medium, d.(pick := k)) == Some(c)
  {
    PickReachesAll(Kept(d), c);
    var k: nat :| k < |Kept(d)| && Pick(Kept(d), k) == c;
    assert Kept(d.(pick := k)) == Kept(d);
    assert ComputerChoice(Medium, d.(pick := k)) == Some(c);
  }

  /** The filter can keep any number of choices, from none to all three. */
  lemma FilterKeepsAnyNumber(n: nat)
    requires n <= 3
    ensures exists d: Draws :: |Kept(d)| == n
  {
    var d :=
      if n == 0 then Draws(0.0, 0, 1, 2, 0)
      else if n == 1 then Draws(0.0, 1, 1, 2, 0)
      else if n == 2 then Draws(0.0, 1, 0, 2, 0)
      else Draws(0.0, 1, 0, 0, 0);
    assert |Kept(d)| == n;
  }

  /** As written, Medium's avoiding branch can play a choice its own guesses
      named: guessing paper, rock, rock keeps all three choices, and the pick
      can land on rock. */
  lemma MediumCanPlayAGuessedChoice()
    ensures var d := Draws(0.0, 1, 0, 0, 0);
            Kept(d) == Choices && ComputerChoice(Medium, d) == Some(Rock)
            && FilterGuess(d, Paper) == Rock && FilterGuess(d, Scissors) == Rock
  {
  }

  /** The avoiding branch as evidently intended, and as the loader writes it
      with a fixed exclusion: one guess is drawn, and the computer picks one of
      the two other choices. Every other path is the as-written one. */
  function IntendedComputerChoice(level: Difficulty, d: Draws): (r: Choice)
    ensures level == Medium && d.roll < 0.3 ==> r != Guess(d) && r in Others(Guess(d))
    ensures !(level == Medium && d.roll < 0.3) ==> ComputerChoice(level, d) == Some(r)
  {
    match level
    case Easy => Uniform(d.pick)
    case Medium =>
      if d.roll < 0.3 then Pick(Others(Guess(d)), d.pick) else Uniform(d.pick)
    case Hard =>
      if d.roll < 0.5 then Beaten(Guess(d)) else Uniform(d.pick)
  }

  /** In the intended avoiding branch exactly the guess is ruled out: both
      other choices stay possible. */
  lemma IntendedMediumAvoidsOnlyTheGuess(d: Draws, c: Choice)
    requires d.roll < 0.3 && c != Guess(d)
    ensures exists k: nat :: k < 2 && IntendedComputerChoice(Medium, d.(pick := k)) == c
  {
    var options := Others(Guess(d));
    PickReachesAll(options, c);
    var k: nat :| k < 2 && Pick(options, k) == c;
    assert IntendedComputerChoice(Medium, d.(pick := k)) == c;
  }

  /** As written, the Hard tier's targeted branch loses to the very choice it
      predicts: a player who plays the guessed choice wins that round. */
  lemma HardPlaysIntoTheGuess(d: Draws, player: Choice)
    requires d.roll < 0.5 && player == Guess(d)
    ensures var r := ComputerChoice(Hard, d); r.Some? && Judge(player, r.value) == Win
  {
  }

  /** The constructor: a fresh five-round match at Medium, showing the stored
      high score. */
  function Initial(store: Store): (s: State)
    ensures Valid(s) && s.m == Fresh() && s.difficulty == Medium
    ensures s.highScore == GetHighScore(store, HighScoreKey)
  {
    State(Fresh(), Medium, GetHighScore(store, HighScoreKey))
  }

  predicate Valid(s: State)
  {
    RpsRules.Valid(s.m)
  }

  /** `playerChoice`, then (after its delays) the computer's choice and
      `determineWinner`. When Medium's filter keeps nothing, the player loses
      the round and the match stalls. */
  function PlayerChoice(s: State, choice: Choice, d: Draws): (r: State)
    ensures r.difficulty == s.difficulty && r.highScore == s.highScore
    ensures r.m == Play(s.m, choice, ComputerChoice(s.difficulty, d))
    ensures s.m.active && s.m.choosing && s.difficulty == Medium && d.roll < 0.3 && Kept(d) == [] ==>
              r.m == s.m.(computer := s.m.computer + 1, choosing := false, stalled := true)
  {
    s.(m := Play(s.m, choice, ComputerChoice(s.difficulty, d)))
  }

  /** As written, Medium can play nothing: when the filter guesses rock, paper,
      scissors, no choice survives, the computer's choice is `undefined`, the
      player loses the round, and the Next Round button never comes back. */
  lemma MediumCanPlayNothing(s: State, choice: Choice)
    requires s.m.active && s.m.choosing && s.difficulty == Medium
    ensures var d := Draws(0.0, 0, 1, 2, 0);
            var r := PlayerChoice(s, choice, d);
            && ComputerChoice(Medium, d) == None
            && r.m.computer == s.m.computer + 1 && r.m.player == s.m.player
            && r.m.stalled && NextRound(r) == r
  {
  }

  /** A round stalls exactly when Medium's filter keeps nothing. */
  lemma OnlyAnEmptyFilterStalls(s: State, choice: Choice, d: Draws)
    requires s.m.active && s.m.choosing
    ensures PlayerChoice(s, choice, d).m.stalled <==> s.difficulty == Medium && d.roll < 0.3 && Kept(d) == []
  {
  }

  /** `checkGameOver`, run by the timer a completed `determineWinner` sets (a
      stalled round sets none): once the last round is reached the match stops,
      and a player's win that beats the high score raises it and writes it to
      the `rpsHighScore` entry. */
  function CheckGameOver(s: State, store: Store): (r: (State, Store))
    ensures s.m.stalled || !LastRoundReached(s.m) ==> r == (s, store)
    ensures !s.m.stalled && LastRoundReached(s.m) ==> r.0.m == s.m.(active := false)
    ensures r.0.difficulty == s.difficulty && r.0.highScore >= s.highScore
    ensures r.0.highScore != s.highScore <==>
              !s.m.stalled && LastRoundReached(s.m) && s.m.player > s.m.computer && s.m.player > s.highScore
    ensures r.0.highScore != s.highScore ==>
              r.0.highScore == s.m.player && MatchResult(s.m) == Win && r.1 == store[HighScoreKey := s.m.player]
    ensures r.0.highScore == s.highScore ==> r.1 == store
  {
    if s.m.stalled || !LastRoundReached(s.m) then (s, store)
    else
      var m := s.m.(active := false);
      if s.m.player > s.m.computer && s.m.player > s.highScore then
        (State(m, s.difficulty, s.m.player), store[HighScoreKey := s.m.player])
      else (s.(m := m), store)
  }

  /** A reload shows the high score the page showed: when the shown value is
      the stored one, it still is after `checkGameOver`, and no other entry of
      local storage changes. */
  lemma HighScoreSurvivesReload(s: State, store: Store)
    requires s.highScore == GetHighScore(store, HighScoreKey)
    ensures var (r, store') := CheckGameOver(s, store);
            && Initial(store').highScore == r.highScore
            && forall k :: k != HighScoreKey ==> GetHighScore(store', k) == GetHighScore(store, k)
  {
  }

  function NextRound(s: State): (r: State)
    ensures r == s.(m := RpsRules.NextRound(s.m))
  {
    s.(m := RpsRules.NextRound(s.m))
  }

  function ResetGame(s: State): (r: State)
    ensures r == s.(m := Reset(s.m))
  {
    s.(m := Reset(s.m))
  }

  /** The rounds select: `totalRounds`, then `resetGame`. */
  function SetTotalRounds(s: State, n: int): (r: State)
    ensures r.m == Reset(s.m).(totalRounds := n) && r.highScore == s.highScore
  {
    s.(m := RpsRules.SetTotalRounds(s.m, n))
  }

  function SetDifficulty(s: State, level: Difficulty): (r: State)
    ensures r == s.(difficulty := level)
  {
    s.(difficulty := level)
  }

  lemma OperationsKeepValid(s: State, store: Store, choice: Choice, d: Draws, n: int, level: Difficulty)
    requires Valid(s)
    ensures Valid(PlayerChoice(s, choice, d)) && Valid(CheckGameOver(s, store).0) && Valid(NextRound(s))
    ensures Valid(ResetGame(s)) && Valid(SetTotalRounds(s, n)) && Valid(SetDifficulty(s, level))
  {
    RpsRules.OperationsKeepValid(s.m, choice, ComputerChoice(s.difficulty, d), n);
  }

  /** A stalled match takes no further choice, round or verdict: only a reset
      (the Reset button or the rounds select) brings the buttons back. */
  lemma StalledMatchWaitsForAReset(s: State, store: Store, choice: Choice, d: Draws)
    requires Valid(s) && s.m.stalled
    ensures PlayerChoice(s, choice, d) == s && NextRound(s) == s && CheckGameOver(s, store) == (s, store)
    ensures ResetGame(s).m.choosing && !ResetGame(s).m.stalled
  {
  }

  /** A match of `n` rounds: after `n - 1` completed rounds of choose-then-next
      and one more choice, the match is on round `n` and takes no further
      choice. `checkGameOver` stops it, with the high score at least the
      player's winning total, unless that last round stalled. */
  lemma MatchEndsAfterItsRounds(s: State, store: Store, n: int, moves: seq<(Choice, Choice)>, choice: Choice, d: Draws, more: Choice, d2: Draws)
    requires n >= 1 && |moves| == n - 1
    ensures var start := SetTotalRounds(s, n);
            var last := PlayerChoice(start.(m := PlayRounds(start.m, moves)), choice, d);
            var over := CheckGameOver(last, store).0;
            && over.m.round == n
            && (!over.m.active <==> ComputerChoice(s.difficulty, d).Some?)
            && PlayerChoice(over, more, d2) == over
            && (!over.m.active && over.m.player > over.m.computer ==> over.highScore >= over.m.player)
  {
    MatchReachesItsLastRound(n, moves, choice, ComputerChoice(s.difficulty, d));
  }
}

=== FILE: rps_rules.dfy ===
/** Rock-Paper-Scissors as both copies play it (games/rock-paper-scissors/script.js
    and `RPSGame` of assets/js/game-loader.js): the `rules` table, `determineWinner`,
    and the round bookkeeping of a match of `totalRounds` rounds. */
module RpsRules {
  import opened Wrappers

  datatype Choice = Rock | Paper | Scissors

  /** The `choices` array, in its order. */
  const Choices: seq<Choice> := [Rock, Paper, Scissors]

  /** `rules[c]`: the choice that `c` beats. */
  function Beaten(c: Choice): (r: Choice)
    ensures r != c
  {
    match c
    case Rock => Scissors
    case Paper => Rock
    case Scissors => Paper
  }

  /** The choice that beats `c`, which the table names only implicitly. */
  function Counter(c: Choice): (r: Choice)
    ensures Beaten(r) == c && r != c && r != Beaten(c)
  {
    Beaten(Beaten(c))
  }

  datatype Outcome = Win | Lose | Draw

  /** `determineWinner`'s verdict for the player: equal choices draw, the table
      decides a win, and anything else loses. */
  function Judge(player: Choice, computer: Choice): (r: Outcome)
    ensures r == Draw <==> player == computer
    ensures r == Win <==> Beaten(player) == computer
    ensures r == Lose <==> Beaten(computer) == player
  {
    if player == computer then Draw
    else if Beaten(player) == computer then Win
    else Lose
  }

  /** `choices.filter(c => c !== x)` for a fixed `x`: the other two choices, in
      their order. */
  function Others(x: Choice): (r: seq<Choice>)
    ensures |r| == 2 && x !in r
    ensures forall c :: c != x ==> c in r
  {
    var r := match x
      case Rock => [Paper, Scissors]
      case Paper => [Rock, Scissors]
      case Scissors => [Rock, Paper];
    assert forall c :: c != x ==> c in r by {
      forall c | c != x
        ensures c in r
      {
        assert r[0] == c || r[1] == c;
      }
    }
    r
  }

  /** `determineWinner` against a computer choice that may be `undefined`
      (`None`): `undefined` equals no choice and is no entry of the table, so
      the player loses. */
  function Verdict(player: Choice, computer: Option<Choice>): (r: Outcome)
    ensures computer.Some? ==> r == Judge(player, computer.value)
    ensures computer.None? ==> r == Lose
  {
    match computer
    case None => Lose
    case Some(c) => Judge(player, c)
  }

  /** The table is a cycle: every choice beats exactly one other and loses to
      exactly one, and swapping the two sides swaps win and loss. */
  lemma RulesAreACycle(a: Choice, b: Choice)
    ensures Beaten(Beaten(Beaten(a))) == a
    ensures Judge(a, b) == Win <==> Judge(b, a) == Lose
    ensures Judge(a, b) == Draw <==> Judge(b, a) == Draw
    ensures b != a ==> (b == Beaten(a) <==> b != Counter(a))
  {
  }

  // ---------------------------------------------------------------------------
  // A match

  /** The match fields both classes share. `choosing` stands for the choice
      buttons being enabled: they are disabled by a choice and enabled again by
      `nextRound` and `resetGame`. `stalled` records a round whose
      `determineWinner` threw before its end: against an `undefined` computer
      choice the losing message calls `capitalize(undefined)`, so the Next Round
      button is never re-enabled and `checkGameOver` is never scheduled. The
      Next Round button is enabled exactly when neither flag is set. */
  datatype Match = Match(
    player: nat,
    computer: nat,
    round: int,
    totalRounds: int,
    active: bool,
    choosing: bool,
    stalled: bool)

  /** Scores never outrun the rounds played: one point at most per finished
      round. A match is stopped only once its last round is reached. */
  predicate Valid(m: Match)
  {
    && 1 <= m.round
    && (m.round <= m.totalRounds || m.round == 1)
    && m.player + m.computer <= m.round - (if m.choosing then 1 else 0)
    && (!m.active ==> m.round >= m.totalRounds)
    && (m.stalled ==> !m.choosing && m.active)
  }

  /** `resetGame`, keeping the number of rounds. */
  function Reset(m: Match): (r: Match)
    ensures Valid(r) && r.player == 0 && r.computer == 0 && r.round == 1
    ensures r.active && r.choosing && !r.stalled && r.totalRounds == m.totalRounds
  {
    Match(0, 0, 1, m.totalRounds, true, true, false)
  }

  /** The constructor's match: five rounds. */
  function Fresh(): (r: Match)
    ensures Valid(r) && r.totalRounds == 5 && r.round == 1 && r.active
  {
    Reset(Match(0, 0, 1, 5, true, true, false))
  }

  /** `playerChoice` followed by `determineWinner` with the computer's choice:
      ignored once the match is over or while the buttons are disabled;
      otherwise the winner of the round gets a point and the buttons are
      disabled. An `undefined` computer choice costs the player the round and
      stalls the match. */
  function Play(m: Match, player: Choice, computer: Option<Choice>): (r: Match)
    ensures !m.active || !m.choosing ==> r == m
    ensures m.active && m.choosing ==>
              && !r.choosing && r.active && r.round == m.round && r.totalRounds == m.totalRounds
              && r.player == m.player + (if Verdict(player, computer) == Win then 1 else 0)
              && r.computer == m.computer + (if Verdict(player, computer) == Lose then 1 else 0)
              && (r.stalled <==> computer.None?)
  {
    if !m.active || !m.choosing then m
    else
      match Verdict(player, computer)
      case Win => m.(player := m.player + 1, choosing := false, stalled := false)
      case Lose => m.(computer := m.computer + 1, choosing := false, stalled := computer.None?)
      case Draw => m.(choosing := false, stalled := false)
  }

  /** `nextRound` from the Next Round button: nothing while the button is
      disabled or on the last round; otherwise the round counter moves on and
      the choice buttons come back. */
  function NextRound(m: Match): (r: Match)
    ensures m.choosing || m.stalled || m.round >= m.totalRounds ==> r == m
    ensures !m.choosing && !m.stalled && m.round < m.totalRounds ==>
              r == m.(round := m.round + 1, choosing := true)
  {
    if m.choosing || m.stalled || m.round >= m.totalRounds then m
    else m.(round := m.round + 1, choosing := true)
  }

  /** The test `checkGameOver` opens with. */
  predicate LastRoundReached(m: Match)
  {
    m.round >= m.totalRounds
  }

  /** The verdict `checkGameOver` announces once the last round is reached:
      strictly more points wins the match for either side, equal points tie. */
  function MatchResult(m: Match): (r: Outcome)
    ensures r == Win <==> m.player > m.computer
    ensures r == Lose <==> m.computer > m.player
    ensures r == Draw <==> m.player == m.computer
  {
    if m.player > m.computer then Win
    else if m.computer > m.player then Lose
    else Draw
  }

  /** The rounds select: a new count, then `resetGame`. */
  function SetTotalRounds(m: Match, n: int): (r: Match)
    ensures r == Reset(m.(totalRounds := n))
  {
    Reset(m.(totalRounds := n))
  }

  lemma OperationsKeepValid(m: Match, player: Choice, computer: Option<Choice>, n: int)
    requires Valid(m)
    ensures Valid(Play(m, player, computer)) && Valid(NextRound(m)) && Valid(SetTotalRounds(m, n))
  {
  }

  /** In a valid match the round counter never passes the number of rounds
      chosen, and after the last round's choice no further round starts. */
  lemma RoundNeverPassesTotal(m: Match)
    requires Valid(m) && m.totalRounds >= 1
    ensures m.round <= m.totalRounds
    ensures NextRound(m).round <= m.totalRounds
    ensures LastRoundReached(m) ==> NextRound(m) == m
  {
  }

  /** A whole match, played to the end, has exactly `totalRounds` choices: from a
      reset, `k` completed rounds of choose-then-next leave the match at round
      `k + 1`, and the last round is reached after `totalRounds - 1` of them.
      Each move is the two sides' choices of one completed round. */
  function PlayRounds(m: Match, moves: seq<(Choice, Choice)>): (r: Match)
    decreases |moves|
  {
    if moves == [] then m
    else PlayRounds(NextRound(Play(m, moves[0].0, Some(moves[0].1))), moves[1..])
  }

  lemma {:induction false} RoundsAdvanceOnePerPlay(m: Match, moves: seq<(Choice, Choice)>)
    requires Valid(m) && m.active && m.choosing && !m.stalled
    requires m.round + |moves| <= m.totalRounds
    ensures var r := PlayRounds(m, moves);
            r.round == m.round + |moves| && r.totalRounds == m.totalRounds && r.choosing && r.active && !r.stalled && Valid(r)
            && r.player + r.computer <= |moves| + m.player + m.computer
    decreases |moves|
  {
    if moves != [] {
      var next := NextRound(Play(m, moves[0].0, Some(moves[0].1)));
      assert next.round == m.round + 1 && next.choosing && next.active && !next.stalled;
      RoundsAdvanceOnePerPlay(next, moves[1..]);
    }
  }

  /** After `totalRounds - 1` rounds of choose-then-next from a reset, the next
      choice lands on the last round: `checkGameOver` will end the match there,
      unless that round stalled. */
  lemma MatchReachesItsLastRound(total: int, moves: seq<(Choice, Choice)>, player: Choice, computer: Option<Choice>)
    requires total >= 1 && |moves| == total - 1
    ensures var last := Play(PlayRounds(Reset(Match(0, 0, 1, total, true, true, false)), moves), player, computer);
            last.round == total && LastRoundReached(last) && !last.choosing && last.active
            && last.player + last.computer <= total && (last.stalled <==> computer.None?)
  {
    var m := Reset(Match(0, 0, 1, total, true, true, false));
    RoundsAdvanceOnePerPlay(m, moves);
    var before := PlayRounds(m, moves);
    assert before.round == total && before.active && before.choosing;
    assert before.player + before.computer <= total - 1;
  }
}

=== FILE: seq_extremes.dfy ===
/** Best-score selection over a list of scores, as the minimax code does it:
    `Math.max`/`Math.min` folds, and the "first strictly better" scan that picks a
    move (`if (score > bestScore) { bestScore = score; bestMove = ... }`). */
module SeqExtremes {

  /** `Math.max` over a non-empty list. */
  function MaxOf(xs: seq<int>): (r: int)
    requires |xs| > 0
    ensures r in xs
    ensures forall i :: 0 <= i < |xs| ==> xs[i] <= r
  {
    if |xs| == 1 then xs[0]
    else
      var rest := MaxOf(xs[1..]);
      if xs[0] >= rest then xs[0] else rest
  }

  /** `Math.min` over a non-empty list. */
  function MinOf(xs: seq<int>): (r: int)
    requires |xs| > 0
    ensures r in xs
    ensures forall i :: 0 <= i < |xs| ==> r <= xs[i]
  {
    if |xs| == 1 then xs[0]
    else
      var rest := MinOf(xs[1..]);
      if xs[0] <= rest then xs[0] else rest
  }

  /** The left-to-right scan that keeps the first strictly greater score; `k` is
      the best index among `xs[..i]`. */
  function ScanMax(xs: seq<int>, i: nat, k: nat): (r: nat)
    requires k < i <= |xs|
    requires forall j :: 0 <= j < i ==> xs[j] <= xs[k]
    requires forall j :: 0 <= j < k ==> xs[j] < xs[k]
    ensures r < |xs|
    ensures forall j :: 0 <= j < |xs| ==> xs[j] <= xs[r]
    ensures forall j :: 0 <= j < r ==> xs[j] < xs[r]
    decreases |xs| - i
  {
    if i == |xs| then k
    else if xs[i] > xs[k] then ScanMax(xs, i + 1, i)
    else ScanMax(xs, i + 1, k)
  }

  /** Index of the first maximal score. The first element always beats the
      initial `-Infinity`, so the scan starts with it. */
  function FirstMax(xs: seq<int>): (r: nat)
    requires |xs| > 0
    ensures r < |xs|
    ensures forall j :: 0 <= j < |xs| ==> xs[j] <= xs[r]
    ensures forall j :: 0 <= j < r ==> xs[j] < xs[r]
  {
    ScanMax(xs, 1, 0)
  }

  /** The mirror scan: keeps the first strictly smaller score. */
  function ScanMin(xs: seq<int>, i: nat, k: nat): (r: nat)
    requires k < i <= |xs|
    requires forall j :: 0 <= j < i ==> xs[k] <= xs[j]
    requires forall j :: 0 <= j < k ==> xs[k] < xs[j]
    ensures r < |xs|
    ensures forall j :: 0 <= j < |xs| ==> xs[r] <= xs[j]
    ensures forall j :: 0 <= j < r ==> xs[r] < xs[j]
    decreases |xs| - i
  {
    if i == |xs| then k
    else if xs[i] < xs[k] then ScanMin(xs, i + 1, i)
    else ScanMin(xs, i + 1, k)
  }

  /** Index of the first minimal score. */
  function FirstMin(xs: seq<int>): (r: nat)
    requires |xs| > 0
    ensures r < |xs|
    ensures forall j :: 0 <= j < |xs| ==> xs[r] <= xs[j]
    ensures forall j :: 0 <= j < r ==> xs[r] < xs[j]
  {
    ScanMin(xs, 1, 0)
  }

  /** Only one index is both maximal and earlier than every other maximal index. */
  lemma FirstMaxUnique(xs: seq<int>, k: nat)
    requires k < |xs|
    requires forall j :: 0 <= j < |xs| ==> xs[j] <= xs[k]
    requires forall j :: 0 <= j < k ==> xs[j] < xs[k]
    ensures k == FirstMax(xs)
  {
  }

  lemma FirstMinUnique(xs: seq<int>, k: nat)
    requires k < |xs|
    requires forall j :: 0 <= j < |xs| ==> xs[k] <= xs[j]
    requires forall j :: 0 <= j < k ==> xs[k] < xs[j]
    ensures k == FirstMin(xs)
  {
  }

}

=== FILE: snake.dfy ===
/** games/snake/script.js: the stand-alone `SnakeGame`. The grid is `tiles`
    cells square (the canvas width over a 20-pixel cell), the snake starts at
    (10, 10), and the high score is the `snakeHighScore` entry of local storage. */
module Snake {
  import opened Wrappers
  import opened HighScores
  import opened SnakeCore

  /** The local-storage entry of the high score. `setItem` stores the score's
      decimal text and `getItem(...) || 0` reads it back as that number (or 0
      when absent), so local storage is modelled as a map from keys to those
      numbers, read like the hub's table. */
  const HighScoreKey: string := "snakeHighScore"

  datatype State = State(
    snake: seq<Cell>,
    food: Cell,
    dx: int,
    dy: int,
    score: int,
    highScore: int,
    snakeLength: int,
    speed: int,
    running: bool,
    tiles: nat)

  const Start: Cell := Cell(10, 10)

  /** Play is well formed: the start cell fits the grid, the snake and food are
      well formed, `snakeLength` is the snake's length, every cell beyond the
      first was bought with 10 points, and the high score covers the score. */
  predicate Valid(s: State)
  {
    && InGrid(Start, s.tiles)
    && SnakeOk(s.snake, s.food, s.tiles)
    && s.snakeLength == |s.snake|
    && s.score == 10 * (|s.snake| - 1)
    && s.highScore >= s.score
  }

  /** The constructor and `init`: a one-cell snake at rest, speed 5, food placed,
      the stored high score read back. The canvas must hold the start cell. */
  function Initial(tiles: nat, store: Store, pick: nat): (s: State)
    requires InGrid(Start, tiles)
    ensures s.snake == [Start] && s.dx == 0 && s.dy == 0 && !s.running
    ensures s.score == 0 && s.snakeLength == 1 && s.speed == 5
    ensures s.highScore == GetHighScore(store, HighScoreKey)
    ensures GetHighScore(store, HighScoreKey) >= 0 ==> Valid(s)
  {
    State([Start], StartFood(Start, tiles, pick), 0, 0, 0, GetHighScore(store, HighScoreKey), 1, 5, false, tiles)
  }

  /** `startGame`: ignored while running; otherwise play starts heading right. */
  function StartGame(s: State): (r: State)
    ensures s.running ==> r == s
    ensures !s.running ==> r == s.(running := true, dx := 1, dy := 0)
  {
    if s.running then s else s.(running := true, dx := 1, dy := 0)
  }

  /** `changeDirection`, also wired straight to the four on-screen buttons: no
      reversal filter, and nothing happens while stopped. */
  function ChangeDirection(s: State, x: int, y: int): (r: State)
    ensures !s.running ==> r == s
    ensures s.running ==> r == s.(dx := x, dy := y)
  {
    if !s.running then s else s.(dx := x, dy := y)
  }

  /** `handleKeyDown`: while stopped only Space matters, and it starts the game;
      while running the arrows (and WASD) steer through the reversal filter. */
  function HandleKeyDown(s: State, k: Key): (r: State)
    ensures !s.running && k == Space ==> r == StartGame(s)
    ensures !s.running && k != Space ==> r == s
    ensures s.running ==> r == s.(dx := Steer(s.dx, s.dy, k).0, dy := Steer(s.dx, s.dy, k).1)
  {
    if !s.running then (if k == Space then StartGame(s) else s)
    else
      var (x, y) := Steer(s.dx, s.dy, k);
      ChangeDirection(s, x, y)
  }

  /** The speed slider's handler; the loop restarts with `Interval(speed)`. */
  function SetSpeed(s: State, speed: int): (r: State)
    ensures r == s.(speed := speed)
  {
    s.(speed := speed)
  }

  /** `update`: one tick. A collision stops play and leaves the snake where it
      was; eating grows the snake by one, adds 10 points and, when the high
      score is beaten, raises it and writes it to the `snakeHighScore` entry;
      otherwise the snake slides on. When no cell is left for new food the
      source's loop never ends; the model leaves the state as it was. */
  function Update(s: State, store: Store, pick: nat): (r: (State, Store))
    requires |s.snake| > 0
    ensures !s.running ==> r == (s, store)
    ensures r.0.running ==> s.running
    ensures s.running && !r.0.running <==>
              s.running && (var h := Head(s.snake, s.dx, s.dy); !InGrid(h, s.tiles) || h in s.snake)
    ensures |r.0.snake| == |s.snake| + 1 <==> r.0.score == s.score + 10
    ensures r.0.score != s.score ==> r.0.score == s.score + 10 && r.0.snake[1..] == s.snake
    ensures r.0.score == s.score ==> r.0.highScore == s.highScore
    ensures r.0.score != s.score ==> r.0.highScore == (if r.0.score > s.highScore then r.0.score else s.highScore)
    ensures r.0.highScore != s.highScore ==> r.1 == store[HighScoreKey := r.0.highScore]
    ensures r.0.highScore == s.highScore ==> r.1 == store
    ensures r.0.snakeLength - s.snakeLength == |r.0.snake| - |s.snake|
    ensures r.0.speed == s.speed && r.0.tiles == s.tiles
    ensures s.running && !r.0.running ==> r.0.snake == s.snake && r.0.score == s.score
    ensures r.0.score != s.score ==> r.0.snake[0] == Head(s.snake, s.dx, s.dy)
    ensures var h := Head(s.snake, s.dx, s.dy);
            s.running && InGrid(h, s.tiles) && h !in s.snake && h != s.food ==>
              r.0.snake == [h] + s.snake[..|s.snake| - 1] && r.0.score == s.score && r.0.food == s.food
    ensures var h := Head(s.snake, s.dx, s.dy);
            s.running && InGrid(h, s.tiles) && h !in s.snake && h == s.food ==>
              || (r.0.snake == [h] + s.snake && r.0.score == s.score + 10)
              || (r == (s, store) && forall c :: InGrid(c, s.tiles) ==> c in [h] + s.snake)
    ensures r.0.dx == s.dx && r.0.dy == s.dy
  {
    if !s.running then (s, store)
    else
      match Advance(s.snake, s.dx, s.dy, s.food, s.tiles, pick)
      case HitWall => (s.(running := false), store)
      case HitSelf => (s.(running := false), store)
      case NoRoom => (s, store)
      case Slid(body) => (s.(snake := body), store)
      case Ate(body, food) =>
        var score := s.score + 10;
        var t := s.(snake := body, food := food, score := score, snakeLength := s.snakeLength + 1);
        if score > s.highScore then (t.(highScore := score), store[HighScoreKey := score])
        else (t, store)
  }

  /** A reload shows the high score the page showed: when the shown value is
      the stored one, it still is after a tick, and no other entry of local
      storage changes. */
  lemma HighScoreSurvivesReload(s: State, store: Store, pick: nat, pick2: nat)
    requires |s.snake| > 0 && InGrid(Start, s.tiles)
    requires s.highScore == GetHighScore(store, HighScoreKey)
    ensures var (r, store') := Update(s, store, pick);
            && Initial(s.tiles, store', pick2).highScore == r.highScore
            && forall k :: k != HighScoreKey ==> GetHighScore(store', k) == GetHighScore(store, k)
  {
  }

  /** `resetGame`: back to a one-cell snake at rest with new food; the high
      score and speed survive. */
  function ResetGame(s: State, pick: nat): (r: State)
    requires InGrid(Start, s.tiles)
    ensures r.snake == [Start] && r.dx == 0 && r.dy == 0 && !r.running
    ensures r.score == 0 && r.snakeLength == 1
    ensures r.highScore == s.highScore && r.speed == s.speed && r.tiles == s.tiles
  {
    s.(snake := [Start], food := StartFood(Start, s.tiles, pick), dx := 0, dy := 0, score := 0, snakeLength := 1, running := false)
  }

  /** A tick keeps play well formed. */
  lemma UpdateKeepsValid(s: State, store: Store, pick: nat)
    requires Valid(s)
    ensures Valid(Update(s, store, pick).0)
  {
    AdvanceKeepsSnakeOk(s.snake, s.dx, s.dy, s.food, s.tiles, pick);
  }

  /** So do the other operations. */
  lemma OperationsKeepValid(s: State, pick: nat, k: Key, x: int, y: int, speed: int)
    requires Valid(s)
    ensures Valid(ResetGame(s, pick))
    ensures Valid(StartGame(s)) && Valid(HandleKeyDown(s, k)) && Valid(ChangeDirection(s, x, y))
    ensures Valid(SetSpeed(s, speed))
  {
    var r := ResetGame(s, pick);
    assert r.snake == [Start] && Distinct(r.snake);
    forall c | c in [HandleKeyDown(s, k), StartGame(s), ChangeDirection(s, x, y), SetSpeed(s, speed)]
      ensures Valid(c)
    {
      assert c.snake == s.snake && c.food == s.food && c.tiles == s.tiles;
      assert c.score == s.score && c.highScore == s.highScore && c.snakeLength == s.snakeLength;
    }
  }

  /** The high score never drops, whatever happens. */
  lemma HighScoreNeverDrops(s: State, store: Store, pick: nat, k: Key)
    requires |s.snake| > 0 && InGrid(Start, s.tiles)
    ensures Update(s, store, pick).0.highScore >= s.highScore
    ensures ResetGame(s, pick).highScore == s.highScore
    ensures HandleKeyDown(s, k).highScore == s.highScore
  {
  }

  /** A game that hit the wall restarts without a reset from where it stopped,
      heading right again: a snake that died on the right-hand wall dies again on
      the next tick. */
  lemma RestartWithoutResetFacesTheSameWall(s: State, store: Store, pick: nat)
    requires Valid(s) && !s.running && s.snake[0].x == s.tiles - 1
    ensures !Update(StartGame(s), store, pick).0.running
  {
  }
}

=== FILE: snake_core.dfy ===
/** The Snake rules shared by games/snake/script.js and the `SnakeGame` class of
    assets/js/game-loader.js: a square grid of `tiles` x `tiles` cells, a snake
    listed head first, one piece of food, the arrow-key filter and the tick
    interval. */
module SnakeCore {
  import opened Wrappers
  import opened RandomPick

  datatype Cell = Cell(x: int, y: int)

  /** The wall test of `update`: both coordinates are checked against the same
      tile count. */
  predicate InGrid(c: Cell, tiles: int)
  {
    0 <= c.x < tiles && 0 <= c.y < tiles
  }

  predicate Distinct(s: seq<Cell>)
  {
    forall i, j :: 0 <= i < j < |s| ==> s[i] != s[j]
  }

  /** The snake is a non-empty chain of distinct cells inside the grid, and the
      food lies inside the grid but off the snake. */
  predicate SnakeOk(snake: seq<Cell>, food: Cell, tiles: int)
  {
    && |snake| > 0
    && (forall i :: 0 <= i < |snake| ==> InGrid(snake[i], tiles))
    && Distinct(snake)
    && InGrid(food, tiles)
    && food !in snake
  }

  // ---------------------------------------------------------------------------
  // The grid as a list of cells, row by row

  /** Cells (0, y) .. (n - 1, y). */
  function Row(y: int, n: nat): (r: seq<Cell>)
    ensures |r| == n
    ensures forall c {:trigger c in r} :: c in r <==> c.y == y && 0 <= c.x < n
  {
    if n == 0 then [] else Row(y, n - 1) + [Cell(n - 1, y)]
  }

  /** Rows 0 .. n - 1 of a grid `tiles` cells wide. */
  function Rows(tiles: nat, n: nat): (r: seq<Cell>)
    ensures |r| == n * tiles
    ensures forall c {:trigger c in r} :: c in r <==> 0 <= c.x < tiles && 0 <= c.y < n
  {
    if n == 0 then []
    else
      var prev := Rows(tiles, n - 1);
      var row := Row(n - 1, tiles);
      assert |prev + row| == (n - 1) * tiles + tiles == n * tiles;
      prev + row
  }

  /** Every cell of the grid once, row by row. */
  function GridCells(tiles: nat): (r: seq<Cell>)
    ensures |r| == tiles * tiles
    ensures forall c {:trigger c in r} :: c in r <==> InGrid(c, tiles)
  {
    Rows(tiles, tiles)
  }

  lemma {:induction false} RowDistinct(y: int, n: nat)
    ensures Distinct(Row(y, n))
  {
    if n > 0 {
      RowDistinct(y, n - 1);
      DistinctAppend(Row(y, n - 1), Cell(n - 1, y));
    }
  }

  lemma {:induction false} RowsDistinct(tiles: nat, n: nat)
    ensures Distinct(Rows(tiles, n))
  {
    if n > 0 {
      RowsDistinct(tiles, n - 1);
      RowDistinct(n - 1, tiles);
      DistinctConcat(Rows(tiles, n - 1), Row(n - 1, tiles));
    }
  }

  /** No cell of the grid is listed twice. */
  lemma GridCellsDistinct(tiles: nat)
    ensures Distinct(GridCells(tiles))
  {
    RowsDistinct(tiles, tiles);
  }

  lemma DistinctAppend(s: seq<Cell>, c: Cell)
    requires Distinct(s) && c !in s
    ensures Distinct(s + [c])
  {
    forall i, j | 0 <= i < j < |s| + 1
      ensures (s + [c])[i] != (s + [c])[j]
    {
      if j == |s| {
        assert (s + [c])[i] == s[i];
      }
    }
  }

  lemma DistinctConcat(a: seq<Cell>, b: seq<Cell>)
    requires Distinct(a) && Distinct(b)
    requires forall c :: c in a ==> c !in b
    ensures Distinct(a + b)
  {
    forall i, j | 0 <= i < j < |a| + |b|
      ensures (a + b)[i] != (a + b)[j]
    {
      if j < |a| {
        assert (a + b)[i] == a[i] && (a + b)[j] == a[j];
      } else if i < |a| {
        assert (a + b)[i] == a[i] && (a + b)[j] == b[j - |a|];
        assert b[j - |a|] in b;
      } else {
        assert (a + b)[i] == b[i - |a|] && (a + b)[j] == b[j - |a|];
      }
    }
  }

  // ---------------------------------------------------------------------------
  // Counting cells

  function Elems(s: seq<Cell>): set<Cell>
  {
    set c | c in s
  }

  /** A list of distinct cells has as many elements as its set. */
  lemma {:induction false} DistinctCount(s: seq<Cell>)
    requires Distinct(s)
    ensures |Elems(s)| == |s|
  {
    if s != [] {
      var init := s[..|s| - 1];
      var last := s[|s| - 1];
      assert s == init + [last];
      assert Distinct(init);
      forall i | 0 <= i < |init|
        ensures init[i] != last
      {
        assert init[i] == s[i];
      }
      DistinctCount(init);
      assert Elems(s) == Elems(init) + {last};
    }
  }

  /** A subset as large as its superset is all of it. */
  lemma SubsetOfSameSize(a: set<Cell>, b: set<Cell>)
    requires a <= b && |a| == |b|
    ensures a == b
  {
    assert |b - a| == |b| - |a|;
  }

  // ---------------------------------------------------------------------------
  // Food

  /** The cells of the grid not covered by the snake, row by row. */
  function FreeCells(snake: seq<Cell>, tiles: nat): (r: seq<Cell>)
    ensures forall c {:trigger c in r} :: c in r <==> InGrid(c, tiles) && c !in snake
  {
    Without(GridCells(tiles), snake)
  }

  function Without(cells: seq<Cell>, snake: seq<Cell>): (r: seq<Cell>)
    ensures forall c {:trigger c in r} :: c in r <==> c in cells && c !in snake
  {
    if cells == [] then []
    else (if cells[0] in snake then [] else [cells[0]]) + Without(cells[1..], snake)
  }

  /** `generateFood`: the source draws a random grid cell and redraws while it
      lies on the snake, which settles on each free cell with equal chance; the
      model draws from the free cells directly. With no free cell the source's
      loop never ends, and the model answers None. */
  function PlaceFood(snake: seq<Cell>, tiles: nat, pick: nat): (r: Option<Cell>)
    ensures r.Some? ==> InGrid(r.value, tiles) && r.value !in snake
    ensures r.None? <==> forall c :: InGrid(c, tiles) ==> c in snake
  {
    var free := FreeCells(snake, tiles);
    if |free| == 0 then
      assert forall c :: InGrid(c, tiles) ==> c in snake by {
        forall c | InGrid(c, tiles) ensures c in snake {
          assert c !in free;
        }
      }
      None
    else
      assert free[0] in free;
      Some(Pick(free, pick))
  }

  /** The food placed beside a one-cell snake by `resetGame`. */
  function StartFood(start: Cell, tiles: nat, pick: nat): (r: Cell)
    requires InGrid(start, tiles) && tiles >= 2
    ensures InGrid(r, tiles) && r != start
  {
    var other := if start == Cell(0, 0) then Cell(0, 1) else Cell(0, 0);
    assert other !in [start] && InGrid(other, tiles);
    PlaceFood([start], tiles, pick).value
  }

  /** Any free cell can receive the food. */
  lemma FoodReachesEveryFreeCell(snake: seq<Cell>, tiles: nat, c: Cell)
    requires InGrid(c, tiles) && c !in snake
    ensures exists pick: nat :: PlaceFood(snake, tiles, pick) == Some(c)
  {
    PickReachesAll(FreeCells(snake, tiles), c);
    var k: nat :| k < |FreeCells(snake, tiles)| && Pick(FreeCells(snake, tiles), k) == c;
    assert PlaceFood(snake, tiles, k) == Some(c);
  }

  /** A snake of distinct cells inside the grid leaves no room for food exactly
      when it covers all `tiles * tiles` cells. */
  lemma NoRoomIffFull(snake: seq<Cell>, tiles: nat)
    requires forall i :: 0 <= i < |snake| ==> InGrid(snake[i], tiles)
    requires Distinct(snake)
    ensures PlaceFood(snake, tiles, 0).None? <==> |snake| == tiles * tiles
  {
    var grid := Elems(GridCells(tiles));
    var body := Elems(snake);
    GridCellsDistinct(tiles);
    DistinctCount(GridCells(tiles));
    DistinctCount(snake);
    assert body <= grid;
    if PlaceFood(snake, tiles, 0).None? {
      assert grid <= body;
      assert body == grid;
    }
    if |snake| == tiles * tiles {
      SubsetOfSameSize(body, grid);
      forall c | InGrid(c, tiles)
        ensures c in snake
      {
        assert c in grid;
      }
    }
  }

  // ---------------------------------------------------------------------------
  // One tick

  /** What one tick of `update` / `gameUpdate` does to the snake. */
  datatype Move =
    | HitWall
    | HitSelf
    | Slid(body: seq<Cell>)
    | Ate(body: seq<Cell>, food: Cell)
    | NoRoom

  function Head(snake: seq<Cell>, dx: int, dy: int): Cell
    requires |snake| > 0
  {
    Cell(snake[0].x + dx, snake[0].y + dy)
  }

  /** The new head is checked against the wall, then against every segment (the
      tail included, though it is about to move on), then against the food:
      eating keeps the tail and places new food, otherwise the tail is dropped. */
  function Advance(snake: seq<Cell>, dx: int, dy: int, food: Cell, tiles: nat, pick: nat): (r: Move)
    requires |snake| > 0
    ensures r == HitWall <==> !InGrid(Head(snake, dx, dy), tiles)
    ensures r == HitSelf <==> InGrid(Head(snake, dx, dy), tiles) && Head(snake, dx, dy) in snake
    ensures r.Slid? ==> Head(snake, dx, dy) != food && r.body == [Head(snake, dx, dy)] + snake[..|snake| - 1]
    ensures r.Ate? ==> Head(snake, dx, dy) == food && r.body == [Head(snake, dx, dy)] + snake
    ensures r.Ate? ==> InGrid(r.food, tiles) && r.food !in r.body
    ensures r.NoRoom? ==> Head(snake, dx, dy) == food && PlaceFood([Head(snake, dx, dy)] + snake, tiles, 0).None?
  {
    var head := Head(snake, dx, dy);
    if !InGrid(head, tiles) then HitWall
    else if head in snake then HitSelf
    else if head == food then
      match PlaceFood([head] + snake, tiles, pick)
      case None => NoRoom
      case Some(f) => Ate([head] + snake, f)
    else Slid([head] + snake[..|snake| - 1])
  }

  /** Eating stalls only when the grown snake fills the whole grid. */
  lemma NoRoomOnlyOnAFullGrid(snake: seq<Cell>, dx: int, dy: int, food: Cell, tiles: nat, pick: nat)
    requires SnakeOk(snake, food, tiles)
    ensures Advance(snake, dx, dy, food, tiles, pick).NoRoom? <==>
              Head(snake, dx, dy) == food && |snake| + 1 == tiles * tiles
  {
    var head := Head(snake, dx, dy);
    if head == food {
      GrownIsDistinct(snake, head);
      NoRoomIffFull([head] + snake, tiles);
    }
  }

  lemma GrownIsDistinct(snake: seq<Cell>, head: Cell)
    requires Distinct(snake) && head !in snake
    ensures Distinct([head] + snake)
  {
    var grown := [head] + snake;
    forall i, j | 0 <= i < j < |grown|
      ensures grown[i] != grown[j]
    {
      assert grown[j] == snake[j - 1];
      if i > 0 {
        assert grown[i] == snake[i - 1];
      }
    }
  }

  /** A tick keeps a well-formed snake well-formed: the new head is a fresh cell
      inside the grid, and new food lands off the grown snake. */
  lemma AdvanceKeepsSnakeOk(snake: seq<Cell>, dx: int, dy: int, food: Cell, tiles: nat, pick: nat)
    requires SnakeOk(snake, food, tiles)
    ensures var r := Advance(snake, dx, dy, food, tiles, pick);
            && (r.Slid? ==> SnakeOk(r.body, food, tiles) && |r.body| == |snake|)
            && (r.Ate? ==> SnakeOk(r.body, r.food, tiles) && |r.body| == |snake| + 1)
  {
    var head := Head(snake, dx, dy);
    var r := Advance(snake, dx, dy, food, tiles, pick);
    if r.Slid? || r.Ate? {
      var grown := [head] + snake;
      GrownIsDistinct(snake, head);
      if r.Slid? {
        assert r.body == grown[..|grown| - 1];
      }
    }
  }

  /** The tail test is strict: a head moving onto the cell the tail is about to
      leave still counts as a collision. */
  lemma ChasingTheTailEndsTheGame()
    ensures Advance([Cell(1, 1), Cell(2, 1), Cell(2, 2), Cell(1, 2)], 0, 1, Cell(5, 5), 10, 0) == HitSelf
  {
    assert Cell(1, 2) in [Cell(1, 1), Cell(2, 1), Cell(2, 2), Cell(1, 2)];
  }

  // ---------------------------------------------------------------------------
  // Steering

  /** The keys `handleKeyDown` distinguishes; 'w'/'W', 'a'/'A', 's'/'S' and
      'd'/'D' act as the four arrows. */
  datatype Key = Up | Left | Down | Right | Space | OtherKey

  /** The direction filter of `handleKeyDown` for a running game: each arrow is
      refused only when it points straight back along the current direction's
      axis. */
  function Steer(dx: int, dy: int, k: Key): (r: (int, int))
    ensures r == (dx, dy) || r != (-dx, -dy)
    ensures r != (dx, dy) ==> k in {Up, Left, Down, Right}
    ensures k == Up ==> (r == (0, -1) <==> dy != 1)
    ensures k == Left ==> (r == (-1, 0) <==> dx != 1)
    ensures k == Down ==> (r == (0, 1) <==> dy != -1)
    ensures k == Right ==> (r == (1, 0) <==> dx != -1)
    ensures k == Up && dy == 1 ==> r == (dx, dy)
    ensures k == Left && dx == 1 ==> r == (dx, dy)
    ensures k == Down && dy == -1 ==> r == (dx, dy)
    ensures k == Right && dx == -1 ==> r == (dx, dy)
  {
    match k
    case Up => if dy != 1 then (0, -1) else (dx, dy)
    case Left => if dx != 1 then (-1, 0) else (dx, dy)
    case Down => if dy != -1 then (0, 1) else (dx, dy)
    case Right => if dx != -1 then (1, 0) else (dx, dy)
    case _ => (dx, dy)
  }

  /** The filter looks only at the latest direction, not at the last move made:
      two presses between ticks turn a snake heading right straight back onto
      its own neck. */
  lemma TwoPressesReverse()
    ensures var (dx, dy) := Steer(1, 0, Up);
            Steer(dx, dy, Left) == (-1, 0)
    ensures var (dx, dy) := Steer(Steer(1, 0, Up).0, Steer(1, 0, Up).1, Left);
            Advance([Cell(5, 5), Cell(4, 5)], dx, dy, Cell(0, 0), 10, 0) == HitSelf
  {
  }

  /** `startGameLoop`: the tick interval in milliseconds. */
  function Interval(speed: int): (r: int)
    ensures r >= 50 && r >= 200 - 15 * speed
    ensures r == 50 || r == 200 - 15 * speed
  {
    if 200 - speed * 15 > 50 then 200 - speed * 15 else 50
  }

  /** Over the speed slider's range 1..10 the interval is 200 - 15 * speed until
      it meets the 50 ms floor at speed 10, and a faster setting never ticks
      slower. */
  lemma IntervalOverSlider(speed: int, faster: int)
    requires 1 <= speed <= 10 && speed <= faster
    ensures speed < 10 ==> Interval(speed) == 200 - 15 * speed
    ensures 185 >= Interval(speed) >= 50 && Interval(10) == 50
    ensures Interval(faster) <= Interval(speed)
  {
  }
}

=== FILE: text_format.dfy ===
/** The two formatting helpers of `GameHubUtils` (assets/js/utils.js):
    `formatTime`, which writes a number of seconds as zero-padded minutes and
    seconds, and `formatScore`, which puts a comma between every group of three
    digits by a regular-expression replacement. */
module TextFormat {
  import opened Numerals

  predicate IsAsciiDigit(c: char)
  {
    '0' <= c <= '9'
  }

  predicate AllDigits(s: string)
  {
    forall i :: 0 <= i < |s| ==> IsAsciiDigit(s[i])
  }

  /** `n.toString()` for a non-negative integer. */
  function Decimal(n: nat): (r: string)
    ensures |r| >= 1 && AllDigits(r) && DigitsIn(r, 10)
    ensures Parse(r, 10) == n
  {
    var r := Numeral(n, 10);
    ParseNumeral(n, 10);
    r
  }

  /** `s.padStart(width, fill)`: `fill` is put in front until the width is
      reached; a string already that wide is kept. */
  function PadStart(s: string, width: nat, fill: char): (r: string)
    ensures |r| == if |s| >= width then |s| else width
    decreases width - |s|
  {
    if |s| >= width then s else PadStart([fill] + s, width, fill)
  }

  /** Zeros in front change neither the digits nor the value read back. */
  lemma {:induction false} PadKeepsValue(s: string, width: nat)
    requires AllDigits(s) && DigitsIn(s, 10)
    ensures AllDigits(PadStart(s, width, '0')) && DigitsIn(PadStart(s, width, '0'), 10)
    ensures Parse(PadStart(s, width, '0'), 10) == Parse(s, 10)
    decreases width - |s|
  {
    if |s| < width {
      LeadingZero(s, 10);
      var t := ['0'] + s;
      assert AllDigits(t) by {
        forall i | 0 <= i < |t| ensures IsAsciiDigit(t[i]) {
          if i > 0 { assert t[i] == s[i - 1]; }
        }
      }
      PadKeepsValue(t, width);
    }
  }

  // ---------------------------------------------------------------------------
  // formatTime

  /** Digits, a colon, and exactly two more digits. */
  predicate IsTimeText(t: string)
  {
    && |t| >= 4
    && t[|t| - 3] == ':'
    && AllDigits(t[..|t| - 3])
    && AllDigits(t[|t| - 2..])
  }

  /** `formatTime(seconds)` for a whole, non-negative number of seconds: the
      minutes `floor(seconds / 60)` and the remaining seconds. */
  function FormatTime(seconds: nat): (r: string)
    ensures |r| >= 5 && IsTimeText(r)
  {
    TimeText(seconds / 60, seconds % 60)
  }

  /** The template string: both fields padded to two digits, around a colon. */
  function TimeText(mins: nat, secs: nat): (r: string)
    requires secs < 60
    ensures |r| >= 5 && IsTimeText(r)
    ensures r[..|r| - 3] == TwoDigits(mins) && r[|r| - 2..] == TwoDigits(secs)
  {
    var m := TwoDigits(mins);
    var s := TwoDigits(secs);
    TwoWide(secs);
    Fields(m, s);
    m + ":" + s
  }

  /** One field of the time: `n.toString().padStart(2, '0')`. */
  function TwoDigits(n: nat): (r: string)
    ensures |r| >= 2 && AllDigits(r) && DigitsIn(r, 10) && Parse(r, 10) == n
  {
    PadKeepsValue(Decimal(n), 2);
    PadStart(Decimal(n), 2, '0')
  }

  /** A field is exactly two wide when the number has at most two digits. */
  lemma {:induction false} SecondsFieldIsTwoWide(n: nat)
    ensures |TwoDigits(n)| == 2 <==> n < 100
  {
    NumeralLength(n, 10, 2);
    assert Pow(10, 2) == 100;
  }

  lemma {:induction false} TwoWide(n: nat)
    requires n < 100
    ensures |TwoDigits(n)| == 2
  {
    SecondsFieldIsTwoWide(n);
  }

  lemma {:induction false} Fields(mins: string, secs: string)
    requires |secs| == 2
    ensures var r := mins + ":" + secs;
            r[..|r| - 3] == mins && r[|r| - 3] == ':' && r[|r| - 2..] == secs
  {
  }

  /** Reading a "minutes:seconds" text back: the minutes field may be wider than
      two digits, the seconds field is the last two characters. */
  function ReadTime(t: string): (seconds: nat)
    requires IsTimeText(t)
  {
    DigitsAreDecimal(t[..|t| - 3]);
    DigitsAreDecimal(t[|t| - 2..]);
    60 * Parse(t[..|t| - 3], 10) + Parse(t[|t| - 2..], 10)
  }

  lemma {:induction false} DigitsAreDecimal(s: string)
    requires AllDigits(s)
    ensures DigitsIn(s, 10)
  {
    forall i | 0 <= i < |s| ensures IsDigitChar(s[i]) && DigitValue(s[i]) < 10 {
      assert IsAsciiDigit(s[i]);
    }
  }

  /** The text `formatTime` writes is read back as the number of seconds it was
      made from. */
  lemma {:induction false} FormatTimeRoundTrip(seconds: nat)
    ensures ReadTime(FormatTime(seconds)) == seconds
  {
    TimeTextRoundTrip(seconds / 60, seconds % 60);
  }

  lemma {:induction false} TimeTextRoundTrip(mins: nat, secs: nat)
    requires secs < 60
    ensures ReadTime(TimeText(mins, secs)) == 60 * mins + secs
  {
    var t := TimeText(mins, secs);
    assert Parse(t[..|t| - 3], 10) == mins;
    assert Parse(t[|t| - 2..], 10) == secs;
  }

  /** The text is exactly five characters wide ("mm:ss") below 100 minutes;
      from then on the minutes field grows. */
  lemma {:induction false} FormatTimeWidth(seconds: nat)
    ensures |FormatTime(seconds)| == 5 <==> seconds < 6000
  {
    var mins := seconds / 60;
    var secs := seconds % 60;
    TwoWide(secs);
    SecondsFieldIsTwoWide(mins);
    assert |TimeText(mins, secs)| == |TwoDigits(mins)| + 3;
  }

  // ---------------------------------------------------------------------------
  // formatScore

  /** The characters `\w` and `\b` treat as word characters. */
  predicate IsWordChar(c: char)
  {
    IsAsciiDigit(c) || 'a' <= c <= 'z' || 'A' <= c <= 'Z' || c == '_'
  }

  /** From `p` on come exactly `n` digits and then no further digit. */
  predicate RunOf(s: string, p: nat, n: nat)
  {
    && p + n <= |s|
    && (forall j :: p <= j < p + n ==> IsAsciiDigit(s[j]))
    && (p + n == |s| || !IsAsciiDigit(s[p + n]))
  }

  /** `(\d{3})+(?!\d)` with `k` repetitions matches at `p`: exactly `k` groups
      of three digits follow. */
  predicate GroupsFollow(s: string, p: nat, k: nat)
  {
    RunOf(s, p, 3 * k)
  }

  /** The pattern `\B(?=(\d{3})+(?!\d))` matches the empty string in front of
      position `p`: not on a word boundary, and a positive number of digit
      triples follows. At either end of the string the look-ahead cannot hold
      together with `\B`, so only inner positions are considered. */
  predicate PatternAt(s: string, p: nat)
  {
    && 0 < p < |s|
    && IsWordChar(s[p - 1]) == IsWordChar(s[p])
    && exists k: nat :: 1 <= k <= |s| && GroupsFollow(s, p, k)
  }

  /** The number of digits in a row from `p` on. */
  function DigitRun(s: string, p: nat): (n: nat)
    requires p <= |s|
    ensures n <= |s| - p
    decreases |s| - p
  {
    if p == |s| || !IsAsciiDigit(s[p]) then 0 else 1 + DigitRun(s, p + 1)
  }

  /** The same match read through the length of the digit run: the look-ahead
      holds exactly when that run is a positive multiple of three long. */
  predicate CommaAt(s: string, p: nat)
  {
    && 0 < p < |s|
    && IsWordChar(s[p - 1]) == IsWordChar(s[p])
    && DigitRun(s, p) > 0 && DigitRun(s, p) % 3 == 0
  }

  /** Exactly `n` digits follow `p` when the digit run from `p` is `n` long. */
  lemma {:induction false} RunOfIffDigitRun(s: string, p: nat, n: nat)
    requires p <= |s|
    ensures RunOf(s, p, n) <==> DigitRun(s, p) == n
    decreases n
  {
    if n > 0 && p < |s| {
      RunOfIffDigitRun(s, p + 1, n - 1);
      if IsAsciiDigit(s[p]) {
        assert RunOf(s, p, n) <==> RunOf(s, p + 1, n - 1);
      } else {
        assert !RunOf(s, p, n);
      }
    }
  }

  /** Both readings of the pattern agree everywhere. */
  lemma {:induction false} CommaAtIsPattern(s: string, p: nat)
    ensures CommaAt(s, p) <==> PatternAt(s, p)
  {
    if 0 < p < |s| {
      if CommaAt(s, p) {
        var k := DigitRun(s, p) / 3;
        RunOfIffDigitRun(s, p, 3 * k);
        assert GroupsFollow(s, p, k);
      }
      if PatternAt(s, p) {
        var k: nat :| 1 <= k <= |s| && GroupsFollow(s, p, k);
        RunOfIffDigitRun(s, p, 3 * k);
      }
    }
  }

  /** The global `replace` from position `i` on: every match becomes a comma in
      front of the character it precedes. */
  function InsertCommas(s: string, i: nat): (r: string)
    requires i <= |s|
    decreases |s| - i
  {
    if i == |s| then []
    else (if CommaAt(s, i) then "," else "") + [s[i]] + InsertCommas(s, i + 1)
  }

  /** `score.toString()` for an integer score. */
  function SignedDecimal(n: int): (r: string)
    ensures |r| >= 1 && (n < 0 <==> r[0] == '-')
  {
    if n < 0 then "-" + Decimal(-n) else Decimal(n)
  }

  function Sign(n: int): string
  {
    if n < 0 then "-" else ""
  }

  function Magnitude(n: int): nat
  {
    if n < 0 then -n else n
  }

  /** `formatScore(score)`. */
  function FormatScore(score: int): (r: string)
    ensures |r| >= 1 && r[0] != ','
  {
    var s := SignedDecimal(score);
    assert SignedDigits(s, |Sign(score)|);
    CommaPositions(s, |Sign(score)|, 0);
    InsertCommas(s, 0)
  }

  /** The reference reading of the same format: digits grouped in threes from
      the right, the groups joined by commas. */
  function Thousands(d: string): (r: string)
    ensures |r| >= |d|
    decreases |d|
  {
    if |d| <= 3 then d else Thousands(d[..|d| - 3]) + "," + d[|d| - 3..]
  }

  function StripCommas(s: string): (r: string)
    ensures ',' !in r
  {
    if s == [] then [] else (if s[0] == ',' then [] else [s[0]]) + StripCommas(s[1..])
  }

  /** `s` is a decimal numeral behind a sign of length `m`: nothing, or a
      minus. */
  predicate SignedDigits(s: string, m: nat)
  {
    && (m == 0 || m == 1)
    && |s| > m
    && (m == 1 ==> s[0] == '-')
    && (forall j :: m <= j < |s| ==> IsAsciiDigit(s[j]))
  }

  /** Where the pattern matches in a sign followed by digits: in front of
      every digit but the first that has a multiple of three digits from it to
      the end. */
  lemma {:induction false} CommaPositions(s: string, m: nat, q: nat)
    requires SignedDigits(s, m)
    ensures CommaAt(s, q) <==> m < q < |s| && (|s| - q) % 3 == 0
  {
    assert IsWordChar(s[m]);
    assert m == 1 ==> !IsWordChar(s[0]);
    if m <= q < |s| {
      DigitRunToEnd(s, m, q);
      assert IsWordChar(s[q]);
      if q > m {
        assert IsWordChar(s[q - 1]);
      }
    }
  }

  /** Past the sign every character is a digit, so the run reaches the end. */
  lemma {:induction false} DigitRunToEnd(s: string, m: nat, q: nat)
    requires SignedDigits(s, m) && m <= q <= |s|
    ensures DigitRun(s, q) == |s| - q
    decreases |s| - q
  {
    if q < |s| {
      DigitRunToEnd(s, m, q + 1);
    }
  }

  /** Past the sign, with no position left where a comma goes, the rest is
      copied as it is. */
  lemma {:induction false} NoMoreCommas(s: string, m: nat, i: nat)
    requires SignedDigits(s, m)
    requires m <= i <= |s| && (|s| - i < 3 || (i == m && |s| - i == 3))
    ensures InsertCommas(s, i) == s[i..]
    decreases |s| - i
  {
    if i < |s| {
      assert !CommaAt(s, i) by { CommaPositions(s, m, i); }
      NoMoreCommas(s, m, i + 1);
      InsertCommasStep(s, i);
      ConsSlice(s, i);
    }
  }

  /** From position `i` on, the replacement on `s` is the replacement on `s`
      without its last three digits, then a comma and those digits. */
  predicate CutsLastGroup(s: string, i: nat)
    requires 3 <= |s| && i <= |s| - 3
  {
    InsertCommas(s, i) == InsertCommas(s[..|s| - 3], i) + "," + s[|s| - 3..]
  }

  /** Cutting the last three digits off removes the last group and the comma in
      front of it, from any position past the sign. */
  lemma {:induction false} CutLastGroup(s: string, m: nat, i: nat)
    requires SignedDigits(s, m) && |s| - m > 3
    requires m <= i <= |s| - 3
    ensures SignedDigits(s[..|s| - 3], m)
    ensures CutsLastGroup(s, i)
    decreases |s| - i
  {
    CutIsSigned(s, m);
    if i == |s| - 3 {
      LastGroupAlone(s, m);
    } else {
      CutLastGroup(s, m, i + 1);
      CutOneMore(s, m, i);
    }
  }

  /** At the last group itself: a comma, then the three digits. */
  lemma {:induction false} LastGroupAlone(s: string, m: nat)
    requires SignedDigits(s, m) && |s| - m > 3
    ensures CutsLastGroup(s, |s| - 3)
  {
    var i := |s| - 3;
    assert InsertCommas(s, i) == "," + s[i..] by {
      assert CommaAt(s, i) by { CommaPositions(s, m, i); }
      assert InsertCommas(s, i + 1) == s[i + 1..] by { NoMoreCommas(s, m, i + 1); }
      InsertCommasStep(s, i);
      ConsSlice(s, i);
    }
    assert InsertCommas(s[..i], i) == [];
  }

  /** Cutting the last three digits off a signed numeral of more than three
      digits leaves one. */
  lemma {:induction false} CutIsSigned(s: string, m: nat)
    requires SignedDigits(s, m) && |s| - m > 3
    ensures SignedDigits(s[..|s| - 3], m)
  {
  }

  /** One position further to the left, both strings get the same mark in
      front of the same character. */
  lemma {:induction false} CutOneMore(s: string, m: nat, i: nat)
    requires SignedDigits(s, m) && |s| - m > 3
    requires m <= i < |s| - 3
    requires SignedDigits(s[..|s| - 3], m)
    requires CutsLastGroup(s, i + 1)
    ensures CutsLastGroup(s, i)
  {
    var shorter := s[..|s| - 3];
    SameMark(s, m, i);
    InsertCommasStep(s, i);
    InsertCommasStep(shorter, i);
    Regroup(if CommaAt(s, i) then "," else "", s[i], InsertCommas(shorter, i + 1), s[|s| - 3..]);
  }

  /** A comma goes in front of position `i` of `s` exactly when it goes there
      once the last group is cut off. */
  lemma {:induction false} SameMark(s: string, m: nat, i: nat)
    requires m <= i < |s| - 3
    requires SignedDigits(s, m) && SignedDigits(s[..|s| - 3], m)
    ensures CommaAt(s, i) == CommaAt(s[..|s| - 3], i) && s[..|s| - 3][i] == s[i]
  {
    CommaPositions(s, m, i);
    CommaPositions(s[..|s| - 3], m, i);
  }

  /** One step of the replacement. */
  lemma {:induction false} InsertCommasStep(s: string, i: nat)
    requires i < |s|
    ensures InsertCommas(s, i) == (if CommaAt(s, i) then "," else "") + [s[i]] + InsertCommas(s, i + 1)
  {
  }

  lemma {:induction false} ConsSlice(s: string, i: nat)
    requires i < |s|
    ensures s[i..] == [s[i]] + s[i + 1..]
  {
  }

  lemma {:induction false} Regroup(mark: string, c: char, rest: string, tail: string)
    ensures mark + [c] + (rest + "," + tail) == (mark + [c] + rest) + "," + tail
  {
  }

  /** From the end of the sign on, the replacement produces the thousands
      grouping of the digits. */
  lemma {:induction false} InsertCommasGroups(s: string, m: nat)
    requires SignedDigits(s, m)
    ensures InsertCommas(s, m) == Thousands(s[m..])
    decreases |s|
  {
    var d := s[m..];
    if |d| <= 3 {
      NoMoreCommas(s, m, m);
    } else {
      var shorter := s[..|s| - 3];
      CutLastGroup(s, m, m);
      InsertCommasGroups(shorter, m);
      assert shorter[m..] == d[..|d| - 3];
      assert s[|s| - 3..] == d[|d| - 3..];
    }
  }

  /** `formatScore` writes the sign, then the magnitude's digits in groups of
      three from the right. */
  lemma {:induction false} FormatScoreGroupsThousands(score: int)
    ensures FormatScore(score) == Sign(score) + Thousands(Decimal(Magnitude(score)))
  {
    var lead := Sign(score);
    var d := Decimal(Magnitude(score));
    assert SignedDecimal(score) == lead + d;
    SignedGroups(lead, d);
  }

  /** The replacement on a sign and a digit string leaves the sign alone and
      groups the digits. */
  lemma {:induction false} SignedGroups(lead: string, d: string)
    requires lead == "" || lead == "-"
    requires |d| >= 1 && AllDigits(d)
    ensures InsertCommas(lead + d, 0) == lead + Thousands(d)
  {
    var s := lead + d;
    assert SignedDigits(s, |lead|);
    assert InsertCommas(s, |lead|) == Thousands(d) by {
      InsertCommasGroups(s, |lead|);
      assert s[|lead|..] == d;
    }
    if lead == "-" {
      assert InsertCommas(s, 0) == "-" + InsertCommas(s, 1) by {
        CommaPositions(s, 1, 0);
        InsertCommasStep(s, 0);
      }
    }
  }

  lemma {:induction false} StripThousands(d: string)
    requires ',' !in d
    ensures StripCommas(Thousands(d)) == d
    decreases |d|
  {
    if |d| > 3 {
      var init := d[..|d| - 3];
      var tail := d[|d| - 3..];
      assert ',' !in init && ',' !in tail by { NoCommaInSlices(d, |d| - 3); }
      assert StripCommas(Thousands(init)) == init by { StripThousands(init); }
      assert Thousands(d) == Thousands(init) + ("," + tail);
      assert StripCommas(Thousands(d)) == init + tail by { StripJoin(Thousands(init), tail); }
      assert d == init + tail;
    } else {
      NoCommaStrip(d);
    }
  }

  lemma {:induction false} StripJoin(x: string, tail: string)
    requires ',' !in tail
    ensures StripCommas(x + ("," + tail)) == StripCommas(x) + tail
  {
    var t := "," + tail;
    StripAppend(x, t);
    assert t[0] == ',' && t[1..] == tail;
    NoCommaStrip(tail);
    assert StripCommas(t) == tail;
  }

  lemma {:induction false} NoCommaInSlices(d: string, k: nat)
    requires ',' !in d && k <= |d|
    ensures ',' !in d[..k] && ',' !in d[k..]
  {
    assert forall c :: c in d[..k] ==> c in d;
    assert forall c :: c in d[k..] ==> c in d;
  }

  lemma {:induction false} StripAppend(a: string, b: string)
    ensures StripCommas(a + b) == StripCommas(a) + StripCommas(b)
    decreases |a|
  {
    if a != [] {
      var head := if a[0] == ',' then [] else [a[0]];
      assert (a + b)[0] == a[0];
      assert (a + b)[1..] == a[1..] + b;
      StripAppend(a[1..], b);
      assert StripCommas(a + b) == head + StripCommas(a[1..] + b);
      assert StripCommas(a) == head + StripCommas(a[1..]);
    } else {
      assert a + b == b;
    }
  }

  lemma {:induction false} NoCommaStrip(s: string)
    requires ',' !in s
    ensures StripCommas(s) == s
    decreases |s|
  {
    if s != [] {
      assert ',' !in s[1..] by {
        assert forall c :: c in s[1..] ==> c in s;
      }
      NoCommaStrip(s[1..]);
    }
  }

  /** The commas carry no information: taking them out and reading the rest as
      a signed decimal gives the score back. */
  lemma {:induction false} FormatScoreRoundTrip(score: int)
    ensures var plain := StripCommas(FormatScore(score));
            && (score < 0 ==> plain == "-" + Decimal(-score))
            && (score >= 0 ==> plain == Decimal(score))
            && ReadSigned(plain) == score
  {
    var d := Decimal(Magnitude(score));
    FormatScoreGroupsThousands(score);
    assert ',' !in d by {
      forall c | c in d ensures c != ',' {
        var i :| 0 <= i < |d| && d[i] == c;
        assert IsAsciiDigit(d[i]);
      }
    }
    StripThousands(d);
    StripAppend(Sign(score), Thousands(d));
    NoCommaStrip(Sign(score));
    var plain := Sign(score) + d;
    assert StripCommas(FormatScore(score)) == plain;
    if score < 0 {
      assert plain[1..] == d;
    }
  }

  /** Reading a plain signed decimal. */
  function ReadSigned(t: string): int
    requires |t| >= 1
    requires t[0] == '-' ==> |t| >= 2 && AllDigits(t[1..])
    requires t[0] != '-' ==> AllDigits(t)
  {
    if t[0] == '-' then
      DigitsAreDecimal(t[1..]);
      -(Parse(t[1..], 10) as int)
    else
      DigitsAreDecimal(t);
      Parse(t, 10)
  }

  /** Below a thousand in magnitude no comma is written. */
  lemma {:induction false} SmallScoresHaveNoComma(score: int)
    requires -1000 < score < 1000
    ensures FormatScore(score) == SignedDecimal(score)
  {
    FormatScoreGroupsThousands(score);
    NumeralLength(Magnitude(score), 10, 3);
    assert Pow(10, 3) == 1000;
  }
}

=== FILE: tic_tac_toc.dfy ===
/** game/tic-tac-toc/script.js: the older `TicTacToe` class. It has no round
    counter, reads the AI tier from the difficulty select, and its Hard tier is
    the unweighted `{index, score}` minimax. */
module TicTacToc {
  import opened Wrappers
  import opened TttBoard
  import opened TttPlay
  import opened TttAi
  import TttMinimaxPlain

  /** `difficulty` stands for the current value of the difficulty select. */
  datatype State = State(turn: Turn, mode: Mode, difficulty: Difficulty)

  datatype AiDraws = AiDraws(corner: nat, cell: nat)

  /** The constructor followed by `init`: `resetBoard` on 0-0 scores, PvP. */
  function Initial(d: Difficulty): (s: State)
    ensures Valid(s) && s.turn.active && s.turn.board == EmptyBoard && s.turn.current == X
    ensures s.turn.scores == Scores(0, 0) && s.mode == PvP
  {
    State(FreshTurn(Scores(0, 0)), PvP, d)
  }

  predicate Valid(s: State)
  {
    Consistent(s.turn)
  }

  /** `handleCellClick`: the guard tests the cell first and play second; either
      failing ignores the click. The second component says whether an AI turn is
      scheduled. */
  function HandleCellClick(s: State, index: Index): (r: (State, bool))
    ensures s.turn.board[index] != Empty || !s.turn.active ==> r == (s, false)
    ensures s.turn.board[index] == Empty && s.turn.active ==>
              && r.0 == s.(turn := PlayAt(s.turn, index))
              && (r.1 <==> s.mode == PvC && r.0.turn.active && r.0.turn.current == O)
  {
    if s.turn.board[index] != Empty || !s.turn.active then (s, false)
    else
      var t := s.(turn := PlayAt(s.turn, index));
      (t, t.mode == PvC && t.turn.active && t.turn.current == O)
  }

  /** `getHardAIMove`: the index the unweighted search returns for O. */
  function HardAiMove(b: Board): (r: Option<nat>)
    ensures r.None? <==> TttMinimaxPlain.Terminal(b)
    ensures r.Some? ==> r.value < 9 && b[r.value] == Empty
  {
    TttMinimaxPlain.Minimax(b, O).index
  }

  /** The `switch` in `makeAIMove`. */
  function ChooseAiMove(d: Difficulty, b: Board, draws: AiDraws): (r: Option<nat>)
    ensures r.Some? ==> r.value < 9 && b[r.value] == Empty
    ensures !WinsFor(b, X) && !WinsFor(b, O) ==> (r.None? <==> Full(b))
  {
    FullIffNoMoves(b);
    match d
    case Easy => RandomMove(b, draws.cell)
    case Medium => MediumMove(b, draws.corner, draws.cell)
    case Hard => HardAiMove(b)
  }

  /** `makeAIMove`: nothing once play is off; otherwise the tier's cell is played. */
  function MakeAiMove(s: State, draws: AiDraws): (r: State)
    ensures !s.turn.active ==> r == s
    ensures Valid(s) && s.turn.active ==>
              exists m: Index :: s.turn.board[m] == Empty && r == s.(turn := PlayAt(s.turn, m))
    ensures var choice := ChooseAiMove(s.difficulty, s.turn.board, draws);
            s.turn.active && choice.Some? ==> r == s.(turn := PlayAt(s.turn, choice.value))
    ensures ChooseAiMove(s.difficulty, s.turn.board, draws).None? ==> r == s
  {
    if !s.turn.active then s
    else
      match ChooseAiMove(s.difficulty, s.turn.board, draws)
      case None => s
      case Some(m) => s.(turn := PlayAt(s.turn, m))
  }

  /** `resetBoard`: a fresh board with X to move; scores and settings are kept. */
  function ResetBoard(s: State): (r: State)
    ensures r.turn.board == EmptyBoard && r.turn.current == X && r.turn.active
    ensures r.turn.scores == s.turn.scores && r.mode == s.mode && r.difficulty == s.difficulty
  {
    s.(turn := FreshTurn(s.turn.scores))
  }

  /** `newMatch`: scores back to 0-0, then `resetBoard`. */
  function NewMatch(s: State): (r: State)
    ensures r.turn.board == EmptyBoard && r.turn.current == X && r.turn.active
    ensures r.turn.scores == Scores(0, 0) && r.mode == s.mode && r.difficulty == s.difficulty
  {
    ResetBoard(s.(turn := s.turn.(scores := Scores(0, 0))))
  }

  /** `changeMode`: the new mode, then `resetBoard`. */
  function ChangeMode(s: State, mode: Mode): (r: State)
    ensures r.mode == mode && r.turn.board == EmptyBoard && r.turn.scores == s.turn.scores
    ensures r.turn.current == X && r.turn.active && r.difficulty == s.difficulty
  {
    ResetBoard(s.(mode := mode))
  }

  /** The difficulty select's handler: the board is reset only against the
      computer. */
  function ChangeDifficulty(s: State, d: Difficulty): (r: State)
    ensures r.difficulty == d && r.mode == s.mode && r.turn.scores == s.turn.scores
    ensures s.mode == PvC ==> r.turn.board == EmptyBoard && r.turn.active && r.turn.current == X
    ensures s.mode == PvP ==> r.turn == s.turn
  {
    var t := s.(difficulty := d);
    if s.mode == PvC then ResetBoard(t) else t
  }

  /** Every operation keeps the turn consistent. */
  lemma OperationsKeepValid(s: State, index: Index, draws: AiDraws, mode: Mode, d: Difficulty)
    requires Valid(s)
    ensures Valid(HandleCellClick(s, index).0)
    ensures Valid(MakeAiMove(s, draws))
    ensures Valid(ResetBoard(s)) && Valid(NewMatch(s)) && Valid(ChangeMode(s, mode))
    ensures Valid(ChangeDifficulty(s, d))
  {
    ClickKeepsValid(s, index);
    AiMoveKeepsValid(s, draws);
  }

  lemma ClickKeepsValid(s: State, index: Index)
    requires Valid(s)
    ensures Valid(HandleCellClick(s, index).0)
  {
    if s.turn.active && s.turn.board[index] == Empty {
      PlayAtKeepsConsistent(s.turn, index);
    }
  }

  lemma AiMoveKeepsValid(s: State, draws: AiDraws)
    requires Valid(s)
    ensures Valid(MakeAiMove(s, draws))
  {
    if s.turn.active {
      var c := ChooseAiMove(s.difficulty, s.turn.board, draws);
      if c.Some? {
        PlayAtKeepsConsistent(s.turn, c.value);
      }
    }
  }

  /** On a valid live position every tier, the unweighted Hard tier included,
      finds a cell: the search's index is defined because the position is not
      terminal. */
  lemma AiAlwaysMovesWhileActive(s: State, draws: AiDraws)
    requires Valid(s) && s.turn.active
    ensures ChooseAiMove(s.difficulty, s.turn.board, draws).Some?
    ensures MakeAiMove(s, draws) != s
  {
    FullIffNoMoves(s.turn.board);
    var m := ChooseAiMove(s.difficulty, s.turn.board, draws).value;
    assert MakeAiMove(s, draws).turn.board[m] != Empty;
  }

  /** The Hard tier, given an immediate win, plays a cell from which O forces a
      win, though not necessarily the immediate one. */
  lemma HardForcesWinWhenOneIsAvailable(s: State, w: Index)
    requires Valid(s) && s.turn.active
    requires s.turn.board[w] == Empty && WinsFor(s.turn.board[w := O], O)
    ensures HardAiMove(s.turn.board).Some?
    ensures TttMinimaxPlain.TrialScore(s.turn.board, HardAiMove(s.turn.board).value, O) == 10
  {
    FullIffNoMoves(s.turn.board);
    TttMinimaxPlain.ImmediateWinScoresTen(s.turn.board, w);
  }
}

=== FILE: tic_tac_toe.dfy ===
/** games/tic-tac-toe/script.js: the `TicTacToe` class, with a round counter,
    two play modes and the depth-weighted Hard tier. */
module TicTacToe {
  import opened Wrappers
  import opened TttBoard
  import opened TttPlay
  import opened TttAi
  import opened TttMinimax

  datatype State = State(turn: Turn, mode: Mode, difficulty: Difficulty, round: int)

  /** The random draws an AI turn may consume: one for the corner step of the
      Medium tier, one for any uniform choice among free cells. */
  datatype AiDraws = AiDraws(corner: nat, cell: nat)

  /** The constructor: empty board, X to move, PvP, Medium, scores 0-0, round 1. */
  function Initial(): (s: State)
    ensures Valid(s) && s.turn.active && s.turn.board == EmptyBoard && s.turn.current == X
    ensures s.turn.scores == Scores(0, 0) && s.round == 1 && s.mode == PvP && s.difficulty == Medium
  {
    State(FreshTurn(Scores(0, 0)), PvP, Medium, 1)
  }

  predicate Valid(s: State)
  {
    Consistent(s.turn) && s.round >= 1
  }

  /** `handleCellClick`: a click while play is off, or on a cell that is not
      the empty string (an index outside the board reads `undefined`, which is not
      the empty string either), is ignored. Otherwise the move is made; the second
      component says whether an AI turn is scheduled. */
  function HandleCellClick(s: State, index: int): (r: (State, bool))
    ensures !s.turn.active || !(0 <= index < 9) || s.turn.board[index] != Empty ==> r == (s, false)
    ensures s.turn.active && 0 <= index < 9 && s.turn.board[index] == Empty ==>
              && r.0 == s.(turn := PlayAt(s.turn, index))
              && (r.1 <==> r.0.turn.active && s.mode == PvC && r.0.turn.current == O)
  {
    if !s.turn.active then (s, false)
    else if !(0 <= index < 9) || s.turn.board[index] != Empty then (s, false)
    else
      var t := s.(turn := PlayAt(s.turn, index));
      (t, t.turn.active && t.mode == PvC && t.turn.current == O)
  }

  /** The `switch` in `makeAIMove`. */
  function ChooseAiMove(d: Difficulty, b: Board, draws: AiDraws): (r: Option<nat>)
    ensures r.None? <==> Full(b)
    ensures r.Some? ==> r.value < 9 && b[r.value] == Empty
  {
    match d
    case Easy => RandomMove(b, draws.cell)
    case Medium => MediumMove(b, draws.corner, draws.cell)
    case Hard => FullIffNoMoves(b); HardMove(b)
  }

  /** `makeAIMove`: nothing once play is off; otherwise the chosen tier's cell is
      played for the player to move. */
  function MakeAiMove(s: State, draws: AiDraws): (r: State)
    ensures !s.turn.active || Full(s.turn.board) ==> r == s
    ensures s.turn.active && !Full(s.turn.board) ==>
              exists m: Index :: s.turn.board[m] == Empty && r == s.(turn := PlayAt(s.turn, m))
    ensures var choice := ChooseAiMove(s.difficulty, s.turn.board, draws);
            s.turn.active && choice.Some? ==> r == s.(turn := PlayAt(s.turn, choice.value))
  {
    if !s.turn.active then s
    else
      match ChooseAiMove(s.difficulty, s.turn.board, draws)
      case None => s
      case Some(m) => s.(turn := PlayAt(s.turn, m))
  }

  /** `resetGame`: a fresh board with X to move; scores, round and settings are
      kept. */
  function ResetGame(s: State): (r: State)
    ensures r.turn.board == EmptyBoard && r.turn.current == X && r.turn.active
    ensures r.turn.scores == s.turn.scores && r.round == s.round
    ensures r.mode == s.mode && r.difficulty == s.difficulty
  {
    s.(turn := FreshTurn(s.turn.scores))
  }

  /** `newMatch`: scores back to 0-0 and round 1, then `resetGame`. */
  function NewMatch(s: State): (r: State)
    ensures r.turn.board == EmptyBoard && r.turn.current == X && r.turn.active
    ensures r.turn.scores == Scores(0, 0) && r.round == 1
    ensures r.mode == s.mode && r.difficulty == s.difficulty
  {
    ResetGame(s.(turn := s.turn.(scores := Scores(0, 0)), round := 1))
  }

  /** `nextRound`, run after the win or draw message: the round counter moves on
      and the board is reset; scores are kept. */
  function NextRound(s: State): (r: State)
    ensures r.turn.board == EmptyBoard && r.turn.current == X && r.turn.active
    ensures r.turn.scores == s.turn.scores && r.round == s.round + 1
    ensures r.mode == s.mode && r.difficulty == s.difficulty
  {
    ResetGame(s.(round := s.round + 1))
  }

  /** The difficulty select's handler: the new tier, nothing else. */
  function SetDifficulty(s: State, d: Difficulty): (r: State)
    ensures r.difficulty == d && r.turn == s.turn && r.mode == s.mode && r.round == s.round
  {
    s.(difficulty := d)
  }

  /** `changeMode`: the new mode, then `resetGame`. */
  function ChangeMode(s: State, mode: Mode): (r: State)
    ensures r.mode == mode && r.turn.board == EmptyBoard && r.turn.scores == s.turn.scores
    ensures r.turn.current == X && r.turn.active && r.difficulty == s.difficulty && r.round == s.round
  {
    ResetGame(s.(mode := mode))
  }

  /** Every operation keeps a valid state valid: a live round never shows a
      completed line or a full board, and its marks match the player to move. */
  lemma OperationsKeepValid(s: State, index: int, draws: AiDraws, mode: Mode, d: Difficulty)
    requires Valid(s)
    ensures Valid(HandleCellClick(s, index).0)
    ensures Valid(MakeAiMove(s, draws)) && Valid(SetDifficulty(s, d))
    ensures Valid(ResetGame(s)) && Valid(NewMatch(s)) && Valid(NextRound(s)) && Valid(ChangeMode(s, mode))
  {
    if s.turn.active && 0 <= index < 9 && s.turn.board[index] == Empty {
      PlayAtKeepsConsistent(s.turn, index);
    }
    if s.turn.active {
      var c := ChooseAiMove(s.difficulty, s.turn.board, draws);
      if c.Some? {
        PlayAtKeepsConsistent(s.turn, c.value);
      }
    }
  }

  /** In a valid state the AI always finds a move while play is on. */
  lemma AiAlwaysMovesWhileActive(s: State, draws: AiDraws)
    requires Valid(s) && s.turn.active
    ensures ChooseAiMove(s.difficulty, s.turn.board, draws).Some?
    ensures MakeAiMove(s, draws) != s
  {
    var m := ChooseAiMove(s.difficulty, s.turn.board, draws).value;
    assert MakeAiMove(s, draws).turn.board[m] != Empty;
  }

}

=== FILE: ttt_ai.dfy ===
/** The Easy and Medium AI tiers. The AI always plays O. Random draws are explicit
    parameters (see RandomPick). */
module TttAi {
  import opened Wrappers
  import opened TttBoard
  import opened RandomPick

  /** `getRandomMove`: a free cell drawn at random, or null on a full board. */
  function RandomMove(b: Board, pick: nat): (r: Option<nat>)
    ensures r.None? <==> Full(b)
    ensures r.Some? ==> r.value < 9 && b[r.value] == Empty
  {
    FullIffNoMoves(b);
    var moves := Available(b);
    if |moves| > 0 then Some(Pick(moves, pick)) else None
  }

  /** Writing `p` at free cell `m` completes one of `p`'s lines. */
  predicate WinningMove(b: Board, m: int, p: Player)
  {
    0 <= m < 9 && b[m] == Empty && WinsFor(b[m := p], p)
  }

  /** The try-each-move loop: the first move in `moves` that wins for `p`. */
  function FirstWinning(b: Board, moves: seq<nat>, p: Player): (r: Option<nat>)
    requires FreeAscending(b, moves)
    ensures r.Some? ==> r.value in moves && WinningMove(b, r.value, p)
    ensures r.Some? ==> forall m :: m in moves && m < r.value ==> !WinningMove(b, m, p)
    ensures r.None? ==> forall m :: m in moves ==> !WinningMove(b, m, p)
  {
    if moves == [] then None
    else if WinsFor(b[moves[0] := p], p) then Some(moves[0])
    else FirstWinning(b, moves[1..], p)
  }

  /** The lowest free cell that wins for `p`, if any: what the loop over
      `getAvailableMoves()` returns. */
  function LowestWinning(b: Board, p: Player): (r: Option<nat>)
    ensures r.Some? ==> WinningMove(b, r.value, p)
    ensures r.Some? ==> forall m :: 0 <= m < r.value ==> !WinningMove(b, m, p)
    ensures r.None? <==> forall m :: 0 <= m < 9 ==> !WinningMove(b, m, p)
  {
    AvailableIsFreeAscending(b);
    var r := FirstWinning(b, Available(b), p);
    assert forall m :: WinningMove(b, m, p) ==> m in Available(b);
    r
  }

  predicate CanWin(b: Board, p: Player)
  {
    exists m :: 0 <= m < 9 && WinningMove(b, m, p)
  }

  const Corners: seq<nat> := [0, 2, 6, 8]

  /** `corners.filter(corner => board[corner] === '')` */
  function FreeCorners(b: Board): (r: seq<nat>)
    ensures forall c :: c in r <==> c in Corners && b[c] == Empty
  {
    var r := (if b[0] == Empty then [0] else []) + (if b[2] == Empty then [2] else [])
      + (if b[6] == Empty then [6] else []) + (if b[8] == Empty then [8] else []);
    assert forall c :: c in r <==> c in Corners && b[c] == Empty;
    r
  }

  /** `getMediumMove` of games/tic-tac-toe/script.js and `getMediumAIMove` of
      game/tic-tac-toc/script.js: win, else block, else centre, else a random free
      corner, else a random free cell. */
  function MediumMove(b: Board, cornerPick: nat, pick: nat): (r: Option<nat>)
    ensures r.None? <==> Full(b)
    ensures r.Some? ==> r.value < 9 && b[r.value] == Empty
    ensures CanWin(b, O) ==>
              r.Some? && WinningMove(b, r.value, O) && forall m :: 0 <= m < r.value ==> !WinningMove(b, m, O)
    ensures !CanWin(b, O) && CanWin(b, X) ==>
              r.Some? && WinningMove(b, r.value, X) && forall m :: 0 <= m < r.value ==> !WinningMove(b, m, X)
    ensures !CanWin(b, O) && !CanWin(b, X) && b[4] == Empty ==> r == Some(4)
    ensures !CanWin(b, O) && !CanWin(b, X) && b[4] != Empty && |FreeCorners(b)| > 0 ==>
              r.Some? && r.value in Corners
    ensures !CanWin(b, O) && !CanWin(b, X) && b[4] != Empty && |FreeCorners(b)| == 0 ==>
              r == RandomMove(b, pick)
  {
    match LowestWinning(b, O)
    case Some(m) => Some(m)
    case None =>
      match LowestWinning(b, X)
      case Some(m) => Some(m)
      case None => CentreCornerOrRandom(b, cornerPick, pick)
  }

  /** The steps after win and block: the centre, else a random free corner,
      else a random free cell. */
  function CentreCornerOrRandom(b: Board, cornerPick: nat, pick: nat): (r: Option<nat>)
    ensures r.None? <==> Full(b)
    ensures r.Some? ==> r.value < 9 && b[r.value] == Empty
    ensures b[4] == Empty ==> r == Some(4)
    ensures b[4] != Empty && |FreeCorners(b)| > 0 ==> r.Some? && r.value in Corners
    ensures b[4] != Empty && |FreeCorners(b)| == 0 ==> r == RandomMove(b, pick)
  {
    if b[4] == Empty then Some(4)
    else
      var corners := FreeCorners(b);
      if |corners| > 0 then Some(Pick(corners, cornerPick))
      else RandomMove(b, pick)
  }

  /** `getMediumMove` of assets/js/game-loader.js: the same without the corner
      step. */
  function MediumMoveNoCorner(b: Board, pick: nat): (r: Option<nat>)
    ensures r.None? <==> Full(b)
    ensures r.Some? ==> r.value < 9 && b[r.value] == Empty
    ensures CanWin(b, O) ==>
              r.Some? && WinningMove(b, r.value, O) && forall m :: 0 <= m < r.value ==> !WinningMove(b, m, O)
    ensures !CanWin(b, O) && CanWin(b, X) ==>
              r.Some? && WinningMove(b, r.value, X) && forall m :: 0 <= m < r.value ==> !WinningMove(b, m, X)
    ensures !CanWin(b, O) && !CanWin(b, X) && b[4] == Empty ==> r == Some(4)
    ensures !CanWin(b, O) && !CanWin(b, X) && b[4] != Empty ==> r == RandomMove(b, pick)
  {
    match LowestWinning(b, O)
    case Some(m) => Some(m)
    case None =>
      match LowestWinning(b, X)
      case Some(m) => Some(m)
      case None =>
        if b[4] == Empty then Some(4) else RandomMove(b, pick)
  }

  /** Every free corner can be the one taken. */
  lemma MediumCornerStepReachesEveryCorner(b: Board, c: nat, pick: nat)
    requires !CanWin(b, O) && !CanWin(b, X) && b[4] != Empty
    requires c in Corners && b[c] == Empty
    ensures exists k: nat :: MediumMove(b, k, pick) == Some(c)
  {
    PickReachesAll(FreeCorners(b), c);
    var k: nat :| k < |FreeCorners(b)| && Pick(FreeCorners(b), k) == c;
    assert MediumMove(b, k, pick) == Some(c);
  }

}

=== FILE: ttt_board.dfy ===
/** The Tic-Tac-Toe board shared by all three copies of the game: nine cells in
    row-major order, the eight winning lines, the list of free cells and the counts
    of each mark. */
module TttBoard {

  /** A cell: the source's empty string `''`, or one of the two marks. */
  datatype Mark = Empty | X | O

  /** A mark that can be placed: the source's `currentPlayer`, always 'X' or 'O'. */
  type Player = m: Mark | m != Empty witness X

  type Board = b: seq<Mark> | |b| == 9 witness [Empty, Empty, Empty, Empty, Empty, Empty, Empty, Empty, Empty]

  type Index = i: int | 0 <= i < 9

  const EmptyBoard: Board := [Empty, Empty, Empty, Empty, Empty, Empty, Empty, Empty, Empty]

  function Other(p: Player): (q: Player)
    ensures q != p
  {
    if p == X then O else X
  }

  /** A winning line: three cell indices. */
  datatype Line = Line(a: Index, b: Index, c: Index)

  /** The eight winning triples in the order the source lists them: rows, columns,
      diagonals. */
  const Lines: seq<Line> := [
    Line(0, 1, 2), Line(3, 4, 5), Line(6, 7, 8),
    Line(0, 3, 6), Line(1, 4, 7), Line(2, 5, 8),
    Line(0, 4, 8), Line(2, 4, 6)
  ]

  /** `combo.every(index => board[index] === player)` */
  predicate Holds(b: Board, l: Line, p: Mark)
  {
    b[l.a] == p && b[l.b] == p && b[l.c] == p
  }

  /** `winningCombos.some(...)`, scanning the lines from `k` on. */
  predicate SomeLineFrom(b: Board, p: Mark, k: nat)
    requires k <= |Lines|
    decreases |Lines| - k
  {
    k < |Lines| && (Holds(b, Lines[k], p) || SomeLineFrom(b, p, k + 1))
  }

  /** `checkWinFor(player)` / `checkWinForBoard(board, player)` */
  predicate WinsFor(b: Board, p: Mark)
  {
    SomeLineFrom(b, p, 0)
  }

  predicate RowOf(b: Board, r: int, p: Mark)
    requires 0 <= r < 3
  {
    b[3 * r] == p && b[3 * r + 1] == p && b[3 * r + 2] == p
  }

  predicate ColumnOf(b: Board, c: int, p: Mark)
    requires 0 <= c < 3
  {
    b[c] == p && b[c + 3] == p && b[c + 6] == p
  }

  /** Reference definition of a win, stated geometrically: a full row, a full
      column, or one of the two diagonals. */
  predicate ThreeInARow(b: Board, p: Mark)
  {
    || (exists r :: 0 <= r < 3 && RowOf(b, r, p))
    || (exists c :: 0 <= c < 3 && ColumnOf(b, c, p))
    || (b[0] == p && b[4] == p && b[8] == p)
    || (b[2] == p && b[4] == p && b[6] == p)
  }

  lemma SomeLineMeansAHeldLine(b: Board, p: Mark, k: nat)
    requires k <= |Lines|
    ensures SomeLineFrom(b, p, k) <==> exists j :: k <= j < |Lines| && Holds(b, Lines[j], p)
    decreases |Lines| - k
  {
    if k < |Lines| {
      SomeLineMeansAHeldLine(b, p, k + 1);
    }
  }

  /** The table of eight triples is exactly the rows, columns and diagonals. */
  lemma WinsForIffThreeInARow(b: Board, p: Mark)
    ensures WinsFor(b, p) <==> ThreeInARow(b, p)
  {
    SomeLineMeansAHeldLine(b, p, 0);
    if WinsFor(b, p) {
      var j :| 0 <= j < |Lines| && Holds(b, Lines[j], p);
      HeldLineIsGeometric(b, p, j);
    }
    if ThreeInARow(b, p) {
      GeometricLineIsHeld(b, p);
    }
  }

  lemma HeldLineIsGeometric(b: Board, p: Mark, j: nat)
    requires j < |Lines| && Holds(b, Lines[j], p)
    ensures ThreeInARow(b, p)
  {
    if j < 3 {
      assert RowOf(b, j, p);
    } else if j < 6 {
      assert ColumnOf(b, j - 3, p);
    }
  }

  lemma GeometricLineIsHeld(b: Board, p: Mark)
    requires ThreeInARow(b, p)
    ensures exists j :: 0 <= j < |Lines| && Holds(b, Lines[j], p)
  {
    if r :| 0 <= r < 3 && RowOf(b, r, p) {
      assert Holds(b, Lines[r], p);
    } else if c :| 0 <= c < 3 && ColumnOf(b, c, p) {
      assert Holds(b, Lines[c + 3], p);
    } else if b[0] == p && b[4] == p && b[8] == p {
      assert Holds(b, Lines[6], p);
    } else {
      assert Holds(b, Lines[7], p);
    }
  }

  /** A held line for `p` survives writing any cell outside it. */
  lemma WinSurvivesOtherWrites(b: Board, i: Index, m: Mark, p: Mark)
    requires WinsFor(b[i := m], p)
    requires b[i] == p || m != p
    ensures WinsFor(b, p)
  {
    SomeLineMeansAHeldLine(b[i := m], p, 0);
    var j :| 0 <= j < |Lines| && Holds(b[i := m], Lines[j], p);
    assert Holds(b, Lines[j], p);
    SomeLineMeansAHeldLine(b, p, 0);
  }

  /** Placing a mark never completes a line of the other mark. */
  lemma PlacingKeepsOpponentLines(b: Board, i: Index, p: Player)
    requires !WinsFor(b, Other(p))
    ensures !WinsFor(b[i := p], Other(p))
  {
    if WinsFor(b[i := p], Other(p)) {
      WinSurvivesOtherWrites(b, i, p, Other(p));
    }
  }

  /** `checkDraw`: `!board.includes('')` */
  predicate Full(b: Board)
  {
    Empty !in b
  }

  /** Number of cells holding `m` from index `i` on. */
  function CountFrom(b: seq<Mark>, i: nat, m: Mark): (r: nat)
    requires i <= |b|
    ensures r <= |b| - i
    decreases |b| - i
  {
    if i == |b| then 0 else (if b[i] == m then 1 else 0) + CountFrom(b, i + 1, m)
  }

  /** Number of cells holding `m`. */
  function Count(b: seq<Mark>, m: Mark): nat
  {
    CountFrom(b, 0, m)
  }

  /** Free indices from `i` on, ascending: the source's `getAvailableMoves`
      (`map` to index-or-null, then `filter`). */
  function AvailableFrom(b: Board, i: nat): (r: seq<nat>)
    requires i <= 9
    ensures forall m {:trigger m in r} :: m in r <==> i <= m < 9 && b[m] == Empty
    ensures forall j :: 0 <= j < |r| ==> i <= r[j] < 9 && b[r[j]] == Empty
    ensures |r| == CountFrom(b, i, Empty)
    decreases 9 - i
  {
    if i == 9 then []
    else if b[i] == Empty then [i] + AvailableFrom(b, i + 1)
    else AvailableFrom(b, i + 1)
  }

  function Available(b: Board): (r: seq<nat>)
    ensures forall m {:trigger m in r} :: m in r <==> 0 <= m < 9 && b[m] == Empty
    ensures forall j :: 0 <= j < |r| ==> r[j] < 9 && b[r[j]] == Empty
    ensures |r| == EmptyCount(b)
  {
    AvailableFrom(b, 0)
  }

  /** A list of moves that are all free cells. */
  predicate AllFree(b: Board, moves: seq<nat>)
  {
    forall i :: 0 <= i < |moves| ==> moves[i] < 9 && b[moves[i]] == Empty
  }

  /** Strictly increasing. */
  predicate Ascending(s: seq<nat>)
  {
    forall j, k :: 0 <= j < k < |s| ==> s[j] < s[k]
  }

  /** A list of moves that are all free cells, in ascending order. */
  predicate FreeAscending(b: Board, moves: seq<nat>)
  {
    AllFree(b, moves) && Ascending(moves)
  }

  /** The free cells come out in index order. */
  lemma {:induction false} AvailableFromAscending(b: Board, i: nat)
    requires i <= 9
    ensures Ascending(AvailableFrom(b, i))
    decreases 9 - i
  {
    if i < 9 {
      AvailableFromAscending(b, i + 1);
      var rest := AvailableFrom(b, i + 1);
      if b[i] == Empty {
        PrependAscending(i, rest);
      }
    }
  }

  /** In an ascending list the smaller entry comes first. */
  lemma AscendingOrder(s: seq<nat>, j: int, k: int)
    requires Ascending(s) && 0 <= j < |s| && 0 <= k < |s| && s[j] < s[k]
    ensures j < k
  {
  }

  lemma PrependAscending(x: nat, s: seq<nat>)
    requires Ascending(s)
    requires forall j :: 0 <= j < |s| ==> x < s[j]
    ensures Ascending([x] + s)
  {
    var r := [x] + s;
    forall j, k | 0 <= j < k < |r|
      ensures r[j] < r[k]
    {
      assert r[k] == s[k - 1];
      if j > 0 {
        assert r[j] == s[j - 1];
      }
    }
  }

  lemma AvailableIsFreeAscending(b: Board)
    ensures FreeAscending(b, Available(b))
  {
    var a := Available(b);
    assert AllFree(b, a);
    AvailableFromAscending(b, 0);
  }

  /** The number of free cells: the measure that makes minimax terminate. */
  function EmptyCount(b: Board): nat
  {
    Count(b, Empty)
  }

  lemma FullIffNoMoves(b: Board)
    ensures Full(b) <==> EmptyCount(b) == 0
  {
    var free := Available(b);
    if |free| > 0 {
      assert b[free[0]] == Empty;
    }
    if !Full(b) {
      var i :| 0 <= i < 9 && b[i] == Empty;
      assert i in free;
    }
  }

  /** Writing one cell changes the counts by that cell alone. */
  lemma {:induction false} CountFromAfterWrite(b: seq<Mark>, i: int, m: Mark, q: Mark, k: nat)
    requires 0 <= i < |b| && k <= |b|
    ensures CountFrom(b[i := m], k, q)
              == CountFrom(b, k, q) - (if k <= i && b[i] == q then 1 else 0) + (if k <= i && m == q then 1 else 0)
    decreases |b| - k
  {
    if k < |b| {
      CountFromAfterWrite(b, i, m, q, k + 1);
    }
  }

  lemma CountAfterWrite(b: seq<Mark>, i: int, m: Mark, q: Mark)
    requires 0 <= i < |b|
    ensures Count(b[i := m], q) == Count(b, q) - (if b[i] == q then 1 else 0) + (if m == q then 1 else 0)
  {
    CountFromAfterWrite(b, i, m, q, 0);
  }

  /** Filling a free cell removes exactly one available move. */
  lemma PlaceShrinks(b: Board, m: Index, p: Player)
    requires b[m] == Empty
    ensures EmptyCount(b[m := p]) == EmptyCount(b) - 1
  {
    CountAfterWrite(b, m, p, Empty);
  }

  lemma CountOfEmptyBoard(m: Mark)
    ensures Count(EmptyBoard, m) == if m == Empty then 9 else 0
  {
  }

  /** X always moves first, so with X to move the two counts are equal and with
      O to move X has one mark more. */
  predicate Balanced(b: Board, current: Player)
  {
    Count(b, X) == Count(b, O) + (if current == O then 1 else 0)
  }

  /** The score table `{ X: n, O: m }`. */
  datatype Scores = Scores(x: nat, o: nat)

  function ScoreOf(s: Scores, p: Player): nat
  {
    if p == X then s.x else s.o
  }

  /** `scores[player]++` */
  function Credit(s: Scores, p: Player): (r: Scores)
    ensures ScoreOf(r, p) == ScoreOf(s, p) + 1
    ensures ScoreOf(r, Other(p)) == ScoreOf(s, Other(p))
  {
    if p == X then s.(x := s.x + 1) else s.(o := s.o + 1)
  }

}

=== FILE: ttt_minimax.dfy ===
/** The depth-weighted minimax and the Hard AI tier shared by
    games/tic-tac-toe/script.js and assets/js/game-loader.js. The AI always plays O.
    A terminal O win at depth d scores 10 - d, an X win d - 10, a full board 0; O
    maximises, X minimises. */
module TttMinimax {
  import opened Wrappers
  import opened TttBoard
  import opened SeqExtremes

  /** `minimax(depth, isMaximizing)`: the terminal checks come in the source's
      order, O win first, then X win, then full board. */
  function Minimax(b: Board, depth: int, maximizing: bool): (r: int)
    ensures 0 <= depth && depth + EmptyCount(b) <= 10 ==> depth - 10 <= r <= 10 - depth
    decreases EmptyCount(b), 1, 0
  {
    if WinsFor(b, O) then 10 - depth
    else if WinsFor(b, X) then depth - 10
    else if EmptyCount(b) == 0 then 0
    else
      var scores := ChildScores(b, 0, depth, maximizing);
      if maximizing then MaxOf(scores) else MinOf(scores)
  }

  /** The mark the side to move places: O when maximising, X when minimising. */
  function Mover(maximizing: bool): Player
  {
    if maximizing then O else X
  }

  /** The scores of the recursive calls made by the loop over available moves,
      for the free cells from `i` on: one score per free cell. */
  function ChildScores(b: Board, i: nat, depth: int, maximizing: bool): (r: seq<int>)
    requires i <= 9
    ensures |r| == CountFrom(b, i, Empty)
    ensures 0 <= depth && depth + EmptyCount(b) <= 10 ==>
              forall j :: 0 <= j < |r| ==> depth - 9 <= r[j] <= 9 - depth
    decreases EmptyCount(b), 0, 9 - i
  {
    if i == 9 then []
    else if b[i] == Empty then
      PlaceShrinks(b, i, Mover(maximizing));
      [Minimax(b[i := Mover(maximizing)], depth + 1, !maximizing)] + ChildScores(b, i + 1, depth, maximizing)
    else ChildScores(b, i + 1, depth, maximizing)
  }

  /** The score `getHardMove` gives a free cell: O is placed there and the search
      continues at depth 0 with X to move. */
  function MoveScore(b: Board, m: Index): int
  {
    Minimax(b[m := O], 0, false)
  }

  function RootScores(b: Board, moves: seq<nat>): (r: seq<int>)
    requires AllFree(b, moves)
    ensures |r| == |moves|
    ensures forall i :: 0 <= i < |moves| ==> r[i] == MoveScore(b, moves[i])
  {
    if moves == [] then [] else [MoveScore(b, moves[0])] + RootScores(b, moves[1..])
  }

  /** `getHardMove`: the first available move with the strictly greatest score,
      or null when no cell is free. */
  function HardMove(b: Board): (r: Option<nat>)
    ensures r.None? <==> EmptyCount(b) == 0
    ensures r.Some? ==> r.value < 9 && b[r.value] == Empty
  {
    var moves := Available(b);
    if |moves| == 0 then None
    else Some(moves[FirstMax(RootScores(b, moves))])
  }

  /** The move chosen has the greatest score of all free cells, and every free
      cell before it scores strictly less: ties go to the lowest index. */
  lemma HardMoveIsFirstBest(b: Board)
    requires EmptyCount(b) > 0
    ensures forall m :: 0 <= m < 9 && b[m] == Empty ==> MoveScore(b, m) <= MoveScore(b, HardMove(b).value)
    ensures forall m :: 0 <= m < HardMove(b).value && b[m] == Empty ==> MoveScore(b, m) < MoveScore(b, HardMove(b).value)
  {
    var moves := Available(b);
    AvailableIsFreeAscending(b);
    var scores := RootScores(b, moves);
    var k := FirstMax(scores);
    assert HardMove(b).value == moves[k];
    forall m | 0 <= m < 9 && b[m] == Empty
      ensures MoveScore(b, m) <= MoveScore(b, moves[k])
      ensures m < moves[k] ==> MoveScore(b, m) < MoveScore(b, moves[k])
    {
      assert m in moves;
      var j :| 0 <= j < |moves| && moves[j] == m;
      assert scores[j] <= scores[k];
      if m < moves[k] {
        AscendingOrder(moves, j, k);
      }
    }
  }

  /** An immediate win for O scores exactly 10. */
  lemma ImmediateWinScoresTen(b: Board, m: Index)
    requires b[m] == Empty
    requires WinsFor(b[m := O], O)
    ensures MoveScore(b, m) == 10
  {
  }

  /** Any other free cell scores at most 9: a later O win is found at depth 2 or
      deeper, and every other outcome is 0 or negative. */
  lemma OtherMovesScoreBelowTen(b: Board, m: Index)
    requires b[m] == Empty
    requires !WinsFor(b[m := O], O)
    ensures MoveScore(b, m) <= 9
  {
    var next := b[m := O];
    PlaceShrinks(b, m, O);
    if !WinsFor(next, X) && EmptyCount(next) != 0 {
      var scores := ChildScores(next, 0, 0, false);
      assert forall i :: 0 <= i < |scores| ==> scores[i] <= 9;
    }
  }

  /** A first-best cell wins at once whenever some free cell does. */
  lemma FirstBestTakesWin(b: Board, r: Index, w: Index)
    requires b[r] == Empty && b[w] == Empty && WinsFor(b[w := O], O)
    requires MoveScore(b, w) <= MoveScore(b, r)
    ensures WinsFor(b[r := O], O)
  {
    ImmediateWinScoresTen(b, w);
    if !WinsFor(b[r := O], O) {
      OtherMovesScoreBelowTen(b, r);
    }
  }

  /** Below a winning first-best cell no free cell wins. */
  lemma NoEarlierWin(b: Board, r: Index, m: Index)
    requires b[r] == Empty && b[m] == Empty && WinsFor(b[r := O], O)
    requires MoveScore(b, m) < MoveScore(b, r)
    ensures !WinsFor(b[m := O], O)
  {
    ImmediateWinScoresTen(b, r);
    if WinsFor(b[m := O], O) {
      ImmediateWinScoresTen(b, m);
    }
  }

  /** The Hard tier always completes a line when it can, taking the first such
      cell in index order. */
  lemma HardTakesImmediateWin(b: Board, w: Index)
    requires b[w] == Empty && WinsFor(b[w := O], O)
    ensures HardMove(b).Some?
    ensures WinsFor(b[HardMove(b).value := O], O)
    ensures forall m :: 0 <= m < HardMove(b).value && b[m] == Empty ==> !WinsFor(b[m := O], O)
  {
    assert w in Available(b);
    var h := HardMove(b);
    var r: Index := h.value;
    HardMoveIsFirstBest(b);
    assert MoveScore(b, w) <= MoveScore(b, r);
    FirstBestTakesWin(b, r, w);
    forall m | 0 <= m < r && b[m] == Empty
      ensures !WinsFor(b[m := O], O)
    {
      assert MoveScore(b, m) < MoveScore(b, r);
      NoEarlierWin(b, r, m);
    }
  }

  /** Every score the Hard tier compares lies in [-10, 10]. */
  lemma MoveScoreInRange(b: Board, m: Index)
    requires b[m] == Empty
    ensures -10 <= MoveScore(b, m) <= 10
  {
    PlaceShrinks(b, m, O);
  }

}

=== FILE: ttt_minimax_plain.dfy ===
/** The unweighted minimax of game/tic-tac-toc/script.js. It returns
    `{index, score}`: terminal positions score -10 (X has a line, checked first),
    10 (O has a line) or 0 (full board) and carry no index; otherwise every free
    cell is tried for the player to move, O keeps the first maximal score and X
    the first minimal one. */
module TttMinimaxPlain {
  import opened Wrappers
  import opened TttBoard
  import opened SeqExtremes

  /** The `{index, score}` object; `index` is absent on terminal positions. */
  datatype Eval = Eval(index: Option<nat>, score: int)

  predicate Terminal(b: Board)
  {
    WinsFor(b, X) || WinsFor(b, O) || EmptyCount(b) == 0
  }

  /** The three scores the search can produce. */
  predicate IsPlainScore(v: int)
  {
    v == -10 || v == 0 || v == 10
  }

  function Minimax(b: Board, p: Player): (r: Eval)
    ensures IsPlainScore(r.score)
    ensures r.index.None? <==> Terminal(b)
    ensures r.index.Some? ==> r.index.value < 9 && b[r.index.value] == Empty
    decreases EmptyCount(b), 1, 0
  {
    var moves := Available(b);
    if WinsFor(b, X) then Eval(None, -10)
    else if WinsFor(b, O) then Eval(None, 10)
    else if |moves| == 0 then Eval(None, 0)
    else
      var scores := Scores(b, moves, p);
      var k := if p == O then FirstMax(scores) else FirstMin(scores);
      Eval(Some(moves[k]), scores[k])
  }

  /** The `moves` array: the score of each trial placement of `p`. */
  function Scores(b: Board, moves: seq<nat>, p: Player): (r: seq<int>)
    requires AllFree(b, moves)
    ensures |r| == |moves|
    ensures forall i :: 0 <= i < |r| ==> IsPlainScore(r[i])
    decreases EmptyCount(b), 0, |moves|
  {
    if moves == [] then []
    else
      PlaceShrinks(b, moves[0], p);
      [Minimax(b[moves[0] := p], Other(p)).score] + Scores(b, moves[1..], p)
  }

  /** The score of trying `p` at free cell `m`. */
  function TrialScore(b: Board, m: Index, p: Player): int
    requires b[m] == Empty
  {
    PlaceShrinks(b, m, p);
    Minimax(b[m := p], Other(p)).score
  }

  lemma {:induction false} ScoresAreTrials(b: Board, moves: seq<nat>, p: Player)
    requires AllFree(b, moves)
    ensures forall i :: 0 <= i < |moves| ==> Scores(b, moves, p)[i] == TrialScore(b, moves[i], p)
    decreases |moves|
  {
    if moves != [] {
      ScoresAreTrials(b, moves[1..], p);
    }
  }

  /** A list holding each move's trial score is the `moves` array. */
  lemma TrialsMakeScores(b: Board, moves: seq<nat>, p: Player, scores: seq<int>)
    requires AllFree(b, moves)
    requires |scores| == |moves|
    requires forall i :: 0 <= i < |moves| ==> scores[i] == TrialScore(b, moves[i], p)
    ensures scores == Scores(b, moves, p)
  {
    ScoresAreTrials(b, moves, p);
  }

  /** The terminal checks come in the source's order: an X line wins over an O
      line, and either wins over a full board. */
  lemma TerminalOrder(b: Board, p: Player)
    ensures WinsFor(b, X) ==> Minimax(b, p).score == -10
    ensures !WinsFor(b, X) && WinsFor(b, O) ==> Minimax(b, p).score == 10
    ensures !WinsFor(b, X) && !WinsFor(b, O) && Full(b) ==> Minimax(b, p).score == 0
  {
    FullIffNoMoves(b);
  }

  /** On a live position the index returned is the first free cell with the best
      trial score for the player to move: maximal for O, minimal for X. */
  lemma PicksFirstBest(b: Board, p: Player)
    requires !Terminal(b)
    ensures var r := Minimax(b, p);
      && r.index.Some?
      && r.score == TrialScore(b, r.index.value, p)
      && (p == O ==> forall m: Index :: b[m] == Empty ==> TrialScore(b, m, p) <= r.score)
      && (p == O ==> forall m: Index :: m < r.index.value && b[m] == Empty ==> TrialScore(b, m, p) < r.score)
      && (p == X ==> forall m: Index :: b[m] == Empty ==> r.score <= TrialScore(b, m, p))
      && (p == X ==> forall m: Index :: m < r.index.value && b[m] == Empty ==> r.score < TrialScore(b, m, p))
  {
    var moves := Available(b);
    AvailableIsFreeAscending(b);
    var scores := Scores(b, moves, p);
    ScoresAreTrials(b, moves, p);
    var k := if p == O then FirstMax(scores) else FirstMin(scores);
    assert Minimax(b, p) == Eval(Some(moves[k]), scores[k]);
    forall m: Index | b[m] == Empty
      ensures p == O ==> TrialScore(b, m, p) <= scores[k]
      ensures p == O && m < moves[k] ==> TrialScore(b, m, p) < scores[k]
      ensures p == X ==> scores[k] <= TrialScore(b, m, p)
      ensures p == X && m < moves[k] ==> scores[k] < TrialScore(b, m, p)
    {
      assert m in moves;
      var j :| 0 <= j < |moves| && moves[j] == m;
      if m < moves[k] {
        AscendingOrder(moves, j, k);
      }
    }
  }

  /** Without depth weighting a quick win and a slow one look alike, but O never
      settles for less than a win it could take at once: when O to move has an
      immediately winning cell, the search reports 10 and the cell it returns
      also forces a win. */
  lemma ImmediateWinScoresTen(b: Board, w: Index)
    requires !Terminal(b)
    requires b[w] == Empty && WinsFor(b[w := O], O)
    ensures Minimax(b, O).score == 10
    ensures TrialScore(b, Minimax(b, O).index.value, O) == 10
  {
    PlacingKeepsOpponentLines(b, w, O);
    assert TrialScore(b, w, O) == 10;
    PicksFirstBest(b, O);
  }

  /** The source's search, as written: one board array is mutated in place, each
      trial mark is written, searched below and erased again, and the best entry
      of the collected `moves` is chosen by a second loop. The board handed back
      is the one received, and the result is the one `Minimax` defines. */
  method MinimaxInPlace(board: Board, p: Player) returns (r: Eval, after: Board)
    ensures after == board
    ensures r == Minimax(board, p)
    decreases EmptyCount(board), 2
  {
    var available := Available(board);
    if WinsFor(board, X) {
      return Eval(None, -10), board;
    } else if WinsFor(board, O) {
      return Eval(None, 10), board;
    } else if |available| == 0 {
      return Eval(None, 0), board;
    }
    var scores;
    scores, after := TryEachMove(board, available, p);
    var best := ChooseBest(scores, p);
    r := Eval(Some(available[best]), scores[best]);
  }

  /** The first loop of `minimax`: place, recurse, undo, record the score. */
  method TryEachMove(board: Board, available: seq<nat>, p: Player) returns (scores: seq<int>, after: Board)
    requires AllFree(board, available)
    ensures after == board
    ensures scores == Scores(board, available, p)
    decreases EmptyCount(board), 1
  {
    var work := board;
    scores := [];
    var i := 0;
    while i < |available|
      invariant 0 <= i <= |available|
      invariant work == board
      invariant |scores| == i
      invariant forall q :: 0 <= q < i ==> scores[q] == TrialScore(board, available[q], p)
    {
      var score;
      var m: Index := available[i];
      score, work := TryOne(work, m, p);
      ghost var prev := scores;
      scores := scores + [score];
      forall q | 0 <= q < i + 1
        ensures scores[q] == TrialScore(board, available[q], p)
      {
        if q < i {
          assert scores[q] == prev[q];
        }
      }
      i := i + 1;
    }
    TrialsMakeScores(board, available, p, scores);
    after := work;
  }

  /** One pass of that loop: the trial mark is written, the position below is
      searched, and the cell is emptied again. */
  method TryOne(board: Board, m: Index, p: Player) returns (score: int, after: Board)
    requires board[m] == Empty
    ensures after == board
    ensures score == TrialScore(board, m, p)
    decreases EmptyCount(board), 0
  {
    PlaceShrinks(board, m, p);
    var work := board[m := p];
    var child, back := MinimaxInPlace(work, Other(p));
    score := child.score;
    after := back[m := Empty];
    assert after == board;
  }

  /** The second loop of `minimax`: `bestScore` starts at -Infinity for O (and
      Infinity for X), so entry 0 is always taken first and later entries only
      replace it when strictly better. */
  method ChooseBest(scores: seq<int>, p: Player) returns (best: nat)
    requires |scores| > 0
    ensures best == if p == O then FirstMax(scores) else FirstMin(scores)
  {
    best := 0;
    var j := 1;
    while j < |scores|
      invariant 0 <= best < j <= |scores|
      invariant p == O ==> forall q :: 0 <= q < j ==> scores[q] <= scores[best]
      invariant p == O ==> forall q :: 0 <= q < best ==> scores[q] < scores[best]
      invariant p == X ==> forall q :: 0 <= q < j ==> scores[best] <= scores[q]
      invariant p == X ==> forall q :: 0 <= q < best ==> scores[best] < scores[q]
    {
      if (p == O && scores[j] > scores[best]) || (p == X && scores[j] < scores[best]) {
        best := j;
      }
      j := j + 1;
    }
    if p == O {
      FirstMaxUnique(scores, best);
    } else {
      FirstMinUnique(scores, best);
    }
  }

}

=== FILE: ttt_play.dfy ===
/** The move rule common to the three Tic-Tac-Toe copies: `makeMove` writes the
    current player's mark, then checks for a win (`handleWin`), then for a full
    board (`handleDraw`), and otherwise hands the turn over (`switchPlayer`). */
module TttPlay {
  import opened TttBoard

  /** Player against player, or player (X) against the computer (O). */
  datatype Mode = PvP | PvC

  /** The AI tiers offered by the difficulty select. */
  datatype Difficulty = Easy | Medium | Hard

  /** The fields `makeMove` reads and writes. */
  datatype Turn = Turn(board: Board, current: Player, active: bool, scores: Scores)

  /** `resetGame` / `resetBoard`: empty board, X to move, play enabled; the scores
      are kept. */
  function FreshTurn(scores: Scores): (r: Turn)
    ensures Consistent(r) && r.active && r.scores == scores
    ensures r.board == EmptyBoard && r.current == X
  {
    CountOfEmptyBoard(X);
    CountOfEmptyBoard(O);
    assert !WinsFor(EmptyBoard, X) by { WinsForIffThreeInARow(EmptyBoard, X); }
    assert !WinsFor(EmptyBoard, O) by { WinsForIffThreeInARow(EmptyBoard, O); }
    assert EmptyBoard[0] == Empty;
    Turn(EmptyBoard, X, true, scores)
  }

  /** A live round has no completed line and a free cell, and its marks are
      balanced with the player to move; a finished round may hold anything. */
  predicate Consistent(t: Turn)
  {
    t.active ==> !WinsFor(t.board, X) && !WinsFor(t.board, O) && !Full(t.board) && Balanced(t.board, t.current)
  }

  /** `makeMove(index)` */
  function PlayAt(t: Turn, index: Index): (r: Turn)
    ensures r.board == t.board[index := t.current]
    ensures WinsFor(r.board, t.current) ==>
              !r.active && r.current == t.current && r.scores == Credit(t.scores, t.current)
    ensures !WinsFor(r.board, t.current) && Full(r.board) ==>
              !r.active && r.current == t.current && r.scores == t.scores
    ensures !WinsFor(r.board, t.current) && !Full(r.board) ==>
              r.active == t.active && r.current == Other(t.current) && r.scores == t.scores
  {
    var b := t.board[index := t.current];
    if WinsFor(b, t.current) then t.(board := b, active := false, scores := Credit(t.scores, t.current))
    else if Full(b) then t.(board := b, active := false)
    else t.(board := b, current := Other(t.current))
  }

  /** On a live round, a move on a free cell keeps the round consistent: the mover
      is the only player who can have completed a line, and the marks stay
      balanced. */
  lemma PlayAtKeepsConsistent(t: Turn, index: Index)
    requires Consistent(t) && t.active && t.board[index] == Empty
    ensures Consistent(PlayAt(t, index))
  {
    var b := t.board[index := t.current];
    CountAfterWrite(t.board, index, t.current, X);
    CountAfterWrite(t.board, index, t.current, O);
    PlacingKeepsOpponentLines(t.board, index, t.current);
  }

}

=== FILE: wrappers.dfy ===
/** Optional values: the model's stand-in for JavaScript's `null`/`undefined` results. */
module Wrappers {

  datatype Option<+T> = None | Some(value: T)

}
